=== FILE: README.md ===
# MCP tool servers, modelled in Dafny

This project models the tool handlers of a set of Model Context Protocol
servers. The handlers expose file, search, Excel and "insight" operations to
a language model.

- **File handlers.** `archive/file_operation_server.py` lists, reads, writes,
  copies, moves and deletes files, and creates and deletes directories.
- **Search handlers.** `archive/file_search_tool.py` implements
  `search_files`, `list_files`, `find_files` and `guess_mime_type`.
- **Excel dispatcher.** `archive/excel_mcp_server.py` holds a six-tool
  catalog, the `call_tool` dispatcher and the handlers it drives.
- **Unified server.** `src/unified-mcp-server.py` merges the above: its own
  `search_files`, `read_file` and `write_file`, an `ExcelManager` that keeps
  Excel hidden, and the `save_insight_result` and `list_insight_results`
  store.
- **Project analyzer.** `project_integration_analyzer.py` derives
  technologies and key files from a directory walk and intersects the
  technologies of several projects.

Each handler is a pure function or method over an explicit state:

- The file system is a map from absolute paths (sequences of components;
  the root is the empty path) to entries. An entry is a file (text, byte
  size, modification time, whether it decodes as UTF-8) or a directory.
- Every file handler returns the file system afterwards together with a
  typed reply: a payload or an error.
- The environment's order of results is an input: the list a `glob`
  returns, the steps `os.walk` yields.
- The Excel application is an explicit `State` together with a `Backend`.
  The backend says which workbooks open, which addresses are bad, what
  formulas evaluate to and whether saving works.
- The insight directory is a sequence of stored files.

Modules:

| file | module | contents |
|---|---|---|
| wrappers.dfy | Wrappers | `Option`, `Result` |
| limits.dfy | Limits | `Min`, `Cap` (a negative limit counts as 0), `Limited` (take the first n) |
| text.dfy | Text | `in`, `lower`, `strip`, `split`/`join`, the UTF-8 byte length, `str(n)` |
| lines.dfy | Lines | universal newlines, the lines a file iterator yields, `splitlines` |
| filesystem.dfy | FileSystem | paths, entries, well-formedness, `os.makedirs`, subtree removal, rename |
| fileops.dfy | FileOps | the eight handlers of the file operation server |
| unified_files.dfy | UnifiedFiles | `read_file` and `write_file` of the unified server |
| content_search.dfy | ContentSearch | `search_files` (both variants) |
| file_listing.dfy | FileListing | `splitext`, `guess_mime_type`, `list_files`, `fnmatch`, `find_files` |
| excel.dfy | Excel | the Excel tool catalog, dispatcher and handlers; the unified `ExcelManager` |
| insights.dfy | Insights | saving and listing analysis results |
| project_analyzer.dfy | ProjectAnalyzer | project analysis and the integration plan |

## Model

| member | source | states |
|---|---|---|
| Text.Lower | archive/file_search_tool.py:70 | lower-casing keeps the length and folds each character on its own |
| Text.LowerIdempotent | archive/file_search_tool.py:70 | lower-casing twice is lower-casing once |
| Text.ContainsIffOccurs | src/unified-mcp-server.py:69 | the sliding `k in s` holds exactly when `k` occurs at some index of `s` |
| Text.Strip | src/unified-mcp-server.py:72 | the stripped line is no longer than the line and neither starts nor ends with whitespace |
| Text.StripIsTrimmedSlice | src/unified-mcp-server.py:72 | the stripped line is a slice of the line with only whitespace cut off on either side |
| Text.Utf8Length | src/unified-mcp-server.py:183 | the byte length lies between the character count and four times it |
| Text.Utf8LengthAppend | src/unified-mcp-server.py:183 | the byte length of a concatenation is the sum of the byte lengths |
| Text.Utf8LengthAscii | src/unified-mcp-server.py:183 | ASCII text takes one byte per character |
| Text.SplitJoin | archive/excel_mcp_server.py:265 | splitting a newline-joined list gives the list back when no item holds a newline |
| Text.NatTextRoundTrip | archive/excel_mcp_server.py:185 | the decimal text of a count reads back as the same count |
| Lines.Translate | archive/file_operation_server.py:100-101 | text read in text mode holds no carriage return and is no longer than the raw text |
| Lines.TranslateNoCarriageReturn | archive/file_operation_server.py:100-101 | text without a carriage return reads back unchanged |
| Lines.TranslateIdempotent | archive/file_operation_server.py:100-101 | translating translated text changes nothing |
| Lines.ReadLines | src/unified-mcp-server.py:65 | each iterated line is non-empty, holds a newline only at its end, and every line but the last ends with one |
| Lines.ReadLinesConcat | src/unified-mcp-server.py:65 | the iterated lines concatenate back to the text |
| Lines.SplitLines | src/unified-mcp-server.py:151 | `splitlines` is empty exactly for empty text and has at most one piece per character |
| Lines.SplitLinesCountsReadLines | src/unified-mcp-server.py:151 | when the only line boundary is '\n', `splitlines` and iteration count the same lines |
| FileSystem.AncestorsAreDirs | archive/file_operation_server.py:149 | in a well-formed tree every proper ancestor of an entry is a directory |
| FileSystem.FileHasNoDescendants | archive/file_operation_server.py:312-317 | nothing lies below a file |
| FileSystem.MakeDirs | archive/file_operation_server.py:149 | `os.makedirs` creates the directory, keeps every entry, adds only directories on the way, keeps the tree well formed, and for an existing path succeeds unchanged only with `exist_ok` and a directory |
| FileSystem.MakeDirsUnderDir | archive/file_operation_server.py:355 | below an existing directory, makedirs adds exactly one directory |
| FileSystem.MakeDirsExisting | archive/file_operation_server.py:149 | with `exist_ok`, an existing directory is left as it is |
| FileSystem.MakeDirsFailsIffFileOnPath | archive/file_operation_server.py:149 | with `exist_ok`, makedirs fails exactly when some prefix of the path is a file |
| FileSystem.RemoveSubtree | archive/file_operation_server.py:396-397 | `rmtree` removes exactly the entries at or below the root and keeps the rest unchanged |
| FileSystem.RemoveSubtreeWellFormed | archive/file_operation_server.py:396-397 | removing a non-root subtree keeps the tree well formed |
| FileSystem.RenameMoves | archive/file_operation_server.py:282 | every entry below the source reappears, unchanged, at the corresponding place below the target |
| FileSystem.RenameFile | archive/file_operation_server.py:282 | renaming a file onto a free path removes it at the source and places its entry at the target |
| FileSystem.RenameKeeps | archive/file_operation_server.py:282 | entries outside the source and the target are untouched |
| FileSystem.RenameVacates | archive/file_operation_server.py:282 | when nothing lies at or below the target, the source is gone afterwards |
| FileSystem.RenameWellFormed | archive/file_operation_server.py:279-282 | renaming into an existing directory, not into the source itself, keeps the tree well formed |
| FileOps.ChildNames | archive/file_operation_server.py:53-62 | the names collected are exactly the children of the requested kind |
| FileOps.ListDirectory | archive/file_operation_server.py:18-66 | a missing path and a file are errors; on success, directories and files are exactly the children of each kind, and no name is both |
| FileOps.SizeLimitMegabytes | archive/file_operation_server.py:91-95 | the limit stated in megabytes is the least whole number of megabytes covering 1,000,000 bytes |
| FileOps.ReadFile | archive/file_operation_server.py:70-117 | corrected: the too-large error carries the corrected 1 MB limit, not the 0 the source's message shows; the errors in order (missing, not a file, above 1,000,000 bytes, not UTF-8); success exactly for a small decodable file, with its size and its universal-newline text |
| FileOps.WriteFile | archive/file_operation_server.py:121-160 | a directory target and an existing file without `overwrite` are refused; a failure changes nothing; success writes the file, keeps every other entry, adds only parent directories and keeps the tree well formed |
| FileOps.WriteFileOnlyTarget | archive/file_operation_server.py:138-152 | below an existing directory, a write changes the target entry and nothing else |
| FileOps.WriteFileSucceedsIff | archive/file_operation_server.py:138-152 | a write succeeds exactly when the target is no directory, is free or `overwrite` is set, and no prefix of its parent is a file |
| FileOps.WriteThenRead | archive/file_operation_server.py:100-152 | a small written text reads back as its universal-newline form, and unchanged when it has no carriage return |
| FileOps.Destination | archive/file_operation_server.py:189-194 | an existing directory destination means the source's name inside it; any other destination is the target itself |
| FileOps.CopyFile | archive/file_operation_server.py:164-214 | the errors in order; success leaves the source, gives the target the source's entry, keeps every other entry, adds nothing but directories on the way to the target, and keeps the tree well formed; a failure changes nothing |
| FileOps.CopyPreservesContent | archive/file_operation_server.py:205 | after a copy, target and source hold the source's original entry |
| FileOps.MoveFile | archive/file_operation_server.py:218-291 | corrected move: the errors in order, directory targets refused under `overwrite`, moving a file onto itself changes nothing, and a failure changes nothing |
| FileOps.MoveOntoItselfKeepsFile | archive/file_operation_server.py:254-282 | moving a file onto itself under `overwrite` succeeds and keeps the file |
| FileOps.MoveFileMoves | archive/file_operation_server.py:279-282 | a successful move vacates the source, places the source's subtree at the target, keeps the other entries and keeps the tree well formed |
| FileOps.MoveFileAgreesElsewhere | archive/file_operation_server.py:236-282 | except when the target is the source or lies inside it, the corrected move is the move as written |
| FileOps.MoveFileAsWritten | archive/file_operation_server.py:218-291 | the move as written: a missing source and an existing target without `overwrite` are refused unchanged |
| FileOps.MoveOntoItselfLosesFile | archive/file_operation_server.py:254-282 | as written, moving a file onto itself with `overwrite` deletes it and then reports it missing |
| FileOps.MoveOntoItselfExample | archive/file_operation_server.py:254-282 | a one-file tree loses that file when it is moved onto itself |
| FileOps.SizeLimitMegabytesAsWritten | archive/file_operation_server.py:94 | the message's limit computed as written |
| FileOps.SizeLimitMessageSaysZero | archive/file_operation_server.py:91-94 | the limit printed is 0 MB although files above 1,000,000 bytes are refused |
| FileOps.DeleteFile | archive/file_operation_server.py:295-325 | a missing path and a directory are refused unchanged; success exactly for a file, which is the only entry removed |
| FileOps.DeleteFileWellFormed | archive/file_operation_server.py:317 | deleting a file keeps the tree well formed |
| FileOps.WriteThenDelete | archive/file_operation_server.py:121-325 | writing a new file and deleting it restores the file system |
| FileOps.DeleteTwice | archive/file_operation_server.py:308-310 | a second delete of the same file reports it missing |
| FileOps.CreateDirectory | archive/file_operation_server.py:329-363 | an existing file is refused, an existing directory is a success without change; creation keeps every entry, adds only directories on the path, and keeps the tree well formed |
| FileOps.CreateDirectoryIdempotent | archive/file_operation_server.py:347-355 | creating a created directory again changes nothing |
| FileOps.CreateDirectoryFailsIff | archive/file_operation_server.py:343-355 | creation fails exactly when some prefix of the path is a file |
| FileOps.DeleteDirectory | archive/file_operation_server.py:367-408 | the errors in order (missing, a file, not empty without `recursive`); success removes exactly the subtree; no entry is added or changed |
| FileOps.NonEmptyBelow | archive/file_operation_server.py:391 | in a well-formed tree a directory with anything below it has a child |
| FileOps.DeleteDirectoryWellFormed | archive/file_operation_server.py:396-400 | deleting a directory keeps the tree well formed |
| FileOps.CreateThenDeleteDirectory | archive/file_operation_server.py:329-408 | creating a fresh directory and deleting it restores the file system |
| UnifiedFiles.LineCount | src/unified-mcp-server.py:151 | the line count is 0 exactly for empty content and never exceeds its length |
| UnifiedFiles.LineCountOfTranslated | src/unified-mcp-server.py:130-151 | for text whose only boundaries are CR and LF, the count is the number of lines iteration yields |
| UnifiedFiles.TranslateKeepsBoundaries | src/unified-mcp-server.py:130-131 | after translation the only line boundary left is '\n' |
| UnifiedFiles.ReadFile | src/unified-mcp-server.py:111-155 | the errors in order (missing, not a file, above 10 MiB); success exactly for a file within the limit; text exactly when decodable, with its universal-newline content and the `splitlines` count of that content |
| UnifiedFiles.ReadAgreesWithArchive | src/unified-mcp-server.py:111-155 | whatever the file operation server reads, the unified server reads as the same text |
| UnifiedFiles.WriteFile | src/unified-mcp-server.py:158-188 | an existing path without `overwrite` is refused unchanged; success writes the file, reports its UTF-8 byte size, keeps every other entry and adds only parent directories |
| UnifiedFiles.WriteAgreesWithArchive | src/unified-mcp-server.py:169-178 | on a well-formed tree both servers' writes leave the same file system and succeed together |
| UnifiedFiles.MakeDirsIgnoresExistOk | src/unified-mcp-server.py:174-175 | for a missing directory, makedirs without `exist_ok` acts as with it |
| UnifiedFiles.WriteThenRead | src/unified-mcp-server.py:111-188 | a written text within the limit reads back as text with its byte size, translated content and matching line count |
| UnifiedFiles.TranslateEmpty | src/unified-mcp-server.py:151 | translated content is empty exactly when the raw content is |
| ContentSearch.CaseInsensitiveFindsMore | archive/file_search_tool.py:63-74 | under ASCII folding, a line matched with case is matched without it |
| ContentSearch.MatchFlags | archive/file_search_tool.py:59-74 | each line's flag is whether that line matches |
| ContentSearch.SetPositionsSound | archive/file_search_tool.py:59-68 | every reported line number is a matching line |
| ContentSearch.SetPositionsComplete | archive/file_search_tool.py:59-68 | every matching line's number is reported |
| ContentSearch.MatchedLineNumbersIff | archive/file_search_tool.py:59-74 | line j matches exactly when j + 1 is among the reported numbers |
| ContentSearch.MatchLines | archive/file_search_tool.py:59-74 | the matches carry increasing 1-based line numbers within the file and the stripped text of their line |
| ContentSearch.HitFor | archive/file_search_tool.py:51-88 | a candidate is a hit exactly when it is a decodable file with a matching line; the count is the number of matches |
| ContentSearch.AllHitsExact | archive/file_search_tool.py:50-88 | every collected hit comes from a candidate, and every candidate's hit is collected |
| ContentSearch.AllHitsPrefix | archive/file_search_tool.py:50-91 | the hits of a prefix of the candidates are a prefix of all hits |
| ContentSearch.Search | archive/file_search_tool.py:15-110 | the errors (missing path, not a directory in the archive variant, empty keyword), each with its own error value; the results are the first `max_results` hits; the count exceeds them by one exactly when more hits exist |
| ContentSearch.Scan | src/unified-mcp-server.py:57-93 | the loop returns the first `cap` hits and counts up to one more |
| ContentSearch.OverflowingHit | src/unified-mcp-server.py:83-93 | the hit after `cap` hits ends the loop, and more than `cap` hits exist |
| FileListing.LastIndexOf | archive/file_search_tool.py:168 | the index found holds the character and nothing after it does; none means it is absent |
| FileListing.Extension | archive/file_search_tool.py:168 | `splitext` gives empty or a dotted suffix of the name without another dot |
| FileListing.ExtensionOfHiddenFile | archive/file_search_tool.py:168 | a name with a single leading dot has no extension |
| FileListing.ExtensionOfSuffix | archive/file_search_tool.py:168 | a name with a non-dot stem gets its last dotted suffix as its extension |
| FileListing.Lookup | archive/file_search_tool.py:419-479 | a lookup finds the key's entry or the key is absent from the table |
| FileListing.GuessMimeType | archive/file_search_tool.py:419-479 | the type of the lower-cased extension, or `application/octet-stream` |
| FileListing.GuessMimeTypeIgnoresCase | archive/file_search_tool.py:479 | the guess does not depend on the extension's case |
| FileListing.ItemFor | archive/file_search_tool.py:163-170 | a file's item carries its path, base name, size and modification time |
| FileListing.ItemExtension | archive/file_search_tool.py:168 | a file's "extension" key is empty or a dotted suffix of its lower-cased name |
| FileListing.ListFromBounds | archive/file_search_tool.py:150-171 | the loop reports at most `max_results` items, and directories only when asked |
| FileListing.ListFromEntries | archive/file_search_tool.py:150-171 | every reported file is an existing file with its item and every reported directory an existing directory |
| FileListing.ListFiles | archive/file_search_tool.py:114-186 | missing path and file errors; the totals add up, stay within `max_results`, omit directories unless asked, and describe the file system |
| FileListing.SweepMatches | archive/file_search_tool.py:150-171 | from any point of the loop, its outcome is the items collected so far followed by what the reference lists with the budget left |
| FileListing.CollectListing | archive/file_search_tool.py:150-171 | the loop computes the reference listing |
| FileListing.FnMatchLiteral | archive/file_search_tool.py:355 | a pattern without wildcards matches only itself |
| FileListing.FnMatchSuffix | archive/file_search_tool.py:355 | a name matching a pattern that ends in literal text ends in that text |
| FileListing.FnMatchStarSuffix | archive/file_search_tool.py:355 | `*` followed by literal text matches exactly the names ending in it |
| FileListing.NormalizeExtension | archive/file_search_tool.py:323-324 | an extension gains a leading dot when it lacks one and is otherwise kept; empty stays empty |
| FileListing.NormalizeExtensionIdempotent | archive/file_search_tool.py:323-324 | normalising twice is normalising once |
| FileListing.BuildPatternAsWritten | archive/file_search_tool.py:326-338 | as written: no extension keeps the pattern, a trailing `*` is replaced by the extension, otherwise it is appended |
| FileListing.StarPatternMatchesOnlyExtension | archive/file_search_tool.py:326-355 | as written, `*` with an extension becomes the bare extension and matches only the name equal to it |
| FileListing.StarPatternMissesMainPy | archive/file_search_tool.py:323-355 | as written, `*` with `py` misses `main.py`; the corrected pattern selects it |
| FileListing.BuildPattern | archive/file_search_tool.py:326-338 | corrected: the pattern keeps the name pattern and ends in the extension |
| FileListing.BuildPatternRequiresExtension | archive/file_search_tool.py:326-355 | every name the corrected pattern selects ends in the extension |
| FileListing.StarPatternSelectsExtension | archive/file_search_tool.py:326-355 | the corrected `*` pattern selects exactly the names ending in the extension |
| FileListing.BuildPatternAgrees | archive/file_search_tool.py:326-338 | the corrected pattern is the one as written unless the name pattern ends in `*` |
| FileListing.VisitedOnlyTop | archive/file_search_tool.py:344-346 | without `recursive`, only files directly in the top directory are visited |
| FileListing.VisitedAll | archive/file_search_tool.py:344-352 | with `recursive`, every walked file is visited |
| FileListing.FindFromSound | archive/file_search_tool.py:348-380 | at most `max_results` items are found, and each is an accepted file with its item |
| FileListing.FindFromComplete | archive/file_search_tool.py:348-383 | below the limit, every accepted visited file is found |
| FileListing.FindFromFails | archive/file_search_tool.py:359-369 | the loop fails only on a visited path that is not a file, or on a file that reaches a time bound with a UTC offset |
| FileListing.FindFromInOrder | archive/file_search_tool.py:344-383 | the items found are those of candidates at increasing positions: in walk order, each at most once |
| FileListing.ZonedFindsNothing | archive/file_search_tool.py:366-369 | with a bound carrying a UTC offset nothing is reported, and a scan that succeeds met no file reaching that bound |
| FileListing.CollectFound | archive/file_search_tool.py:341-383 | the loop computes the reference search |
| FileListing.VisitedFromWalk | archive/file_search_tool.py:344-352 | every visited path is a walked file: a step's directory joined with one of its names |
| FileListing.FindFiles | archive/file_search_tool.py:269-403 | corrected: filters with the corrected name pattern, so `*` with an extension selects every file with it; the errors in order (missing, not a directory, bad `modified_after`, bad `modified_before`); the normalised extension; the total equals the files found, within `max_results`; all accepted; the files are exactly those of the reference scan `FindFrom` with `max_results` as its budget, in walk order and each once; every reported file is a visited path, and without `recursive` each lies directly in the directory; every accepted file found below the limit; a bound with a UTC offset fails the search with `IncomparableTimes` once a file reaches it, and only then |
| FileListing.FindFromIn | archive/file_search_tool.py:344-383 | every item the scan reports is one of the candidate paths |
| FileListing.VisitedInTop | archive/file_search_tool.py:344-346 | without `recursive`, a visited path has the top directory as its parent |
| Excel.FindSheet | archive/excel_mcp_server.py:196 | the first sheet of that name, or none has it |
| Excel.SetCell | archive/excel_mcp_server.py:213 | a write sets one cell of one sheet and keeps the sheet names and every other cell |
| Excel.CatalogShape | archive/excel_mcp_server.py:31-135 | six tools with distinct names in catalog order; required and defaulted fields are declared properties |
| Excel.OpenExcelFile | archive/excel_mcp_server.py:174-188 | the application starts once with the requested visibility; the workbook is replaced only when the file opens, and the reply names it |
| Excel.Target | archive/excel_mcp_server.py:196-197 | a cell target is found only in a sheet of that name and at an address the backend accepts |
| Excel.ReadCell | archive/excel_mcp_server.py:190-204 | reading changes nothing; without a workbook says so; a found target replies with the cell's value under `sheet!cell`, anything else with the backend's error |
| Excel.WriteCell | archive/excel_mcp_server.py:206-220 | without a workbook or with a bad target nothing changes; otherwise the one cell is written |
| Excel.ExecuteFormula | archive/excel_mcp_server.py:222-239 | without a workbook, target or formula result nothing changes; otherwise the cell takes the formula's value |
| Excel.SaveWorkbook | archive/excel_mcp_server.py:241-256 | saving changes no state; the message names the path only when one is given |
| Excel.SheetLines | archive/excel_mcp_server.py:264-265 | one `- name` line per sheet, in order |
| Excel.ListSheets | archive/excel_mcp_server.py:258-272 | listing changes nothing, and without a workbook says so |
| Excel.ListSheetsLines | archive/excel_mcp_server.py:258-270 | the listing starts with its header and the rest splits back into one line per sheet |
| Excel.Dispatch | archive/excel_mcp_server.py:137-172 | a call that fails to parse replies `エラー: ` with the reason and changes nothing; otherwise the handler runs |
| Excel.FirstMissing | archive/excel_mcp_server.py:140-167 | the first required key absent from the arguments, or none is absent |
| Excel.DispatchRequiresCatalogFields | archive/excel_mcp_server.py:31-167 | for each catalog tool, the call fails exactly when a required field is missing, and the error names the first one |
| Excel.UnknownToolIsReported | archive/excel_mcp_server.py:168-172 | a name outside the catalog is reported as an unknown tool, without change |
| Excel.DispatchDefaults | archive/excel_mcp_server.py:143-164 | `visible` defaults to true and a save without `file_path` saves in place |
| Excel.NotOpenChangesNothing | archive/excel_mcp_server.py:192-261 | without a workbook every tool but open replies that none is open and changes nothing |
| Excel.ReadAfterFormula | archive/excel_mcp_server.py:222-239 | a cell read after a formula is set shows the backend's result for that formula |
| Excel.ReadAfterWrite | archive/excel_mcp_server.py:190-220 | a cell read after a successful write shows the written value |
| Excel.FindSheetByNames | archive/excel_mcp_server.py:196-212 | sheet lookup depends only on the sheet names |
| Excel.FailedWriteChangesNothing | archive/excel_mcp_server.py:211-220 | a write to a missing sheet reports the backend's error and changes nothing |
| Excel.SheetNames | src/unified-mcp-server.py:245 | the names reported are the sheets' names in order |
| Excel.ManagerOpen | src/unified-mcp-server.py:226-250 | when the application is running or starts and the file exists, the open succeeds with the path, sheet count and names; the application is created hidden only when absent and is hidden after a success; a failure keeps the workbook |
| Excel.ManagerRead | src/unified-mcp-server.py:252-269 | reading changes nothing; without a workbook says so; a found target replies with the sheet, the cell and its value, anything else with the backend's error |
| Excel.ManagerWrite | src/unified-mcp-server.py:271-288 | an error changes nothing; a write to an existing sheet and an accepted address replies `CellWritten` and sets that cell; otherwise the reply is `セル書き込みエラー: ` with the backend message |
| Excel.ManagerSave | src/unified-mcp-server.py:290-311 | a save that works replies `Saved`, one that fails replies `保存エラー: ` with the backend message; the application is hidden afterwards and neither started nor closed; the message names the path or `現在のファイル` |
| Excel.ManagerKeepsExcelHidden | src/unified-mcp-server.py:226-335 | starting hidden, Excel stays hidden through any sequence of tool calls |
| Excel.ManagerOpenAgrees | src/unified-mcp-server.py:317-320 | the unified open is the archive open with `visible` forced false |
| Excel.ManagerNotOpenChangesNothing | src/unified-mcp-server.py:253-292 | without a workbook every tool but open replies that none is open and changes nothing |
| Insights.HighCountCounts | src/unified-mcp-server.py:366 | the high-priority count is the number of insights whose priority is `high` |
| Insights.HighCountBound | src/unified-mcp-server.py:365-366 | the high-priority count never exceeds the total, and equals it exactly when all are high |
| Insights.MakeRecord | src/unified-mcp-server.py:362-369 | the record counts all insights and at most as many high ones |
| Insights.Put | src/unified-mcp-server.py:372-373 | the written file is present, every file present was there before or is the new one, and files at other paths stay |
| Insights.SaveInsight | src/unified-mcp-server.py:342-384 | the reply's path is `os.path.join` of the directory and `<name>_<stamp>.json` (an absolute name replaces the directory); the save fails only when the path runs through a directory that does not exist, and a failure changes nothing; only a file landing in the store changes it, stored under the last path component; files at other paths stay and nothing else is added |
| Insights.SavePlainName | src/unified-mcp-server.py:357-384 | a file name without `/` is saved as `insights_results/<name>_<stamp>.json` and replies that path |
| Insights.SaveThroughDot | src/unified-mcp-server.py:357-384 | `./<name>` stores the same file as `<name>`; only the reply's path keeps the `./` |
| Insights.SaveAboveStore | src/unified-mcp-server.py:357-384 | `../<name>` succeeds, writing beside the store, which stays unchanged |
| Insights.SaveAbsolute | src/unified-mcp-server.py:357-384 | an absolute name is the reply's whole path; the store is unchanged and the save succeeds as the outside file system allows |
| Insights.SaveIntoSubdirectoryFails | src/unified-mcp-server.py:357-384 | a name leading into a subdirectory of the store fails to open and changes nothing |
| Insights.JsonFiles | src/unified-mcp-server.py:397 | exactly the non-hidden `.json` files directly inside `insights_results` are listed, each from the directory |
| Insights.InsertPermutes | src/unified-mcp-server.py:398 | inserting keeps the files, as a multiset |
| Insights.InsertKeepsOrder | src/unified-mcp-server.py:398 | inserting into a newest-first list keeps it newest first |
| Insights.SortNewestFirstCorrect | src/unified-mcp-server.py:398 | sorting gives a newest-first permutation |
| Insights.SliceStop | src/unified-mcp-server.py:400 | `[:limit]` stops at the limit, or counts a negative limit from the end |
| Insights.Readable | src/unified-mcp-server.py:400-412 | every position collected holds a readable file |
| Insights.ReadableExact | src/unified-mcp-server.py:400-412 | the positions increase and include every readable file |
| Insights.SummariesFromReadable | src/unified-mcp-server.py:400-412 | the k-th entry summarises the k-th readable file, with the listing's defaults |
| Insights.ListInsights | src/unified-mcp-server.py:387-423 | a missing directory means nothing saved; the results are the entries of the selected newest files; the total found is the number listed, at most a non-negative `limit` |
| Insights.ListedNewestFirst | src/unified-mcp-server.py:396-412 | each listed entry comes from its own readable file, and the entries' files are newest first |
| Insights.SelectedAreNewest | src/unified-mcp-server.py:396-400 | the files opened are newest first, at most `limit`, and no older than any file left out; together with those left out they are exactly the JSON files |
| Insights.NegativeLimitDropsOldest | src/unified-mcp-server.py:400 | a negative `limit` drops that many of the oldest files |
| Insights.SaveThenList | src/unified-mcp-server.py:342-411 | for a name the listing's pattern selects, the save succeeds, and a save newer than everything else heads the next listing, with its name, timestamp and counts |
| ProjectAnalyzer.Suffix | project_integration_analyzer.py:26 | a suffix is empty or a dot with at least one more character, and ends a longer name |
| ProjectAnalyzer.TechOf | project_integration_analyzer.py:26-28 | a technology is one of the six, whose dotted form is the lower-cased suffix; none means no technology's dotted form is |
| ProjectAnalyzer.PresentIff | project_integration_analyzer.py:26-34 | a value is in the collected set exactly when some position holds it |
| ProjectAnalyzer.TechnologiesIff | project_integration_analyzer.py:20-34 | a technology is recorded exactly when some walked file shows it |
| ProjectAnalyzer.TechnologiesAreKnown | project_integration_analyzer.py:27-28 | every recorded technology is one of the six |
| ProjectAnalyzer.KeyFiles | project_integration_analyzer.py:31-32 | the key files are exactly the walked files whose lower-cased name is a key name |
| ProjectAnalyzer.AnalyzeProject | project_integration_analyzer.py:11-35 | the analysis names the project, lists every walked file in walk order, and takes its technologies and key files from that list |
| ProjectAnalyzer.AnalyzedFilesAreWalked | project_integration_analyzer.py:20-23 | every listed file is a walked file |
| ProjectAnalyzer.AnalysisIff | project_integration_analyzer.py:20-34 | the analysis records a technology exactly when a listed file shows it, and a key file exactly when a listed file has a key name |
| ProjectAnalyzer.IntersectionIff | project_integration_analyzer.py:49 | a technology is in the intersection exactly when every set has it |
| ProjectAnalyzer.IntegrationPlan | project_integration_analyzer.py:37-51 | only the common technologies are filled in; none without projects |
| ProjectAnalyzer.CommonTechnologiesIff | project_integration_analyzer.py:47-49 | a technology is common exactly when there are projects and every one uses it |
| ProjectAnalyzer.CommonWithinEach | project_integration_analyzer.py:47-49 | the common technologies are within each project's |

## Left out

- I/O and the operating system are not modelled. Files are entries of a map. `os.path.abspath` is assumed done: paths arrive as component sequences.
- Operating-system failures are not modelled. These are permission errors, races with other processes, and the generic `except Exception` replies they lead to.
- Error texts: file handler errors are typed values (`FsError`, `SearchError`, `FindError`), not the Japanese messages. The Excel texts are modelled because the dispatcher's contract is about them.
- `glob` is not interpreted. Its result, in its order, is the candidate sequence. The same goes for `os.walk` (a sequence of steps) and `os.listdir` (ListDirectory returns sets, since the order is the operating system's).
- FileListing.FnMatch: implements `*`, `?` and literal characters. Character classes `[...]` are taken literally, and the name is not case-normalised.
- Text.Lower: ASCII only. `str.lower` also folds non-ASCII letters, and Python reads a file's lines with Unicode case rules.
- ContentSearch.CaseInsensitiveFindsMore: holds under the ASCII folding of Text.Lower only. Under Python's `str.lower` it fails: "ΑΣ" occurs in "ΑΣΑ", but "ΑΣ".lower() is "ας" (a final sigma), which does not occur in "ασα".
- UTF-8 decoding is a per-file flag. The bytes themselves are not modelled.
- Sizes are the UTF-8 length of the text as written. Platform newline translation on write is not modelled.
- Modification times are integers. Parsing ISO date strings is `TimeArg`: absent, a naive time, a time with a UTC offset (which the naive `mtime` cannot be compared with), or malformed. Which strings `fromisoformat` accepts depends on the Python version and is not modelled. The `isoformat` text of replies is left as the integer.
- Floating point is not modelled. Excel numbers are integers.
- `get_file_info` (both servers), `is_text_file`, `get_system_status`, `ExcelManager._ensure_invisible_excel` (it kills or hides processes), server transport, logging and `setup_mcp_config.py` are not part of this model.
- xlwings is the `Backend` parameter, with these limits:
  - sheet names match exactly (Excel ignores case);
  - cell addresses are opaque keys with no range normalisation;
  - `read_cell`'s `type` field is not reported.
- Excel.Dispatch: a non-string argument is rendered as Python's `str()` would render it, not passed through with its own type.
- JSON serialisation of stored insights, the `metadata` field and the insights' other fields are left out. A stored file holds the fields the listing reads, or nothing readable.
- Timestamps: the file name's `strftime` stamp and the record's `isoformat` timestamp are parameters.
- Insights.SaveInsight: POSIX paths are resolved against what the model knows: the working directory, `insights_results` inside it (holding files only, since the server never creates subdirectories), and everything else. Whether a directory elsewhere takes the write is the parameter `elsewhere`, and such a write is taken to leave the store unchanged, even if it leads back into the store (as `../../<cwd>/insights_results/x` could). Not modelled: subdirectories of the store made by other means, symbolic links, names too long for the platform, NUL characters, and characters Windows rejects (such as `\` or `:`).
- Insights.SaveThenList: requires a name whose file the `*.json` pattern selects (no `/`, not hidden); the other names are covered by SavePlainName, SaveThroughDot, SaveAboveStore, SaveAbsolute and SaveIntoSubdirectoryFails.
- Insights.Put: does not state that paths stay unique in the directory; it keeps a file under the same path in place.
- Insights.ListInsights: bounds the number listed only for a non-negative `limit`. A negative limit slices from the end as Python does; NegativeLimitDropsOldest states that case.
- FileListing.FindFiles: a walked name that is a directory in the model state is reported as an error. `os.walk` never lists directories among a step's files, so this only arises for an inconsistent walk.
- FileListing.ListFiles: a broken link (neither file nor directory) is not representable. The `getsize` error it would cause is the error for a path missing from the map.
- ContentSearch.Search: an exception other than a decoding error while reading one file is not modelled. Such a file is logged and skipped in the source.
- FileListing.FindFiles: uses the corrected pattern of BuildPattern, not the one as written. With the default `name_pattern="*"` and `extension="py"` the model returns every `.py` file, where the source builds `.py` and finds only a file of that exact name. BuildPatternAgrees shows the two coincide for every other name pattern.
- FileOps.ReadFile: the too-large error carries the corrected limit of SizeLimitMegabytes (1), where the source's message says 0MB. SizeLimitMessageSaysZero states the value as written.
- FileOps.MoveFile: directory moves are modelled only to the extent of the shutil rename. Copying across devices is not modelled, and a directory moved into itself is refused.

## Findings

| source | as written | input that shows it | evidently intended | confidence | as-written member | corrected member |
|---|---|---|---|---|---|---|
| archive/file_operation_server.py:254-282 | with `overwrite`, an existing file at the target is removed before `shutil.move`; when the target is the source itself, the source is deleted and the move then fails | `move_file(source_path="/d/a.txt", destination_path="/d/a.txt", overwrite=True)` with `/d/a.txt` a file (or `destination_path="/d"`) | moving a file onto itself leaves it in place | high, not executed | FileOps.MoveFileAsWritten, FileOps.MoveOntoItselfLosesFile | FileOps.MoveFile, FileOps.MoveOntoItselfKeepsFile |
| archive/file_operation_server.py:91-95 | the limit in the message is `MAX_FILE_SIZE // 1024 // 1024`, which is 0 for 1,000,000 bytes | reading a file of 1,000,001 bytes reports a limit of 0MB | the message states the 1MB limit actually applied | high, not executed | FileOps.SizeLimitMegabytesAsWritten, FileOps.SizeLimitMessageSaysZero | FileOps.SizeLimitMegabytes |
| archive/file_search_tool.py:326-338 | a name pattern ending in `*` has that `*` replaced by the extension | `find_files(name_pattern="*", extension="py")` builds the pattern `.py`, which `main.py` does not match | the wildcard stays and the extension is appended (`*.py`) | high, not executed | FileListing.BuildPatternAsWritten, FileListing.StarPatternMissesMainPy | FileListing.BuildPattern, FileListing.StarPatternSelectsExtension |

FindFiles and the rest of the model use the corrected pattern and the corrected move. ReadFile reports the corrected megabyte limit.

=== FILE: content_search.dfy ===
/**
 * `search_files`, as in both archive/file_search_tool.py and
 * src/unified-mcp-server.py: scan the files a glob produced, line by line,
 * for a keyword, and report the files with at least one matching line, up to
 * a limit. The glob itself (its expansion and order) is a parameter: the
 * candidate paths in the order the glob returned them.
 */
module ContentSearch {
  import opened Wrappers
  import opened FileSystem
  import Text
  import Lines
  import opened Limits

  datatype LineMatch = LineMatch(lineNumber: nat, content: string)
  datatype Hit = Hit(path: Path, matches: seq<LineMatch>, matchCount: nat)
  datatype SearchReport = SearchReport(
    keyword: string, directory: Path, caseSensitive: bool,
    totalFilesMatched: nat, resultsLimit: int, results: seq<Hit>)
  datatype SearchError = DirectoryNotFound(path: Path) | NotADir(path: Path) | EmptyKeyword

  /** `keyword in line`, or `keyword.lower() in line.lower()` when case is ignored. */
  predicate LineMatches(line: string, keyword: string, caseSensitive: bool) {
    if caseSensitive then Text.Contains(line, keyword)
    else Text.Contains(Text.Lower(line), Text.Lower(keyword))
  }

  /** Ignoring case never loses a match. */
  lemma CaseInsensitiveFindsMore(line: string, keyword: string)
    requires LineMatches(line, keyword, true)
    ensures LineMatches(line, keyword, false)
  {
    Text.ContainsIffOccurs(line, keyword);
    var i :| Text.OccursAt(line, keyword, i);
    var lo, lk := Text.Lower(line), Text.Lower(keyword);
    assert lo[i..i + |lk|] == lk by {
      forall j | 0 <= j < |lk|
        ensures lo[i..i + |lk|][j] == lk[j]
      {
        assert line[i..i + |keyword|][j] == keyword[j];
      }
    }
    assert Text.OccursAt(lo, lk, i);
    Text.ContainsIffOccurs(lo, lk);
  }

  /** Which of the lines match. */
  function MatchFlags(lines: seq<string>, keyword: string, caseSensitive: bool): (f: seq<bool>)
    ensures |f| == |lines|
    ensures forall j :: 0 <= j < |lines| ==> (f[j] <==> LineMatches(lines[j], keyword, caseSensitive))
  {
    seq(|lines|, j requires 0 <= j < |lines| => LineMatches(lines[j], keyword, caseSensitive))
  }

  /** The positions of the set flags from `i` on, counted from 1, in increasing order. */
  function SetPositions(f: seq<bool>, i: nat): (r: seq<nat>)
    requires i <= |f|
    ensures forall k :: 0 <= k < |r| ==> i < r[k] <= |f|
    ensures forall j, k :: 0 <= j < k < |r| ==> r[j] < r[k]
    decreases |f| - i
  {
    if i == |f| then []
    else if f[i] then [i + 1] + SetPositions(f, i + 1)
    else SetPositions(f, i + 1)
  }

  /** Each position reported carries a set flag. */
  lemma {:induction false} SetPositionsSound(f: seq<bool>, i: nat)
    requires i <= |f|
    ensures forall k :: 0 <= k < |SetPositions(f, i)| ==> f[SetPositions(f, i)[k] - 1]
    decreases |f| - i
  {
    if i < |f| {
      SetPositionsSound(f, i + 1);
      var rest := SetPositions(f, i + 1);
      var r := SetPositions(f, i);
      if f[i] {
        forall k | 0 <= k < |r|
          ensures f[r[k] - 1]
        {
          if k > 0 {
            assert r[k] == rest[k - 1];
          }
        }
      }
    }
  }

  /** Every set flag from `i` on is reported. */
  lemma {:induction false} SetPositionsComplete(f: seq<bool>, i: nat, j: nat)
    requires i <= j < |f| && f[j]
    ensures j + 1 in SetPositions(f, i)
    decreases |f| - i
  {
    if j > i {
      SetPositionsComplete(f, i + 1, j);
    }
  }

  /** The lines a text-mode read of `content` iterates over. */
  function TextLines(content: string): seq<string> {
    Lines.ReadLines(Lines.Translate(content))
  }

  /** The numbers of the lines that contain the keyword: 1-based, in increasing order. */
  function MatchedLineNumbers(lines: seq<string>, keyword: string, caseSensitive: bool): (ns: seq<nat>)
    ensures forall k :: 0 <= k < |ns| ==> 1 <= ns[k] <= |lines|
    ensures forall j, k :: 0 <= j < k < |ns| ==> ns[j] < ns[k]
  {
    SetPositions(MatchFlags(lines, keyword, caseSensitive), 0)
  }

  /** A line is reported exactly when it contains the keyword. */
  lemma MatchedLineNumbersIff(lines: seq<string>, keyword: string, caseSensitive: bool, j: nat)
    requires j < |lines|
    ensures LineMatches(lines[j], keyword, caseSensitive) <==> j + 1 in MatchedLineNumbers(lines, keyword, caseSensitive)
  {
    var f := MatchFlags(lines, keyword, caseSensitive);
    SetPositionsSound(f, 0);
    if f[j] {
      SetPositionsComplete(f, 0, j);
    }
  }

  /**
   * The matches reported for the lines of a file: one per matching line, in
   * order, each with the line's number and the line stripped of surrounding
   * whitespace.
   */
  function MatchLines(lines: seq<string>, keyword: string, caseSensitive: bool): (r: seq<LineMatch>)
    ensures |r| == |MatchedLineNumbers(lines, keyword, caseSensitive)|
    ensures forall k :: 0 <= k < |r| ==>
              && r[k].lineNumber == MatchedLineNumbers(lines, keyword, caseSensitive)[k]
              && 1 <= r[k].lineNumber <= |lines|
              && r[k].content == Text.Strip(lines[r[k].lineNumber - 1])
    ensures forall j, k :: 0 <= j < k < |r| ==> r[j].lineNumber < r[k].lineNumber
  {
    var ns := MatchedLineNumbers(lines, keyword, caseSensitive);
    seq(|ns|, k requires 0 <= k < |ns| => LineMatch(ns[k], Text.Strip(lines[ns[k] - 1])))
  }

  /** What a candidate path contributes: a hit for a decodable regular file with a matching line. */
  function HitFor(fs: FileSystem, p: Path, keyword: string, caseSensitive: bool): (h: Option<Hit>)
    ensures h.Some? <==> IsFile(fs, p) && fs[p].decodable && MatchLines(TextLines(fs[p].content), keyword, caseSensitive) != []
    ensures h.Some? ==> h.value.path == p && h.value.matchCount == |h.value.matches| > 0
  {
    if !IsFile(fs, p) || !fs[p].decodable then None
    else
      var m := MatchLines(TextLines(fs[p].content), keyword, caseSensitive);
      if m == [] then None else Some(Hit(p, m, |m|))
  }

  /** The hits a single candidate contributes: none or one. */
  function HitList(h: Option<Hit>): seq<Hit> {
    if h.Some? then [h.value] else []
  }

  /** Every hit among the candidates, in glob order, with no limit. */
  function AllHits(fs: FileSystem, cands: seq<Path>, keyword: string, caseSensitive: bool): (r: seq<Hit>)
    ensures |r| <= |cands|
  {
    if cands == [] then []
    else AllHits(fs, cands[..|cands| - 1], keyword, caseSensitive) + HitList(HitFor(fs, cands[|cands| - 1], keyword, caseSensitive))
  }

  /** One more candidate adds its hit, if any, at the end. */
  lemma AllHitsSnoc(fs: FileSystem, cands: seq<Path>, keyword: string, caseSensitive: bool, i: nat)
    requires i < |cands|
    ensures AllHits(fs, cands[..i + 1], keyword, caseSensitive)
         == AllHits(fs, cands[..i], keyword, caseSensitive) + HitList(HitFor(fs, cands[i], keyword, caseSensitive))
  {
    assert cands[..i + 1][..i] == cands[..i];
  }

  /**
   * The hits are exactly the hits of the candidates: each comes from a
   * candidate that yields it, and each candidate's hit is among them.
   */
  lemma AllHitsExact(fs: FileSystem, cands: seq<Path>, keyword: string, caseSensitive: bool)
    ensures forall k :: 0 <= k < |AllHits(fs, cands, keyword, caseSensitive)| ==>
              && AllHits(fs, cands, keyword, caseSensitive)[k].path in cands
              && HitFor(fs, AllHits(fs, cands, keyword, caseSensitive)[k].path, keyword, caseSensitive)
                 == Some(AllHits(fs, cands, keyword, caseSensitive)[k])
    ensures forall j :: 0 <= j < |cands| && HitFor(fs, cands[j], keyword, caseSensitive).Some? ==>
              HitFor(fs, cands[j], keyword, caseSensitive).value in AllHits(fs, cands, keyword, caseSensitive)
  {
    var hs := CandidateHits(fs, cands, keyword, caseSensitive);
    var all := AllHits(fs, cands, keyword, caseSensitive);
    AllHitsCollect(fs, cands, keyword, caseSensitive);
    forall k | 0 <= k < |all|
      ensures all[k].path in cands && HitFor(fs, all[k].path, keyword, caseSensitive) == Some(all[k])
    {
      var j := CollectSound(hs, k);
      assert HitFor(fs, cands[j], keyword, caseSensitive) == Some(all[k]);
    }
    forall j | 0 <= j < |cands| && HitFor(fs, cands[j], keyword, caseSensitive).Some?
      ensures HitFor(fs, cands[j], keyword, caseSensitive).value in all
    {
      CollectComplete(hs, j);
    }
  }

  /** The outcome of every candidate, in glob order. */
  function CandidateHits(fs: FileSystem, cands: seq<Path>, keyword: string, caseSensitive: bool): (hs: seq<Option<Hit>>)
    ensures |hs| == |cands|
    ensures forall k :: 0 <= k < |cands| ==> hs[k] == HitFor(fs, cands[k], keyword, caseSensitive)
  {
    seq(|cands|, k requires 0 <= k < |cands| => HitFor(fs, cands[k], keyword, caseSensitive))
  }

  /** The values present among `hs`, in order. */
  function Collect(hs: seq<Option<Hit>>): seq<Hit>
    decreases |hs|
  {
    if hs == [] then [] else Collect(hs[..|hs| - 1]) + HitList(hs[|hs| - 1])
  }

  /** The hits are the values present among the candidates' outcomes. */
  lemma {:induction false} AllHitsCollect(fs: FileSystem, cands: seq<Path>, keyword: string, caseSensitive: bool)
    ensures AllHits(fs, cands, keyword, caseSensitive) == Collect(CandidateHits(fs, cands, keyword, caseSensitive))
    decreases |cands|
  {
    if cands != [] {
      var init := cands[..|cands| - 1];
      var hs := CandidateHits(fs, cands, keyword, caseSensitive);
      AllHitsCollect(fs, init, keyword, caseSensitive);
      assert hs[..|hs| - 1] == CandidateHits(fs, init, keyword, caseSensitive);
    }
  }

  /** Each collected value is present at some position. */
  lemma {:induction false} CollectSound(hs: seq<Option<Hit>>, k: nat) returns (j: nat)
    requires k < |Collect(hs)|
    ensures j < |hs| && hs[j] == Some(Collect(hs)[k])
    decreases |hs|
  {
    var init := hs[..|hs| - 1];
    if k < |Collect(init)| {
      j := CollectSound(init, k);
      assert hs[j] == init[j];
    } else {
      j := |hs| - 1;
    }
  }

  /** Each present value is collected. */
  lemma {:induction false} CollectComplete(hs: seq<Option<Hit>>, j: nat)
    requires j < |hs| && hs[j].Some?
    ensures hs[j].value in Collect(hs)
    decreases |hs|
  {
    var init := hs[..|hs| - 1];
    if j < |init| {
      assert init[j] == hs[j];
      CollectComplete(init, j);
    }
  }

  /** The hits of a prefix of the candidates are a prefix of all hits. */
  lemma {:induction false} AllHitsPrefix(fs: FileSystem, cands: seq<Path>, keyword: string, caseSensitive: bool, j: nat)
    requires j <= |cands|
    ensures AllHits(fs, cands[..j], keyword, caseSensitive) <= AllHits(fs, cands, keyword, caseSensitive)
    decreases |cands|
  {
    if j < |cands| {
      var init := cands[..|cands| - 1];
      AllHitsPrefix(fs, init, keyword, caseSensitive, j);
      assert init[..j] == cands[..j];
    } else {
      assert cands[..j] == cands;
    }
  }

  /**
   * `search_files`. The archive server also refuses a path that is not a
   * directory (`requireDirectory`); the unified server only checks existence.
   * The first `max_results` hits are returned; the scan stops at the hit after
   * them, so the matched-file count reaches at most one past the limit.
   */
  method Search(fs: FileSystem, directory: Path, cands: seq<Path>, keyword: string,
                caseSensitive: bool, maxResults: int, requireDirectory: bool)
    returns (r: Result<SearchReport, SearchError>)
    ensures directory !in fs ==> r == Failure(DirectoryNotFound(directory))
    ensures directory in fs && requireDirectory && !fs[directory].Dir? ==> r == Failure(NotADir(directory))
    ensures r.Failure? <==> directory !in fs || (requireDirectory && !fs[directory].Dir?) || keyword == []
    ensures directory in fs && !(requireDirectory && !fs[directory].Dir?) && keyword == [] ==> r == Failure(EmptyKeyword)
    ensures r.Success? ==> r.value.keyword == keyword && r.value.directory == directory
    ensures r.Success? ==> r.value.resultsLimit == maxResults && r.value.caseSensitive == caseSensitive
    ensures r.Success? ==> r.value.results == Limited(AllHits(fs, cands, keyword, caseSensitive), Cap(maxResults))
    ensures r.Success? ==> r.value.totalFilesMatched == Min(|AllHits(fs, cands, keyword, caseSensitive)|, Cap(maxResults) + 1)
    ensures r.Success? ==> |r.value.results| <= Cap(maxResults)
    ensures r.Success? ==> |r.value.results| <= r.value.totalFilesMatched <= |r.value.results| + 1
    ensures r.Success? ==> (r.value.totalFilesMatched == |r.value.results| + 1
                            <==> |AllHits(fs, cands, keyword, caseSensitive)| > Cap(maxResults))
  {
    if directory !in fs {
      return Failure(DirectoryNotFound(directory));
    }
    if requireDirectory && !fs[directory].Dir? {
      return Failure(NotADir(directory));
    }
    if keyword == [] {
      return Failure(EmptyKeyword);
    }
    var results, count := Scan(fs, cands, keyword, caseSensitive, Cap(maxResults));
    return Success(SearchReport(keyword, directory, caseSensitive, count, maxResults, results));
  }

  /**
   * The loop of `search_files`: count files with matches, keep the first
   * `cap`, and stop at the first hit beyond them.
   */
  method Scan(fs: FileSystem, cands: seq<Path>, keyword: string, caseSensitive: bool, cap: nat)
    returns (results: seq<Hit>, count: nat)
    ensures results == Limited(AllHits(fs, cands, keyword, caseSensitive), cap)
    ensures count == Min(|AllHits(fs, cands, keyword, caseSensitive)|, cap + 1)
  {
    results := [];
    count := 0;
    var i := 0;
    while i < |cands|
      invariant 0 <= i <= |cands|
      invariant ScannedSoFar(fs, cands, keyword, caseSensitive, i, results)
      invariant count == |results| <= cap
    {
      var h := HitFor(fs, cands[i], keyword, caseSensitive);
      if h.Some? {
        count := count + 1;
        if count <= cap {
          ScanTake(fs, cands, keyword, caseSensitive, i, results);
          results := results + [h.value];
        } else {
          ScanOverflow(fs, cands, keyword, caseSensitive, i, cap, results);
          return;
        }
      } else {
        ScanSkip(fs, cands, keyword, caseSensitive, i, results);
      }
      i := i + 1;
    }
    ScanEnd(fs, cands, keyword, caseSensitive, cap, results);
  }

  /** The loop state of `search_files`: the hits of the candidates visited so far. */
  predicate ScannedSoFar(fs: FileSystem, cands: seq<Path>, keyword: string, caseSensitive: bool, i: nat, results: seq<Hit>) {
    i <= |cands| && results == AllHits(fs, cands[..i], keyword, caseSensitive)
  }

  lemma ScanSkip(fs: FileSystem, cands: seq<Path>, keyword: string, caseSensitive: bool, i: nat, results: seq<Hit>)
    requires ScannedSoFar(fs, cands, keyword, caseSensitive, i, results) && i < |cands|
    requires HitFor(fs, cands[i], keyword, caseSensitive).None?
    ensures ScannedSoFar(fs, cands, keyword, caseSensitive, i + 1, results)
  {
    AllHitsSnoc(fs, cands, keyword, caseSensitive, i);
    assert results + [] == results;
  }

  lemma ScanTake(fs: FileSystem, cands: seq<Path>, keyword: string, caseSensitive: bool, i: nat, results: seq<Hit>)
    requires ScannedSoFar(fs, cands, keyword, caseSensitive, i, results) && i < |cands|
    requires HitFor(fs, cands[i], keyword, caseSensitive).Some?
    ensures ScannedSoFar(fs, cands, keyword, caseSensitive, i + 1, results + [HitFor(fs, cands[i], keyword, caseSensitive).value])
  {
    AllHitsSnoc(fs, cands, keyword, caseSensitive, i);
  }

  lemma ScanOverflow(fs: FileSystem, cands: seq<Path>, keyword: string, caseSensitive: bool, i: nat, cap: nat, results: seq<Hit>)
    requires ScannedSoFar(fs, cands, keyword, caseSensitive, i, results) && i < |cands| && |results| == cap
    requires HitFor(fs, cands[i], keyword, caseSensitive).Some?
    ensures results == Limited(AllHits(fs, cands, keyword, caseSensitive), cap)
    ensures cap + 1 == Min(|AllHits(fs, cands, keyword, caseSensitive)|, cap + 1)
  {
    OverflowingHit(fs, cands, keyword, caseSensitive, i, cap);
  }

  /** Hits of every candidate that stay within the limit are the limited result, and their number the count. */
  lemma ScanEnd(fs: FileSystem, cands: seq<Path>, keyword: string, caseSensitive: bool, cap: nat, results: seq<Hit>)
    requires ScannedSoFar(fs, cands, keyword, caseSensitive, |cands|, results) && |results| <= cap
    ensures results == Limited(AllHits(fs, cands, keyword, caseSensitive), cap)
    ensures |results| == Min(|AllHits(fs, cands, keyword, caseSensitive)|, cap + 1)
  {
    assert cands[..|cands|] == cands;
    assert results[..|results|] == results;
  }

  /**
   * When the hits before candidate `i` fill the limit and candidate `i` is a
   * hit as well, those hits are the limited result and the full list is
   * longer than the limit.
   */
  lemma OverflowingHit(fs: FileSystem, cands: seq<Path>, keyword: string, caseSensitive: bool, i: nat, cap: nat)
    requires i < |cands| && HitFor(fs, cands[i], keyword, caseSensitive).Some?
    requires |AllHits(fs, cands[..i], keyword, caseSensitive)| == cap
    ensures Limited(AllHits(fs, cands, keyword, caseSensitive), cap) == AllHits(fs, cands[..i], keyword, caseSensitive)
    ensures |AllHits(fs, cands, keyword, caseSensitive)| > cap
  {
    AllHitsSnoc(fs, cands, keyword, caseSensitive, i);
    AllHitsPrefix(fs, cands, keyword, caseSensitive, i + 1);
  }
}

=== FILE: excel.dfy ===
/**
 * The workbook tools: the `ExcelMCPServer` of archive/excel_mcp_server.py
 * (tool catalog, dispatcher and the six handlers) and the `ExcelManager` of
 * src/unified-mcp-server.py.
 *
 * xlwings is not part of this model. What it would do is a `Backend`
 * record given by the caller: whether the application starts, which paths
 * open to which workbook, which cell addresses it rejects, what each
 * formula evaluates to, whether saving works, and the text of the
 * exception it raises.
 */
module Excel {
  import opened Wrappers
  import Text

  /** A JSON argument or cell value. */
  datatype Json = JStr(s: string) | JNum(n: int) | JBool(b: bool) | JNull

  /** Python's `str(v)`. */
  function Render(v: Json): string {
    match v
    case JStr(s) => s
    case JNum(n) => Text.IntText(n)
    case JBool(b) => if b then "True" else "False"
    case JNull => "None"
  }

  /** Python's truth value of `v`. */
  predicate Truthy(v: Json) {
    match v
    case JStr(s) => s != ""
    case JNum(n) => n != 0
    case JBool(b) => b
    case JNull => false
  }

  datatype Sheet = Sheet(name: string, cells: map<string, Json>)

  datatype Workbook = Workbook(sheets: seq<Sheet>)

  datatype App = App(visible: bool)

  /** The two optional resources a server holds. */
  datatype State = State(app: Option<App>, workbook: Option<Workbook>)

  datatype Backend = Backend(
    appStarts: bool,
    books: map<string, Workbook>,
    badAddresses: set<string>,
    formulaResults: map<string, Json>,
    saveWorks: bool,
    message: string)

  /** The position of the first sheet called `name`, if any: `book.sheets[name]`. */
  function FindSheet(sheets: seq<Sheet>, name: string): (r: Option<nat>)
    ensures r.Some? ==> r.value < |sheets| && sheets[r.value].name == name
    ensures r.Some? ==> forall k :: 0 <= k < r.value ==> sheets[k].name != name
    ensures r.None? ==> forall k :: 0 <= k < |sheets| ==> sheets[k].name != name
  {
    if sheets == [] then None
    else if sheets[0].name == name then Some(0)
    else match FindSheet(sheets[1..], name)
      case None => None
      case Some(k) => Some(k + 1)
  }

  /** The value at `address`; a cell never written is empty. */
  function CellValue(sheet: Sheet, address: string): Json {
    if address in sheet.cells then sheet.cells[address] else JNull
  }

  /** The workbook with one cell of sheet `k` set. */
  function SetCell(book: Workbook, k: nat, address: string, v: Json): (r: Workbook)
    requires k < |book.sheets|
    ensures |r.sheets| == |book.sheets|
    ensures forall j :: 0 <= j < |r.sheets| ==> r.sheets[j].name == book.sheets[j].name
    ensures CellValue(r.sheets[k], address) == v
    ensures forall j, a :: 0 <= j < |r.sheets| && (j != k || a != address) ==>
              CellValue(r.sheets[j], a) == CellValue(book.sheets[j], a)
  {
    var s := book.sheets[k];
    Workbook(book.sheets[k := Sheet(s.name, s.cells[address := v])])
  }

  // ---------------------------------------------------------------------------
  // ExcelMCPServer: tool catalog
  // ---------------------------------------------------------------------------

  datatype Tool = Tool(name: string, properties: seq<string>, required: seq<string>, defaults: seq<(string, Json)>)

  /** What `handle_list_tools` announces. */
  const Catalog: seq<Tool> := [
    Tool("open_excel_file", ["file_path", "visible"], ["file_path"], [("visible", JBool(true))]),
    Tool("read_cell", ["sheet_name", "cell_address"], ["sheet_name", "cell_address"], []),
    Tool("write_cell", ["sheet_name", "cell_address", "value"], ["sheet_name", "cell_address", "value"], []),
    Tool("execute_formula", ["sheet_name", "cell_address", "formula"], ["sheet_name", "cell_address", "formula"], []),
    Tool("save_workbook", ["file_path"], [], []),
    Tool("list_sheets", [], [], [])
  ]

  /** Six tools in a fixed order, distinct names, every required or defaulted field a declared property. */
  lemma CatalogShape()
    ensures |Catalog| == 6
    ensures Catalog[0].name == "open_excel_file" && Catalog[1].name == "read_cell"
            && Catalog[2].name == "write_cell" && Catalog[3].name == "execute_formula"
            && Catalog[4].name == "save_workbook" && Catalog[5].name == "list_sheets"
    ensures forall i, j :: 0 <= i < j < |Catalog| ==> Catalog[i].name != Catalog[j].name
    ensures forall i, k :: 0 <= i < |Catalog| && 0 <= k < |Catalog[i].required| ==>
              Catalog[i].required[k] in Catalog[i].properties
    ensures forall i, k :: 0 <= i < |Catalog| && 0 <= k < |Catalog[i].defaults| ==>
              Catalog[i].defaults[k].0 in Catalog[i].properties
  {
  }

  // ---------------------------------------------------------------------------
  // ExcelMCPServer: handlers
  // ---------------------------------------------------------------------------

  /** The reply text and the state after one handler. */
  datatype Step = Step(state: State, text: string)

  const NotOpen := "Excelファイルが開かれていません"

  /**
   * `_open_excel_file`: starts the application only when there is none,
   * then opens the book. Either step may raise; the book is replaced only
   * when opening succeeds.
   */
  function OpenExcelFile(s: State, b: Backend, path: string, visible: bool): (o: Step)
    ensures s.app.Some? ==> o.state.app == s.app
    ensures s.app.None? ==> o.state.app == (if b.appStarts then Some(App(visible)) else None)
    ensures o.state.workbook == s.workbook || (path in b.books && o.state.workbook == Some(b.books[path]))
    ensures o.state.workbook != s.workbook ==> o.text == "Excelファイルを開きました: " + path + "\nシート数: "
                                                           + Text.NatText(|b.books[path].sheets|)
    ensures (s.app.Some? || b.appStarts) && path in b.books ==> o.state.workbook == Some(b.books[path])
    ensures s.app.None? && !b.appStarts ==> o.state == s
  {
    if s.app.None? && !b.appStarts then Step(s, "ファイルを開けませんでした: " + b.message)
    else
      var app := if s.app.None? then Some(App(visible)) else s.app;
      if path !in b.books then Step(State(app, s.workbook), "ファイルを開けませんでした: " + b.message)
      else
        var book := b.books[path];
        Step(State(app, Some(book)), "Excelファイルを開きました: " + path + "\nシート数: " + Text.NatText(|book.sheets|))
  }

  function CellName(sheetName: string, address: string): string {
    "セル " + sheetName + "!" + address
  }

  /** `_read_cell`: never changes the state. */
  function ReadCell(s: State, b: Backend, sheetName: string, address: string): (o: Step)
    ensures o.state == s
    ensures s.workbook.None? ==> o.text == NotOpen
    ensures s.workbook.Some? && Target(s, b, sheetName, address).Some? ==>
              o.text == CellName(sheetName, address) + " の値: "
                        + Render(CellValue(s.workbook.value.sheets[Target(s, b, sheetName, address).value], address))
    ensures s.workbook.Some? && Target(s, b, sheetName, address).None? ==> o.text == "セル読み取りエラー: " + b.message
  {
    if s.workbook.None? then Step(s, NotOpen)
    else
      match Target(s, b, sheetName, address)
      case None => Step(s, "セル読み取りエラー: " + b.message)
      case Some(k) => Step(s, CellName(sheetName, address) + " の値: " + Render(CellValue(s.workbook.value.sheets[k], address)))
  }

  /** The cell a write or formula may touch, when the sheet exists and the address is accepted. */
  function Target(s: State, b: Backend, sheetName: string, address: string): (r: Option<nat>)
    requires s.workbook.Some?
    ensures r.Some? ==> && r.value < |s.workbook.value.sheets|
                        && s.workbook.value.sheets[r.value].name == sheetName
                        && address !in b.badAddresses
    ensures r.None? ==> FindSheet(s.workbook.value.sheets, sheetName).None? || address in b.badAddresses
  {
    match FindSheet(s.workbook.value.sheets, sheetName)
    case None => None
    case Some(k) => if address in b.badAddresses then None else Some(k)
  }

  /** `_write_cell`: sets one cell of the named sheet, or changes nothing. */
  function WriteCell(s: State, b: Backend, sheetName: string, address: string, v: Json): (o: Step)
    ensures o.state.app == s.app
    ensures s.workbook.None? ==> o == Step(s, NotOpen)
    ensures s.workbook.Some? && Target(s, b, sheetName, address).None? ==> o.state == s
    ensures s.workbook.Some? && Target(s, b, sheetName, address).Some? ==>
              o.state.workbook == Some(SetCell(s.workbook.value, Target(s, b, sheetName, address).value, address, v))
  {
    if s.workbook.None? then Step(s, NotOpen)
    else
      match Target(s, b, sheetName, address)
      case None => Step(s, "セル書き込みエラー: " + b.message)
      case Some(k) =>
        Step(State(s.app, Some(SetCell(s.workbook.value, k, address, v))),
             CellName(sheetName, address) + " に値を書き込みました: " + Render(v))
  }

  /** `_execute_formula`: sets the formula and reports what the cell then holds. */
  function ExecuteFormula(s: State, b: Backend, sheetName: string, address: string, formula: string): (o: Step)
    ensures o.state.app == s.app
    ensures s.workbook.None? ==> o == Step(s, NotOpen)
    ensures s.workbook.Some? && (Target(s, b, sheetName, address).None? || formula !in b.formulaResults) ==> o.state == s
    ensures s.workbook.Some? && Target(s, b, sheetName, address).Some? && formula in b.formulaResults ==>
              o.state.workbook == Some(SetCell(s.workbook.value, Target(s, b, sheetName, address).value,
                                               address, b.formulaResults[formula]))
  {
    if s.workbook.None? then Step(s, NotOpen)
    else
      match Target(s, b, sheetName, address)
      case None => Step(s, "数式実行エラー: " + b.message)
      case Some(k) =>
        if formula !in b.formulaResults then Step(s, "数式実行エラー: " + b.message)
        else
          var result := b.formulaResults[formula];
          Step(State(s.app, Some(SetCell(s.workbook.value, k, address, result))),
               CellName(sheetName, address) + " に数式を設定しました\n数式: " + formula + "\n結果: " + Render(result))
  }

  /** `_save_workbook`: writes the book out (outside this model); the held state never changes. */
  function SaveWorkbook(s: State, b: Backend, path: Option<Json>): (o: Step)
    ensures o.state == s
    ensures s.workbook.None? ==> o.text == NotOpen
    ensures s.workbook.Some? && b.saveWorks && path.Some? && Truthy(path.value) ==>
              o.text == "ワークブックを保存しました: " + Render(path.value)
    ensures s.workbook.Some? && b.saveWorks && (path.None? || !Truthy(path.value)) ==>
              o.text == "ワークブックを保存しました"
  {
    if s.workbook.None? then Step(s, NotOpen)
    else if !b.saveWorks then Step(s, "保存エラー: " + b.message)
    else if path.Some? && Truthy(path.value) then Step(s, "ワークブックを保存しました: " + Render(path.value))
    else Step(s, "ワークブックを保存しました")
  }

  const SheetListHeader := "シート一覧:\n"

  function SheetLines(sheets: seq<Sheet>): (lines: seq<string>)
    ensures |lines| == |sheets|
    ensures forall k :: 0 <= k < |sheets| ==> lines[k] == "- " + sheets[k].name
  {
    seq(|sheets|, k requires 0 <= k < |sheets| => "- " + sheets[k].name)
  }

  /** `_list_sheets`: the header, then one "- name" line per sheet. */
  function ListSheets(s: State): (o: Step)
    ensures o.state == s
    ensures s.workbook.None? ==> o.text == NotOpen
  {
    if s.workbook.None? then Step(s, NotOpen)
    else Step(s, SheetListHeader + Text.Join(SheetLines(s.workbook.value.sheets), "\n"))
  }

  /** Splitting the listing after the header at newlines gives back one line per sheet, in order. */
  lemma ListSheetsLines(s: State)
    requires s.workbook.Some? && |s.workbook.value.sheets| >= 1
    requires forall k :: 0 <= k < |s.workbook.value.sheets| ==> '\n' !in s.workbook.value.sheets[k].name
    ensures Text.StartsWith(ListSheets(s).text, SheetListHeader)
    ensures Text.Split(ListSheets(s).text[|SheetListHeader|..], '\n') == SheetLines(s.workbook.value.sheets)
  {
    var lines := SheetLines(s.workbook.value.sheets);
    forall k | 0 <= k < |lines|
      ensures '\n' !in lines[k]
    {
      assert lines[k] == "- " + s.workbook.value.sheets[k].name;
    }
    Text.SplitJoin(lines, '\n');
    var t := ListSheets(s).text;
    assert t == SheetListHeader + Text.Join(lines, "\n");
    assert t[|SheetListHeader|..] == Text.Join(lines, "\n");
  }

  // ---------------------------------------------------------------------------
  // ExcelMCPServer: dispatcher
  // ---------------------------------------------------------------------------

  datatype Op =
    | Open(path: string, visible: bool)
    | Read(sheetName: string, address: string)
    | Write(sheetName: string, address: string, value: Json)
    | Formula(sheetName: string, address: string, formula: string)
    | Save(target: Option<Json>)
    | List

  function Apply(s: State, b: Backend, op: Op): Step {
    match op
    case Open(p, v) => OpenExcelFile(s, b, p, v)
    case Read(n, a) => ReadCell(s, b, n, a)
    case Write(n, a, v) => WriteCell(s, b, n, a, v)
    case Formula(n, a, f) => ExecuteFormula(s, b, n, a, f)
    case Save(p) => SaveWorkbook(s, b, p)
    case List => ListSheets(s)
  }

  /** `str(KeyError(key))`. */
  function KeyError(key: string): string {
    "'" + key + "'"
  }

  function Arg(args: map<string, Json>, key: string): string
    requires key in args
  {
    Render(args[key])
  }

  /**
   * How `handle_call_tool` builds the handler call: an unknown name raises
   * `ValueError`, and the first missing argument, read in parameter order,
   * raises `KeyError`.
   */
  function ParseCall(name: string, args: map<string, Json>): Result<Op, string> {
    if name == "open_excel_file" then
      if "file_path" !in args then Failure(KeyError("file_path"))
      else Success(Open(Arg(args, "file_path"), Truthy(if "visible" in args then args["visible"] else JBool(true))))
    else if name == "read_cell" then
      if "sheet_name" !in args then Failure(KeyError("sheet_name"))
      else if "cell_address" !in args then Failure(KeyError("cell_address"))
      else Success(Read(Arg(args, "sheet_name"), Arg(args, "cell_address")))
    else if name == "write_cell" then
      if "sheet_name" !in args then Failure(KeyError("sheet_name"))
      else if "cell_address" !in args then Failure(KeyError("cell_address"))
      else if "value" !in args then Failure(KeyError("value"))
      else Success(Write(Arg(args, "sheet_name"), Arg(args, "cell_address"), args["value"]))
    else if name == "execute_formula" then
      if "sheet_name" !in args then Failure(KeyError("sheet_name"))
      else if "cell_address" !in args then Failure(KeyError("cell_address"))
      else if "formula" !in args then Failure(KeyError("formula"))
      else Success(Formula(Arg(args, "sheet_name"), Arg(args, "cell_address"), Arg(args, "formula")))
    else if name == "save_workbook" then
      Success(Save(if "file_path" in args then Some(args["file_path"]) else None))
    else if name == "list_sheets" then
      Success(List)
    else Failure("Unknown tool: " + name)
  }

  /** `handle_call_tool`: every failure to build the call becomes an error text, and nothing changes. */
  function Dispatch(s: State, b: Backend, name: string, args: map<string, Json>): (o: Step)
    ensures ParseCall(name, args).Failure? ==> o == Step(s, "エラー: " + ParseCall(name, args).error)
    ensures ParseCall(name, args).Success? ==> o == Apply(s, b, ParseCall(name, args).value)
  {
    match ParseCall(name, args)
    case Failure(m) => Step(s, "エラー: " + m)
    case Success(op) => Apply(s, b, op)
  }

  /** The first of `keys` missing from `args`. */
  function FirstMissing(keys: seq<string>, args: map<string, Json>): (r: Option<string>)
    ensures r.None? <==> forall k :: 0 <= k < |keys| ==> keys[k] in args
    ensures r.Some? ==> r.value !in args && r.value in keys
  {
    if keys == [] then None
    else if keys[0] !in args then Some(keys[0])
    else FirstMissing(keys[1..], args)
  }

  /**
   * The dispatcher demands exactly the catalog's required fields, in the
   * catalog's order: a call to a listed tool fails iff one is missing, and
   * then names the first missing one.
   */
  lemma DispatchRequiresCatalogFields(i: nat, args: map<string, Json>)
    requires i < |Catalog|
    ensures ParseCall(Catalog[i].name, args).Failure? <==> FirstMissing(Catalog[i].required, args).Some?
    ensures ParseCall(Catalog[i].name, args).Failure? ==>
              ParseCall(Catalog[i].name, args).error == KeyError(FirstMissing(Catalog[i].required, args).value)
  {
    if i == 0 {
      FirstMissingOne("file_path", args);
      ParseOpenNeeds(args);
    } else if i == 1 {
      FirstMissingTwo("sheet_name", "cell_address", args);
      ParseReadNeeds(args);
    } else if i == 2 {
      FirstMissingThree("sheet_name", "cell_address", "value", args);
      ParseWriteNeeds(args);
    } else if i == 3 {
      FirstMissingThree("sheet_name", "cell_address", "formula", args);
      ParseFormulaNeeds(args);
    }
  }

  lemma ParseOpenNeeds(args: map<string, Json>)
    ensures ParseCall("open_excel_file", args)
         == if "file_path" !in args then Failure(KeyError("file_path"))
            else Success(Open(Arg(args, "file_path"), Truthy(if "visible" in args then args["visible"] else JBool(true))))
  {
  }

  lemma ParseReadNeeds(args: map<string, Json>)
    ensures ParseCall("read_cell", args).Failure? <==> "sheet_name" !in args || "cell_address" !in args
    ensures "sheet_name" !in args ==> ParseCall("read_cell", args) == Failure(KeyError("sheet_name"))
    ensures "sheet_name" in args && "cell_address" !in args ==> ParseCall("read_cell", args) == Failure(KeyError("cell_address"))
  {
  }

  lemma ParseWriteNeeds(args: map<string, Json>)
    ensures ParseCall("write_cell", args).Failure? <==> "sheet_name" !in args || "cell_address" !in args || "value" !in args
    ensures "sheet_name" !in args ==> ParseCall("write_cell", args) == Failure(KeyError("sheet_name"))
    ensures "sheet_name" in args && "cell_address" !in args ==> ParseCall("write_cell", args) == Failure(KeyError("cell_address"))
    ensures "sheet_name" in args && "cell_address" in args && "value" !in args ==> ParseCall("write_cell", args) == Failure(KeyError("value"))
  {
  }

  lemma ParseFormulaNeeds(args: map<string, Json>)
    ensures ParseCall("execute_formula", args).Failure? <==> "sheet_name" !in args || "cell_address" !in args || "formula" !in args
    ensures "sheet_name" !in args ==> ParseCall("execute_formula", args) == Failure(KeyError("sheet_name"))
    ensures "sheet_name" in args && "cell_address" !in args ==> ParseCall("execute_formula", args) == Failure(KeyError("cell_address"))
    ensures "sheet_name" in args && "cell_address" in args && "formula" !in args ==> ParseCall("execute_formula", args) == Failure(KeyError("formula"))
  {
  }

  lemma FirstMissingOne(a: string, args: map<string, Json>)
    ensures FirstMissing([a], args) == if a !in args then Some(a) else None
  {
    assert [a][1..] == [];
  }

  lemma FirstMissingTwo(a: string, b: string, args: map<string, Json>)
    ensures FirstMissing([a, b], args) == if a !in args then Some(a) else if b !in args then Some(b) else None
  {
    assert [a, b][1..] == [b];
    FirstMissingOne(b, args);
  }

  lemma FirstMissingThree(a: string, b: string, c: string, args: map<string, Json>)
    ensures FirstMissing([a, b, c], args)
         == if a !in args then Some(a) else if b !in args then Some(b) else if c !in args then Some(c) else None
  {
    assert [a, b, c][1..] == [b, c];
    FirstMissingTwo(b, c, args);
  }

  /** A name outside the catalog is an error reply, with the state untouched. */
  lemma UnknownToolIsReported(s: State, b: Backend, name: string, args: map<string, Json>)
    requires forall i :: 0 <= i < |Catalog| ==> Catalog[i].name != name
    ensures Dispatch(s, b, name, args) == Step(s, "エラー: " + ("Unknown tool: " + name))
  {
    OutsideCatalog(name);
    ParseUnknown(name, args);
  }

  lemma OutsideCatalog(name: string)
    requires forall i :: 0 <= i < |Catalog| ==> Catalog[i].name != name
    ensures name != "open_excel_file" && name != "read_cell" && name != "write_cell"
    ensures name != "execute_formula" && name != "save_workbook" && name != "list_sheets"
  {
    CatalogShape();
    assert Catalog[0].name != name && Catalog[1].name != name && Catalog[2].name != name;
    assert Catalog[3].name != name && Catalog[4].name != name && Catalog[5].name != name;
  }

  lemma ParseUnknown(name: string, args: map<string, Json>)
    requires name != "open_excel_file" && name != "read_cell" && name != "write_cell"
    requires name != "execute_formula" && name != "save_workbook" && name != "list_sheets"
    ensures ParseCall(name, args) == Failure("Unknown tool: " + name)
  {
  }

  /** `visible` defaults to True, and `save_workbook` without `file_path` saves in place. */
  lemma DispatchDefaults(s: State, b: Backend, path: string)
    ensures Dispatch(s, b, "open_excel_file", map["file_path" := JStr(path)]) == OpenExcelFile(s, b, path, true)
    ensures Dispatch(s, b, "save_workbook", map[]) == SaveWorkbook(s, b, None)
  {
  }

  /** With no workbook, every tool but `open_excel_file` replies "not open" and changes nothing. */
  lemma NotOpenChangesNothing(s: State, b: Backend, op: Op)
    requires s.workbook.None? && !op.Open?
    ensures Apply(s, b, op) == Step(s, NotOpen)
  {
  }

  /** After a successful write, reading the same cell reports the written value. */
  lemma ReadAfterWrite(s: State, b: Backend, sheetName: string, address: string, v: Json)
    requires s.workbook.Some? && Target(s, b, sheetName, address).Some?
    ensures ReadCell(WriteCell(s, b, sheetName, address, v).state, b, sheetName, address).text
            == CellName(sheetName, address) + " の値: " + Render(v)
  {
    var k := Target(s, b, sheetName, address).value;
    var s2 := WriteCell(s, b, sheetName, address, v).state;
    var book := SetCell(s.workbook.value, k, address, v);
    assert s2.workbook == Some(book);
    assert FindSheet(book.sheets, sheetName) == Some(k) by {
      FindSheetByNames(s.workbook.value.sheets, book.sheets, sheetName);
    }
  }

  /** After a formula is set, reading the cell shows the result the backend computed for it. */
  lemma ReadAfterFormula(s: State, b: Backend, sheetName: string, address: string, formula: string)
    requires s.workbook.Some? && Target(s, b, sheetName, address).Some? && formula in b.formulaResults
    ensures ReadCell(ExecuteFormula(s, b, sheetName, address, formula).state, b, sheetName, address).text
            == CellName(sheetName, address) + " の値: " + Render(b.formulaResults[formula])
  {
    var k := Target(s, b, sheetName, address).value;
    var book := SetCell(s.workbook.value, k, address, b.formulaResults[formula]);
    assert ExecuteFormula(s, b, sheetName, address, formula).state.workbook == Some(book);
    assert FindSheet(book.sheets, sheetName) == Some(k) by {
      FindSheetByNames(s.workbook.value.sheets, book.sheets, sheetName);
    }
  }

  /** Lookup by name sees only the names. */
  lemma {:induction false} FindSheetByNames(a: seq<Sheet>, b: seq<Sheet>, name: string)
    requires |a| == |b| && forall j :: 0 <= j < |a| ==> a[j].name == b[j].name
    ensures FindSheet(a, name) == FindSheet(b, name)
    decreases |a|
  {
    if a != [] {
      FindSheetByNames(a[1..], b[1..], name);
    }
  }

  /** A writing tool that fails leaves the workbook as it was; a read never changes anything. */
  lemma FailedWriteChangesNothing(s: State, b: Backend, sheetName: string, address: string, v: Json)
    requires s.workbook.Some? && FindSheet(s.workbook.value.sheets, sheetName).None?
    ensures WriteCell(s, b, sheetName, address, v) == Step(s, "セル書き込みエラー: " + b.message)
  {
  }

  // ---------------------------------------------------------------------------
  // ExcelManager of the unified server
  // ---------------------------------------------------------------------------

  datatype ManagerReply =
    | Opened(path: string, sheetCount: nat, sheetNames: seq<string>)
    | CellRead(sheet: string, cell: string, value: Json)
    | CellWritten(sheet: string, cell: string, value: Json)
    | Saved(target: string)
    | ManagerError(message: string)

  datatype ManagerStep = ManagerStep(state: State, reply: ManagerReply)

  const ManagerNotOpen := "Excelファイルが開かれていません。"

  /** Hidden Excel: the manager's application, when there is one, is never visible. */
  predicate Hidden(s: State) {
    s.app.None? || !s.app.value.visible
  }

  function SheetNames(book: Workbook): (names: seq<string>)
    ensures |names| == |book.sheets|
    ensures forall k :: 0 <= k < |names| ==> names[k] == book.sheets[k].name
  {
    seq(|book.sheets|, k requires 0 <= k < |book.sheets| => book.sheets[k].name)
  }

  /** `open_workbook`: as the archive handler with `visible` forced to False, the tool's own argument being ignored. */
  function ManagerOpen(s: State, b: Backend, path: string, visible: bool): (o: ManagerStep)
    ensures o.reply.Opened? ==> path in b.books && o.state.workbook == Some(b.books[path]) && o.reply.sheetNames == SheetNames(b.books[path])
    ensures !o.reply.Opened? ==> o.state.workbook == s.workbook
    ensures (s.app.Some? || b.appStarts) && path in b.books ==>
              o.reply == Opened(path, |b.books[path].sheets|, SheetNames(b.books[path]))
    ensures o.reply.Opened? ==> o.state.app == Some(App(false))
    ensures s.app.None? ==> o.state.app == (if b.appStarts then Some(App(false)) else None)
    ensures s.app.Some? && !o.reply.Opened? ==> o.state.app == s.app
  {
    if s.app.None? && !b.appStarts then ManagerStep(s, ManagerError("Excelファイルを開けませんでした: " + b.message))
    else
      var app := if s.app.None? then Some(App(false)) else s.app;
      if path !in b.books then ManagerStep(State(app, s.workbook), ManagerError("Excelファイルを開けませんでした: " + b.message))
      else
        var book := b.books[path];
        ManagerStep(State(Some(App(false)), Some(book)), Opened(path, |book.sheets|, SheetNames(book)))
  }

  function ManagerRead(s: State, b: Backend, sheetName: string, address: string): (o: ManagerStep)
    ensures o.state == s
    ensures s.workbook.None? ==> o.reply == ManagerError(ManagerNotOpen)
    ensures s.workbook.Some? && Target(s, b, sheetName, address).Some? ==>
              o.reply == CellRead(sheetName, address,
                                  CellValue(s.workbook.value.sheets[Target(s, b, sheetName, address).value], address))
    ensures s.workbook.Some? && Target(s, b, sheetName, address).None? ==>
              o.reply == ManagerError("セル読み取りエラー: " + b.message)
  {
    if s.workbook.None? then ManagerStep(s, ManagerError(ManagerNotOpen))
    else
      match Target(s, b, sheetName, address)
      case None => ManagerStep(s, ManagerError("セル読み取りエラー: " + b.message))
      case Some(k) => ManagerStep(s, CellRead(sheetName, address, CellValue(s.workbook.value.sheets[k], address)))
  }

  function ManagerWrite(s: State, b: Backend, sheetName: string, address: string, v: Json): (o: ManagerStep)
    ensures s.workbook.None? ==> o == ManagerStep(s, ManagerError(ManagerNotOpen))
    ensures o.reply.ManagerError? ==> o.state == s
    ensures o.reply.CellWritten? ==> o.state == WriteCell(s, b, sheetName, address, v).state
    ensures s.workbook.Some? && Target(s, b, sheetName, address).Some? ==>
              o.reply == CellWritten(sheetName, address, v)
              && o.state.workbook == Some(SetCell(s.workbook.value, Target(s, b, sheetName, address).value, address, v))
    ensures s.workbook.Some? && Target(s, b, sheetName, address).None? ==>
              o == ManagerStep(s, ManagerError("セル書き込みエラー: " + b.message))
  {
    if s.workbook.None? then ManagerStep(s, ManagerError(ManagerNotOpen))
    else
      match Target(s, b, sheetName, address)
      case None => ManagerStep(s, ManagerError("セル書き込みエラー: " + b.message))
      case Some(k) => ManagerStep(State(s.app, Some(SetCell(s.workbook.value, k, address, v))), CellWritten(sheetName, address, v))
  }

  /** `save_workbook`: hides the application before saving, whether or not the save then works. */
  function ManagerSave(s: State, b: Backend, path: Option<Json>): (o: ManagerStep)
    ensures s.workbook.None? ==> o == ManagerStep(s, ManagerError(ManagerNotOpen))
    ensures o.state.workbook == s.workbook
    ensures s.workbook.Some? ==> Hidden(o.state)
    ensures o.reply.Saved? ==> o.reply.target == (if path.Some? && Truthy(path.value) then Render(path.value) else "現在のファイル")
    ensures s.workbook.Some? && b.saveWorks ==> o.reply.Saved?
    ensures s.workbook.Some? && !b.saveWorks ==> o.reply == ManagerError("保存エラー: " + b.message)
    ensures s.workbook.Some? ==> (o.state.app.Some? <==> s.app.Some?)
  {
    if s.workbook.None? then ManagerStep(s, ManagerError(ManagerNotOpen))
    else
      var app := if s.app.Some? then Some(App(false)) else None;
      if !b.saveWorks then ManagerStep(State(app, s.workbook), ManagerError("保存エラー: " + b.message))
      else ManagerStep(State(app, s.workbook), Saved(if path.Some? && Truthy(path.value) then Render(path.value) else "現在のファイル"))
  }

  datatype ManagerOp =
    | MOpen(path: string, visible: bool)
    | MRead(sheetName: string, address: string)
    | MWrite(sheetName: string, address: string, value: Json)
    | MSave(target: Option<Json>)

  function ManagerApply(s: State, b: Backend, op: ManagerOp): ManagerStep {
    match op
    case MOpen(p, v) => ManagerOpen(s, b, p, v)
    case MRead(n, a) => ManagerRead(s, b, n, a)
    case MWrite(n, a, v) => ManagerWrite(s, b, n, a, v)
    case MSave(p) => ManagerSave(s, b, p)
  }

  /** No sequence of manager tools ever makes Excel visible, whatever `visible` the caller passes. */
  lemma ManagerKeepsExcelHidden(s: State, b: Backend, ops: seq<ManagerOp>)
    requires Hidden(s)
    ensures Hidden(ManagerRun(s, b, ops))
    decreases |ops|
  {
    if ops != [] {
      ManagerKeepsExcelHidden(ManagerApply(s, b, ops[0]).state, b, ops[1..]);
    }
  }

  function ManagerRun(s: State, b: Backend, ops: seq<ManagerOp>): State
    decreases |ops|
  {
    if ops == [] then s else ManagerRun(ManagerApply(s, b, ops[0]).state, b, ops[1..])
  }

  /** The manager opens the same books as the archive server asked for a hidden window. */
  lemma ManagerOpenAgrees(s: State, b: Backend, path: string, visible: bool)
    requires Hidden(s)
    ensures ManagerOpen(s, b, path, visible).state == OpenExcelFile(s, b, path, false).state
  {
  }

  /** Without a workbook, no manager tool but open changes anything. */
  lemma ManagerNotOpenChangesNothing(s: State, b: Backend, op: ManagerOp)
    requires s.workbook.None? && !op.MOpen?
    ensures ManagerApply(s, b, op) == ManagerStep(s, ManagerError(ManagerNotOpen))
  {
  }
}

=== FILE: file_listing.dfy ===
/**
 * `list_files`, `find_files` and `guess_mime_type` of
 * archive/file_search_tool.py. The directory traversal (`glob` for
 * `list_files`, `os.walk` for `find_files`) is a parameter: the paths, in the
 * order the traversal yields them.
 */
module FileListing {
  import opened Wrappers
  import opened FileSystem
  import opened Limits
  import Text

  // ---------------------------------------------------------------------------
  // File names
  // ---------------------------------------------------------------------------

  /** The index of the last occurrence of `c` in `s`, if any. */
  function LastIndexOf(s: string, c: char): (r: Option<nat>)
    ensures r.Some? ==> r.value < |s| && s[r.value] == c && c !in s[r.value + 1..]
    ensures r.None? ==> c !in s
  {
    if s == [] then None
    else if s[|s| - 1] == c then Some(|s| - 1)
    else
      var r := LastIndexOf(s[..|s| - 1], c);
      assert s == s[..|s| - 1] + [s[|s| - 1]];
      r
  }

  /**
   * `os.path.splitext(name)[1]`: from the last '.' on, provided some
   * character other than '.' precedes that dot; otherwise empty.
   */
  function Extension(name: string): (ext: string)
    ensures ext == [] || (ext[0] == '.' && '.' !in ext[1..] && Text.EndsWith(name, ext))
    ensures ext == [] && '.' in name ==>
              var d := LastIndexOf(name, '.').value;
              forall i :: 0 <= i < d ==> name[i] == '.'
  {
    match LastIndexOf(name, '.')
    case None => []
    case Some(d) =>
      if exists i :: 0 <= i < d && name[i] != '.' then
        assert name[d..][1..] == name[d + 1..];
        name[d..]
      else []
  }

  /** A name without a dot, or one that is all leading dots and a tail, has no extension. */
  lemma ExtensionOfHiddenFile(tail: string)
    requires '.' !in tail
    ensures Extension(['.'] + tail) == []
  {
    var name := ['.'] + tail;
    assert name[1..] == tail;
    assert forall i :: 1 <= i < |name| ==> name[i] != '.' by {
      forall i | 1 <= i < |name| ensures name[i] != '.' { assert name[i] == name[1..][i - 1]; }
    }
    assert '.' in name by { assert name[0] == '.'; }
    assert LastIndexOf(name, '.') == Some(0);
  }

  /** The extension of `stem + ".ext"` is ".ext" when the stem has a character other than '.'. */
  lemma ExtensionOfSuffix(stem: string, e: string)
    requires exists i :: 0 <= i < |stem| && stem[i] != '.'
    requires '.' !in e
    ensures Extension(stem + ['.'] + e) == ['.'] + e
  {
    var name := stem + ['.'] + e;
    var i :| 0 <= i < |stem| && stem[i] != '.';
    assert name[|stem|] == '.';
    assert name[|stem| + 1..] == e;
    LastIndexIsDot(name, |stem|);
    assert name[i] == stem[i];
    assert name[|stem|..] == ['.'] + e;
  }

  /** A dot followed by no other dot is the last one. */
  lemma LastIndexIsDot(s: string, d: nat)
    requires d < |s| && s[d] == '.' && '.' !in s[d + 1..]
    ensures LastIndexOf(s, '.') == Some(d)
  {
  }

  // ---------------------------------------------------------------------------
  // MIME types
  // ---------------------------------------------------------------------------

  const DefaultMimeType: string := "application/octet-stream"

  /** The lookup table of `guess_mime_type`, keyed by lower-case extension with its dot, in source order. */
  const MimeTypes: seq<(string, string)> := [
    (".txt", "text/plain"),
    (".html", "text/html"),
    (".htm", "text/html"),
    (".css", "text/css"),
    (".js", "application/javascript"),
    (".json", "application/json"),
    (".xml", "application/xml"),
    (".py", "text/x-python"),
    (".java", "text/x-java"),
    (".c", "text/x-c"),
    (".cpp", "text/x-c++"),
    (".h", "text/x-c"),
    (".hpp", "text/x-c++"),
    (".rb", "text/x-ruby"),
    (".go", "text/x-go"),
    (".php", "text/x-php"),
    (".pl", "text/x-perl"),
    (".sh", "text/x-shellscript"),
    (".bat", "text/x-bat"),
    (".csv", "text/csv"),
    (".md", "text/markdown"),
    (".jpg", "image/jpeg"),
    (".jpeg", "image/jpeg"),
    (".png", "image/png"),
    (".gif", "image/gif"),
    (".bmp", "image/bmp"),
    (".svg", "image/svg+xml"),
    (".webp", "image/webp"),
    (".ico", "image/x-icon"),
    (".mp3", "audio/mpeg"),
    (".wav", "audio/wav"),
    (".ogg", "audio/ogg"),
    (".mp4", "video/mp4"),
    (".avi", "video/x-msvideo"),
    (".mov", "video/quicktime"),
    (".wmv", "video/x-ms-wmv"),
    (".webm", "video/webm"),
    (".pdf", "application/pdf"),
    (".doc", "application/msword"),
    (".docx", "application/vnd.openxmlformats-officedocument.wordprocessingml.document"),
    (".xls", "application/vnd.ms-excel"),
    (".xlsx", "application/vnd.openxmlformats-officedocument.spreadsheetml.sheet"),
    (".ppt", "application/vnd.ms-powerpoint"),
    (".pptx", "application/vnd.openxmlformats-officedocument.presentationml.presentation"),
    (".zip", "application/zip"),
    (".rar", "application/x-rar-compressed"),
    (".tar", "application/x-tar"),
    (".gz", "application/gzip"),
    (".7z", "application/x-7z-compressed"),
    (".exe", "application/x-msdownload"),
    (".dll", "application/x-msdownload"),
    (".bin", "application/octet-stream"),
    (".iso", "application/x-iso9660-image"),
    (".db", "application/x-sqlite3"),
    (".sql", "application/sql")
  ]

  /** The value stored under `key` in a table of pairs with distinct keys. */
  function Lookup(table: seq<(string, string)>, key: string): (r: Option<string>)
    ensures r.Some? ==> exists i :: 0 <= i < |table| && table[i] == (key, r.value)
    ensures r.None? ==> forall i :: 0 <= i < |table| ==> table[i].0 != key
  {
    if table == [] then None
    else if table[0].0 == key then Some(table[0].1)
    else Lookup(table[1..], key)
  }

  /** `guess_mime_type`: the table entry for the lower-cased extension, or the default. */
  function GuessMimeType(ext: string): (m: string)
    ensures Lookup(MimeTypes, Text.Lower(ext)).Some? ==> m == Lookup(MimeTypes, Text.Lower(ext)).value
    ensures Lookup(MimeTypes, Text.Lower(ext)).None? ==> m == DefaultMimeType
  {
    Lookup(MimeTypes, Text.Lower(ext)).GetOr(DefaultMimeType)
  }

  /** The lookup ignores case. */
  lemma GuessMimeTypeIgnoresCase(ext: string)
    ensures GuessMimeType(Text.Lower(ext)) == GuessMimeType(ext)
  {
    Text.LowerIdempotent(ext);
  }

  // ---------------------------------------------------------------------------
  // list_files
  // ---------------------------------------------------------------------------

  /**
   * The entry reported for a regular file. Its "extension" key is not
   * stored: it is a function of the name, given by `ItemExtension`.
   */
  datatype FileItem = FileItem(path: Path, name: string, size: nat, modified: int)

  /** The "extension" key of a reported file: the lower-cased suffix of its name. */
  function ItemExtension(it: FileItem): (r: string)
    ensures r == [] || (r[0] == '.' && Text.EndsWith(Text.Lower(it.name), r))
  {
    var ext := Extension(it.name);
    if ext == [] then []
    else
      Text.LowerSuffix(it.name, ext);
      Text.Lower(ext)
  }

  datatype ListReport = ListReport(
    directory: Path, files: seq<FileItem>, directories: seq<Path>,
    totalItems: nat, totalFiles: nat, totalDirectories: nat)

  /** The entry reported for a regular file: its name, size and mtime. */
  function ItemFor(fs: FileSystem, p: Path): (it: FileItem)
    requires IsFile(fs, p)
    ensures it.path == p && it.name == Basename(p) && it.size == fs[p].size && it.modified == fs[p].mtime
  {
    FileItem(p, Basename(p), fs[p].size, fs[p].mtime)
  }

  /** The two lists `list_files` builds while it walks the glob result. */
  datatype Listed = Listed(files: seq<FileItem>, directories: seq<Path>)

  /**
   * The reference for the `list_files` loop: from candidate `i` on, with
   * room for `budget` more items, directories count only when included, and
   * a path that is neither a directory nor an existing file makes
   * `os.path.getsize` fail.
   */
  function ListFrom(fs: FileSystem, cands: seq<Path>, includeDirs: bool, i: nat, budget: nat): Result<Listed, FsError>
    requires i <= |cands|
    decreases |cands| - i
  {
    if i == |cands| || budget == 0 then Success(Listed([], []))
    else
      var p := cands[i];
      if IsDir(fs, p) then
        if includeDirs then
          match ListFrom(fs, cands, includeDirs, i + 1, budget - 1)
          case Failure(e) => Failure(e)
          case Success(l) => Success(Listed(l.files, [p] + l.directories))
        else ListFrom(fs, cands, includeDirs, i + 1, budget)
      else if p !in fs then Failure(NotFound(p))
      else
        match ListFrom(fs, cands, includeDirs, i + 1, budget - 1)
        case Failure(e) => Failure(e)
        case Success(l) => Success(Listed([ItemFor(fs, p)] + l.files, l.directories))
  }

  /**
   * What the reference collects: at most `budget` items, no directories
   * unless included, each file reported with its own metadata.
   */
  lemma {:induction false} ListFromBounds(fs: FileSystem, cands: seq<Path>, includeDirs: bool, i: nat, budget: nat)
    requires i <= |cands|
    ensures ListFrom(fs, cands, includeDirs, i, budget).Success? ==>
              |ListFrom(fs, cands, includeDirs, i, budget).value.files| + |ListFrom(fs, cands, includeDirs, i, budget).value.directories| <= budget
    ensures ListFrom(fs, cands, includeDirs, i, budget).Success? && !includeDirs ==>
              ListFrom(fs, cands, includeDirs, i, budget).value.directories == []
    decreases |cands| - i
  {
    if i < |cands| && budget > 0 {
      ListFromBounds(fs, cands, includeDirs, i + 1, NextBudget(fs, cands, includeDirs, i, budget));
      BoundsStep(fs, cands, includeDirs, i, budget);
    } else {
      ListFromEnd(fs, cands, includeDirs, i, budget);
    }
  }

  /** The budget the reference continues with after candidate `i`: a skipped directory costs nothing. */
  function NextBudget(fs: FileSystem, cands: seq<Path>, includeDirs: bool, i: nat, budget: nat): nat
    requires i < |cands| && budget > 0
  {
    if IsDir(fs, cands[i]) && !includeDirs then budget else budget - 1
  }

  lemma BoundsStep(fs: FileSystem, cands: seq<Path>, includeDirs: bool, i: nat, budget: nat)
    requires i < |cands| && budget > 0
    requires var b := NextBudget(fs, cands, includeDirs, i, budget);
             ListFrom(fs, cands, includeDirs, i + 1, b).Success? ==>
               |ListFrom(fs, cands, includeDirs, i + 1, b).value.files|
               + |ListFrom(fs, cands, includeDirs, i + 1, b).value.directories| <= b
               && (!includeDirs ==> ListFrom(fs, cands, includeDirs, i + 1, b).value.directories == [])
    ensures ListFrom(fs, cands, includeDirs, i, budget).Success? ==>
              |ListFrom(fs, cands, includeDirs, i, budget).value.files| + |ListFrom(fs, cands, includeDirs, i, budget).value.directories| <= budget
    ensures ListFrom(fs, cands, includeDirs, i, budget).Success? && !includeDirs ==>
              ListFrom(fs, cands, includeDirs, i, budget).value.directories == []
  {
    if IsDir(fs, cands[i]) && !includeDirs {
      BoundsSkip(fs, cands, i, budget);
    } else if cands[i] in fs {
      BoundsTake(fs, cands, includeDirs, i, budget);
    } else {
      ListFromMissing(fs, cands, includeDirs, i, budget);
    }
  }

  lemma EntriesStep(fs: FileSystem, cands: seq<Path>, includeDirs: bool, i: nat, budget: nat)
    requires i < |cands| && budget > 0
    requires ListFrom(fs, cands, includeDirs, i + 1, NextBudget(fs, cands, includeDirs, i, budget)).Success? ==>
               Describes(fs, ListFrom(fs, cands, includeDirs, i + 1, NextBudget(fs, cands, includeDirs, i, budget)).value)
    ensures ListFrom(fs, cands, includeDirs, i, budget).Success? ==> Describes(fs, ListFrom(fs, cands, includeDirs, i, budget).value)
  {
    if IsDir(fs, cands[i]) && !includeDirs {
      EntriesSkip(fs, cands, i, budget);
    } else if cands[i] in fs {
      EntriesTake(fs, cands, includeDirs, i, budget);
    } else {
      ListFromMissing(fs, cands, includeDirs, i, budget);
    }
  }

  /** A directory that is not included leaves the reference as it is from the next candidate on. */
  lemma ListFromSkip(fs: FileSystem, cands: seq<Path>, i: nat, budget: nat)
    requires i < |cands| && budget > 0 && IsDir(fs, cands[i])
    ensures ListFrom(fs, cands, false, i, budget) == ListFrom(fs, cands, false, i + 1, budget)
  {
  }

  lemma ListFromMissing(fs: FileSystem, cands: seq<Path>, includeDirs: bool, i: nat, budget: nat)
    requires i < |cands| && budget > 0 && cands[i] !in fs
    ensures ListFrom(fs, cands, includeDirs, i, budget) == Failure(NotFound(cands[i]))
  {
  }

  lemma ListFromEnd(fs: FileSystem, cands: seq<Path>, includeDirs: bool, i: nat, budget: nat)
    requires i <= |cands| && (i == |cands| || budget == 0)
    ensures ListFrom(fs, cands, includeDirs, i, budget) == Success(Listed([], []))
  {
  }

  lemma BoundsSkip(fs: FileSystem, cands: seq<Path>, i: nat, budget: nat)
    requires i < |cands| && budget > 0 && IsDir(fs, cands[i])
    requires ListFrom(fs, cands, false, i + 1, budget).Success? ==>
               |ListFrom(fs, cands, false, i + 1, budget).value.files|
               + |ListFrom(fs, cands, false, i + 1, budget).value.directories| <= budget
               && ListFrom(fs, cands, false, i + 1, budget).value.directories == []
    ensures ListFrom(fs, cands, false, i, budget).Success? ==>
              |ListFrom(fs, cands, false, i, budget).value.files| + |ListFrom(fs, cands, false, i, budget).value.directories| <= budget
              && ListFrom(fs, cands, false, i, budget).value.directories == []
  {
    ListFromSkip(fs, cands, i, budget);
  }

  lemma EntriesSkip(fs: FileSystem, cands: seq<Path>, i: nat, budget: nat)
    requires i < |cands| && budget > 0 && IsDir(fs, cands[i])
    requires ListFrom(fs, cands, false, i + 1, budget).Success? ==> Describes(fs, ListFrom(fs, cands, false, i + 1, budget).value)
    ensures ListFrom(fs, cands, false, i, budget).Success? ==> Describes(fs, ListFrom(fs, cands, false, i, budget).value)
  {
    ListFromSkip(fs, cands, i, budget);
  }

  /** An existing candidate that is listed takes one place of the budget. */
  lemma BoundsTake(fs: FileSystem, cands: seq<Path>, includeDirs: bool, i: nat, budget: nat)
    requires i < |cands| && budget > 0 && cands[i] in fs && !(IsDir(fs, cands[i]) && !includeDirs)
    requires ListFrom(fs, cands, includeDirs, i + 1, budget - 1).Success? ==>
               |ListFrom(fs, cands, includeDirs, i + 1, budget - 1).value.files|
               + |ListFrom(fs, cands, includeDirs, i + 1, budget - 1).value.directories| <= budget - 1
    requires ListFrom(fs, cands, includeDirs, i + 1, budget - 1).Success? && !includeDirs ==>
               ListFrom(fs, cands, includeDirs, i + 1, budget - 1).value.directories == []
    ensures ListFrom(fs, cands, includeDirs, i, budget).Success? ==>
              |ListFrom(fs, cands, includeDirs, i, budget).value.files| + |ListFrom(fs, cands, includeDirs, i, budget).value.directories| <= budget
    ensures ListFrom(fs, cands, includeDirs, i, budget).Success? && !includeDirs ==>
              ListFrom(fs, cands, includeDirs, i, budget).value.directories == []
  {
    var rest := ListFrom(fs, cands, includeDirs, i + 1, budget - 1);
    if rest.Success? {
      if IsDir(fs, cands[i]) {
        assert ListFrom(fs, cands, includeDirs, i, budget) == Success(Listed(rest.value.files, [cands[i]] + rest.value.directories));
      } else {
        assert ListFrom(fs, cands, includeDirs, i, budget) == Success(Listed([ItemFor(fs, cands[i])] + rest.value.files, rest.value.directories));
      }
    }
  }

  /** Every file item describes an existing regular file, and every listed directory is one. */
  predicate Describes(fs: FileSystem, l: Listed) {
    && (forall k :: 0 <= k < |l.files| ==> IsFile(fs, l.files[k].path) && l.files[k] == ItemFor(fs, l.files[k].path))
    && (forall k :: 0 <= k < |l.directories| ==> IsDir(fs, l.directories[k]))
  }

  /** The reference lists only what the file system holds, as it holds it. */
  lemma {:induction false} ListFromEntries(fs: FileSystem, cands: seq<Path>, includeDirs: bool, i: nat, budget: nat)
    requires i <= |cands|
    ensures ListFrom(fs, cands, includeDirs, i, budget).Success? ==> Describes(fs, ListFrom(fs, cands, includeDirs, i, budget).value)
    decreases |cands| - i
  {
    if i < |cands| && budget > 0 {
      ListFromEntries(fs, cands, includeDirs, i + 1, NextBudget(fs, cands, includeDirs, i, budget));
      EntriesStep(fs, cands, includeDirs, i, budget);
    } else {
      ListFromEnd(fs, cands, includeDirs, i, budget);
    }
  }

  /** An existing candidate that is listed is described as the file system holds it. */
  lemma EntriesTake(fs: FileSystem, cands: seq<Path>, includeDirs: bool, i: nat, budget: nat)
    requires i < |cands| && budget > 0 && cands[i] in fs && !(IsDir(fs, cands[i]) && !includeDirs)
    requires ListFrom(fs, cands, includeDirs, i + 1, budget - 1).Success? ==>
               Describes(fs, ListFrom(fs, cands, includeDirs, i + 1, budget - 1).value)
    ensures ListFrom(fs, cands, includeDirs, i, budget).Success? ==> Describes(fs, ListFrom(fs, cands, includeDirs, i, budget).value)
  {
    var rest := ListFrom(fs, cands, includeDirs, i + 1, budget - 1);
    if rest.Success? {
      if IsDir(fs, cands[i]) {
        assert ListFrom(fs, cands, includeDirs, i, budget) == Success(Listed(rest.value.files, [cands[i]] + rest.value.directories));
        DescribesConsDir(fs, cands[i], rest.value);
      } else {
        assert ListFrom(fs, cands, includeDirs, i, budget) == Success(Listed([ItemFor(fs, cands[i])] + rest.value.files, rest.value.directories));
        DescribesConsFile(fs, cands[i], rest.value);
      }
    }
  }

  lemma DescribesConsDir(fs: FileSystem, p: Path, l: Listed)
    requires IsDir(fs, p) && Describes(fs, l)
    ensures Describes(fs, Listed(l.files, [p] + l.directories))
  {
    var ds := [p] + l.directories;
    forall k | 0 <= k < |ds|
      ensures IsDir(fs, ds[k])
    {
      if k > 0 {
        assert ds[k] == l.directories[k - 1];
      }
    }
  }

  lemma DescribesConsFile(fs: FileSystem, p: Path, l: Listed)
    requires IsFile(fs, p) && Describes(fs, l)
    ensures Describes(fs, Listed([ItemFor(fs, p)] + l.files, l.directories))
  {
    var fsq := [ItemFor(fs, p)] + l.files;
    forall k | 0 <= k < |fsq|
      ensures IsFile(fs, fsq[k].path) && fsq[k] == ItemFor(fs, fsq[k].path)
    {
      if k > 0 {
        assert fsq[k] == l.files[k - 1];
      }
    }
  }

  /** Prepend what the loop has already collected to what the rest yields. */
  function After(done: Listed, rest: Result<Listed, FsError>): Result<Listed, FsError> {
    match rest
    case Failure(e) => Failure(e)
    case Success(l) => Success(Listed(done.files + l.files, done.directories + l.directories))
  }

  /** Nothing collected yet: the rest is the whole answer. */
  lemma AfterNothing(rest: Result<Listed, FsError>)
    ensures After(Listed([], []), rest) == rest
  {
    if rest.Success? {
      assert [] + rest.value.files == rest.value.files;
      assert [] + rest.value.directories == rest.value.directories;
    }
  }

  /** Nothing left to collect: the answer is what was collected. */
  lemma AfterAll(done: Listed)
    ensures After(done, Success(Listed([], []))) == Success(done)
  {
    assert done.files + [] == done.files;
    assert done.directories + [] == done.directories;
  }

  /** A directory that is listed takes one place of the budget. */
  lemma ListStepDir(fs: FileSystem, cands: seq<Path>, i: nat, budget: nat, done: Listed)
    requires i < |cands| && budget > 0 && IsDir(fs, cands[i])
    ensures After(done, ListFrom(fs, cands, true, i, budget))
         == After(Listed(done.files, done.directories + [cands[i]]), ListFrom(fs, cands, true, i + 1, budget - 1))
  {
    var rest := ListFrom(fs, cands, true, i + 1, budget - 1);
    if rest.Success? {
      assert done.directories + ([cands[i]] + rest.value.directories)
          == done.directories + [cands[i]] + rest.value.directories;
    }
  }

  /** A regular file is listed and takes one place of the budget. */
  lemma ListStepFile(fs: FileSystem, cands: seq<Path>, includeDirs: bool, i: nat, budget: nat, done: Listed)
    requires i < |cands| && budget > 0 && IsFile(fs, cands[i])
    ensures After(done, ListFrom(fs, cands, includeDirs, i, budget))
         == After(Listed(done.files + [ItemFor(fs, cands[i])], done.directories),
                  ListFrom(fs, cands, includeDirs, i + 1, budget - 1))
  {
    var rest := ListFrom(fs, cands, includeDirs, i + 1, budget - 1);
    if rest.Success? {
      assert done.files + ([ItemFor(fs, cands[i])] + rest.value.files)
          == done.files + [ItemFor(fs, cands[i])] + rest.value.files;
    }
  }

  /** A directory that is not included is passed over without using the budget. */
  lemma ListStepSkipDir(fs: FileSystem, cands: seq<Path>, i: nat, budget: nat, done: Listed)
    requires i < |cands| && budget > 0 && IsDir(fs, cands[i])
    ensures After(done, ListFrom(fs, cands, false, i, budget)) == After(done, ListFrom(fs, cands, false, i + 1, budget))
  {
  }

  /** A path that is neither a directory nor in the file system ends the listing with an error. */
  lemma ListStepMissing(fs: FileSystem, cands: seq<Path>, includeDirs: bool, i: nat, budget: nat, done: Listed)
    requires i < |cands| && budget > 0 && cands[i] !in fs
    ensures After(done, ListFrom(fs, cands, includeDirs, i, budget)) == Failure(NotFound(cands[i]))
  {
  }

  /** With no candidates or no room left, the items collected are the answer. */
  lemma ListStop(fs: FileSystem, cands: seq<Path>, includeDirs: bool, i: nat, budget: nat, done: Listed)
    requires i <= |cands| && (i == |cands| || budget == 0)
    ensures After(done, ListFrom(fs, cands, includeDirs, i, budget)) == Success(done)
  {
    AfterAll(done);
  }

  /**
   * `list_files`: missing and non-directory paths are refused; otherwise the
   * glob result is walked until `max_results` items are collected.
   */
  method ListFiles(fs: FileSystem, directory: Path, cands: seq<Path>, includeDirs: bool, maxResults: int)
    returns (r: Result<ListReport, FsError>)
    ensures directory !in fs ==> r == Failure(NotFound(directory))
    ensures IsFile(fs, directory) ==> r == Failure(NotADirectory(directory))
    ensures IsDir(fs, directory) && ListFrom(fs, cands, includeDirs, 0, Cap(maxResults)).Failure?
            ==> r == Failure(ListFrom(fs, cands, includeDirs, 0, Cap(maxResults)).error)
    ensures IsDir(fs, directory) && ListFrom(fs, cands, includeDirs, 0, Cap(maxResults)).Success?
            ==> r.Success? && r.value.files == ListFrom(fs, cands, includeDirs, 0, Cap(maxResults)).value.files
                && r.value.directories == ListFrom(fs, cands, includeDirs, 0, Cap(maxResults)).value.directories
    ensures r.Success? ==> r.value.directory == directory
    ensures r.Success? ==> r.value.totalItems == r.value.totalFiles + r.value.totalDirectories
    ensures r.Success? ==> r.value.totalFiles == |r.value.files| && r.value.totalDirectories == |r.value.directories|
    ensures r.Success? ==> r.value.totalItems <= Cap(maxResults)
    ensures r.Success? && !includeDirs ==> r.value.directories == []
    ensures r.Success? ==> Describes(fs, Listed(r.value.files, r.value.directories))
  {
    if directory !in fs {
      return Failure(NotFound(directory));
    }
    if !fs[directory].Dir? {
      return Failure(NotADirectory(directory));
    }
    var listed := CollectListing(fs, cands, includeDirs, Cap(maxResults));
    ListFromBounds(fs, cands, includeDirs, 0, Cap(maxResults));
    ListFromEntries(fs, cands, includeDirs, 0, Cap(maxResults));
    match listed
    case Failure(e) =>
      return Failure(e);
    case Success(l) =>
      var n := |l.files| + |l.directories|;
      return Success(ListReport(directory, l.files, l.directories, n, |l.files|, |l.directories|));
  }

  /** Items collected so far. */
  function Used(done: Listed): nat {
    |done.files| + |done.directories|
  }

  /** One step of the `list_files` loop over an existing path. */
  function ListNext(fs: FileSystem, p: Path, includeDirs: bool, done: Listed): Listed
    requires p in fs
  {
    if IsDir(fs, p) then
      if includeDirs then Listed(done.files, done.directories + [p]) else done
    else Listed(done.files + [ItemFor(fs, p)], done.directories)
  }

  /**
   * The `list_files` loop as it runs: from candidate `i` on, with `done`
   * collected so far, stopping once `cap` items are collected, the
   * candidates run out, or one of them is missing.
   */
  function Sweep(fs: FileSystem, cands: seq<Path>, includeDirs: bool, cap: nat, i: nat, done: Listed): Result<Listed, FsError>
    requires i <= |cands|
    decreases |cands| - i
  {
    if i == |cands| || Used(done) >= cap then Success(done)
    else if cands[i] !in fs then Failure(NotFound(cands[i]))
    else Sweep(fs, cands, includeDirs, cap, i + 1, ListNext(fs, cands[i], includeDirs, done))
  }

  /** One step of the sweep keeps "collected so far, then the rest of the reference" unchanged. */
  lemma SweepStep(fs: FileSystem, cands: seq<Path>, includeDirs: bool, cap: nat, i: nat, done: Listed)
    requires i < |cands| && Used(done) < cap && cands[i] in fs
    ensures Used(ListNext(fs, cands[i], includeDirs, done)) <= cap
    ensures After(done, ListFrom(fs, cands, includeDirs, i, cap - Used(done)))
         == After(ListNext(fs, cands[i], includeDirs, done),
                  ListFrom(fs, cands, includeDirs, i + 1, cap - Used(ListNext(fs, cands[i], includeDirs, done))))
  {
    var next := ListNext(fs, cands[i], includeDirs, done);
    if IsDir(fs, cands[i]) {
      if includeDirs {
        ListStepDir(fs, cands, i, cap - Used(done), done);
        assert cap - Used(next) == cap - Used(done) - 1;
      } else {
        ListStepSkipDir(fs, cands, i, cap - Used(done), done);
      }
    } else {
      ListStepFile(fs, cands, includeDirs, i, cap - Used(done), done);
      assert cap - Used(next) == cap - Used(done) - 1;
    }
  }

  /** The sweep from any state yields what was collected, followed by what the reference lists with the budget left. */
  lemma {:induction false} SweepMatches(fs: FileSystem, cands: seq<Path>, includeDirs: bool, cap: nat, i: nat, done: Listed)
    requires i <= |cands| && Used(done) <= cap
    ensures Sweep(fs, cands, includeDirs, cap, i, done) == After(done, ListFrom(fs, cands, includeDirs, i, cap - Used(done)))
    decreases |cands| - i
  {
    if i == |cands| || Used(done) >= cap {
      ListStop(fs, cands, includeDirs, i, cap - Used(done), done);
    } else if cands[i] !in fs {
      ListStepMissing(fs, cands, includeDirs, i, cap - Used(done), done);
    } else {
      SweepStep(fs, cands, includeDirs, cap, i, done);
      SweepMatches(fs, cands, includeDirs, cap, i + 1, ListNext(fs, cands[i], includeDirs, done));
    }
  }

  /** Started with nothing collected, the sweep is the reference listing. */
  lemma SweepIsListing(fs: FileSystem, cands: seq<Path>, includeDirs: bool, cap: nat)
    ensures Sweep(fs, cands, includeDirs, cap, 0, Listed([], [])) == ListFrom(fs, cands, includeDirs, 0, cap)
  {
    SweepMatches(fs, cands, includeDirs, cap, 0, Listed([], []));
    assert Used(Listed([], [])) == 0;
    AfterNothing(ListFrom(fs, cands, includeDirs, 0, cap));
  }

  /** The loop of `list_files`: stop once `cap` items are collected. */
  method CollectListing(fs: FileSystem, cands: seq<Path>, includeDirs: bool, cap: nat)
    returns (r: Result<Listed, FsError>)
    ensures r == ListFrom(fs, cands, includeDirs, 0, cap)
  {
    var done := Listed([], []);
    var i := 0;
    while i < |cands| && |done.files| + |done.directories| < cap && cands[i] in fs
      invariant i <= |cands|
      invariant Sweep(fs, cands, includeDirs, cap, i, done) == Sweep(fs, cands, includeDirs, cap, 0, Listed([], []))
    {
      done := ListNext(fs, cands[i], includeDirs, done);
      i := i + 1;
    }
    if i < |cands| && |done.files| + |done.directories| < cap {
      r := Failure(NotFound(cands[i]));
    } else {
      r := Success(done);
    }
    SweepIsListing(fs, cands, includeDirs, cap);
  }

  // ---------------------------------------------------------------------------
  // find_files
  // ---------------------------------------------------------------------------

  /** `fnmatch` restricted to '*' (any run of characters) and '?' (any one character). */
  predicate FnMatch(pattern: string, name: string)
    decreases |pattern| + |name|
  {
    if pattern == [] then name == []
    else if pattern[0] == '*' then
      FnMatch(pattern[1..], name) || (name != [] && FnMatch(pattern, name[1..]))
    else if pattern[0] == '?' then name != [] && FnMatch(pattern[1..], name[1..])
    else name != [] && name[0] == pattern[0] && FnMatch(pattern[1..], name[1..])
  }

  predicate NoWildcards(s: string) {
    '*' !in s && '?' !in s
  }

  /** A pattern without wildcards matches exactly itself. */
  lemma {:induction false} FnMatchLiteral(p: string, name: string)
    requires NoWildcards(p)
    ensures FnMatch(p, name) <==> name == p
    decreases |p|
  {
    if p != [] && name != [] {
      FnMatchLiteral(p[1..], name[1..]);
      if name[0] == p[0] && name[1..] == p[1..] {
        assert name == [name[0]] + name[1..];
        assert p == [p[0]] + p[1..];
      }
    }
  }

  /** Whatever a pattern ending in a literal suffix matches ends with that suffix. */
  lemma {:induction false} FnMatchSuffix(p: string, e: string, name: string)
    requires NoWildcards(e) && FnMatch(p + e, name)
    ensures Text.EndsWith(name, e)
    decreases |p| + |name|
  {
    if p == [] {
      assert p + e == e;
      FnMatchLiteral(e, name);
    } else {
      var q := p + e;
      assert q[1..] == p[1..] + e;
      if p[0] == '*' {
        if FnMatch(p[1..] + e, name) {
          FnMatchSuffix(p[1..], e, name);
        } else {
          FnMatchSuffix(p, e, name[1..]);
          assert name[1..][|name| - 1 - |e|..] == name[|name| - |e|..];
        }
      } else {
        FnMatchSuffix(p[1..], e, name[1..]);
        assert name[1..][|name| - 1 - |e|..] == name[|name| - |e|..];
      }
    }
  }

  /** `"*" + e` for a literal `e` matches exactly the names ending with `e`. */
  lemma {:induction false} FnMatchStarSuffix(e: string, name: string)
    requires NoWildcards(e)
    ensures FnMatch(['*'] + e, name) <==> Text.EndsWith(name, e)
    decreases |name|
  {
    var p := ['*'] + e;
    assert p[1..] == e;
    if FnMatch(p, name) {
      assert [] + p == p;
      FnMatchSuffix(['*'], e, name);
    }
    if Text.EndsWith(name, e) {
      FnMatchLiteral(e, name);
      if name != e {
        assert |name| > |e|;
        assert name[1..][|name| - 1 - |e|..] == name[|name| - |e|..];
        FnMatchStarSuffix(e, name[1..]);
      }
    }
  }

  /** `find_files` puts a '.' in front of a non-empty extension that lacks one. */
  function NormalizeExtension(ext: string): (r: string)
    ensures r == [] <==> ext == []
    ensures r != [] ==> r[0] == '.'
    ensures ext != [] && ext[0] == '.' ==> r == ext
    ensures ext != [] && ext[0] != '.' ==> r == ['.'] + ext
  {
    if ext != [] && ext[0] != '.' then ['.'] + ext else ext
  }

  /** Normalising twice is normalising once. */
  lemma NormalizeExtensionIdempotent(ext: string)
    ensures NormalizeExtension(NormalizeExtension(ext)) == NormalizeExtension(ext)
  {
  }

  /**
   * The pattern `find_files` builds, as written: with an extension, a
   * trailing '*' of the name pattern is replaced by the extension, and
   * otherwise the extension is appended.
   */
  function BuildPatternAsWritten(namePattern: string, ext: string): (pattern: string)
    ensures ext == [] ==> pattern == namePattern
    ensures ext != [] && namePattern != [] && namePattern[|namePattern| - 1] == '*'
            ==> pattern == namePattern[..|namePattern| - 1] + ext
    ensures ext != [] && (namePattern == [] || namePattern[|namePattern| - 1] != '*')
            ==> pattern == namePattern + ext
  {
    if ext == [] then namePattern
    else if '*' in namePattern then
      if namePattern[|namePattern| - 1] == '*' then namePattern[..|namePattern| - 1] + ext
      else namePattern + ext
    else namePattern + ext
  }

  /**
   * With the default name pattern "*" and an extension, the pattern as
   * written matches only a file named exactly like the extension.
   */
  lemma StarPatternMatchesOnlyExtension(e: string, name: string)
    requires e != [] && NoWildcards(e)
    ensures BuildPatternAsWritten("*", e) == e
    ensures FnMatch(BuildPatternAsWritten("*", e), name) <==> name == e
  {
    assert "*"[..0] + e == e;
    FnMatchLiteral(e, name);
  }

  /** The instance: `find_files(name_pattern="*", extension="py")` misses "main.py". */
  lemma StarPatternMissesMainPy()
    ensures NormalizeExtension("py") == ".py"
    ensures !FnMatch(BuildPatternAsWritten("*", NormalizeExtension("py")), "main.py")
    ensures FnMatch(BuildPattern("*", NormalizeExtension("py")), "main.py")
  {
    StarPatternMatchesOnlyExtension(".py", "main.py");
    FnMatchStarSuffix(".py", "main.py");
    assert "*" + ".py" == ['*'] + ".py";
    assert "main.py"[7 - 3..] == ".py";
  }

  /** The pattern built so that the name pattern is kept and the extension is required. */
  function BuildPattern(namePattern: string, ext: string): (pattern: string)
    ensures ext == [] ==> pattern == namePattern
    ensures Text.StartsWith(pattern, namePattern) && Text.EndsWith(pattern, ext)
  {
    namePattern + ext
  }

  /** Every name the corrected pattern accepts carries the extension. */
  lemma BuildPatternRequiresExtension(namePattern: string, ext: string, name: string)
    requires NoWildcards(ext) && FnMatch(BuildPattern(namePattern, ext), name)
    ensures Text.EndsWith(name, ext)
  {
    FnMatchSuffix(namePattern, ext, name);
  }

  /** With "*" as name pattern the corrected pattern selects exactly the names with the extension. */
  lemma StarPatternSelectsExtension(ext: string, name: string)
    requires NoWildcards(ext)
    ensures FnMatch(BuildPattern("*", ext), name) <==> Text.EndsWith(name, ext)
  {
    assert BuildPattern("*", ext) == ['*'] + ext;
    FnMatchStarSuffix(ext, name);
  }

  /** The two constructions differ only for name patterns ending in '*'. */
  lemma BuildPatternAgrees(namePattern: string, ext: string)
    requires ext == [] || namePattern == [] || namePattern[|namePattern| - 1] != '*'
    ensures BuildPattern(namePattern, ext) == BuildPatternAsWritten(namePattern, ext)
  {
  }

  /** One directory as `os.walk` yields it: the directory and the names of the files directly in it. */
  datatype WalkStep = WalkStep(root: Path, files: seq<string>)

  function StepPaths(step: WalkStep): seq<Path> {
    seq(|step.files|, k requires 0 <= k < |step.files| => step.root + [step.files[k]])
  }

  /** The files `find_files` visits, in walk order: all of them, or those of the top directory only. */
  function Visited(walk: seq<WalkStep>, top: Path, recursive: bool): seq<Path>
    decreases |walk|
  {
    if walk == [] then []
    else (if recursive || walk[0].root == top then StepPaths(walk[0]) else [])
         + Visited(walk[1..], top, recursive)
  }

  /** Without `recursive`, every visited file lies directly in the top directory. */
  lemma {:induction false} VisitedOnlyTop(walk: seq<WalkStep>, top: Path)
    ensures forall k :: 0 <= k < |Visited(walk, top, false)| ==>
              Visited(walk, top, false)[k] != [] && Parent(Visited(walk, top, false)[k]) == top
    decreases |walk|
  {
    if walk != [] {
      VisitedOnlyTop(walk[1..], top);
      var here := if walk[0].root == top then StepPaths(walk[0]) else [];
      var v := Visited(walk, top, false);
      assert v == here + Visited(walk[1..], top, false);
      forall k | 0 <= k < |v|
        ensures v[k] != [] && Parent(v[k]) == top
      {
        if k < |here| {
          assert v[k] == top + [walk[0].files[k]];
          assert Parent(v[k]) == top;
        } else {
          assert v[k] == Visited(walk[1..], top, false)[k - |here|];
        }
      }
    }
  }

  /** Without `recursive`, a visited path lies directly in the top directory. */
  lemma VisitedInTop(walk: seq<WalkStep>, top: Path, p: Path)
    requires p in Visited(walk, top, false)
    ensures p != [] && Parent(p) == top
  {
    VisitedOnlyTop(walk, top);
    var k :| 0 <= k < |Visited(walk, top, false)| && Visited(walk, top, false)[k] == p;
  }

  /** With `recursive`, every walked file is visited. */
  lemma {:induction false} VisitedAll(walk: seq<WalkStep>, top: Path, j: nat, n: nat)
    requires j < |walk| && n < |walk[j].files|
    ensures walk[j].root + [walk[j].files[n]] in Visited(walk, top, true)
    decreases j
  {
    var v := Visited(walk, top, true);
    assert v == StepPaths(walk[0]) + Visited(walk[1..], top, true);
    if j == 0 {
      assert v[n] == StepPaths(walk[0])[n];
    } else {
      VisitedAll(walk[1..], top, j - 1, n);
      var x := walk[j].root + [walk[j].files[n]];
      var m :| 0 <= m < |Visited(walk[1..], top, true)| && Visited(walk[1..], top, true)[m] == x;
      assert v[|StepPaths(walk[0])| + m] == x;
    }
  }

  /** Every visited path is a walked file: some step's directory joined with one of its file names. */
  lemma {:induction false} VisitedFromWalk(walk: seq<WalkStep>, top: Path, recursive: bool, k: nat)
    requires k < |Visited(walk, top, recursive)|
    ensures exists j, n :: 0 <= j < |walk| && 0 <= n < |walk[j].files|
              && Visited(walk, top, recursive)[k] == walk[j].root + [walk[j].files[n]]
    decreases |walk|
  {
    var here := if recursive || walk[0].root == top then StepPaths(walk[0]) else [];
    var v := Visited(walk, top, recursive);
    assert v == here + Visited(walk[1..], top, recursive);
    if k < |here| {
      assert v[k] == walk[0].root + [walk[0].files[k]];
    } else {
      VisitedFromWalk(walk[1..], top, recursive, k - |here|);
      var j, n :| 0 <= j < |walk[1..]| && 0 <= n < |walk[1..][j].files|
                  && Visited(walk[1..], top, recursive)[k - |here|] == walk[1..][j].root + [walk[1..][j].files[n]];
      assert walk[1..][j] == walk[j + 1];
    }
  }

  /**
   * A `modified_after`/`modified_before` argument: absent (None or ""), a
   * parsed time without a UTC offset, a parsed time with one (such as
   * `2024-01-01T00:00:00+00:00`), or text `fromisoformat` rejects.
   */
  datatype TimeArg = Absent | At(time: int) | AtZoned | Malformed

  /**
   * A time bound as the loop compares it: a naive time, or an aware one that
   * the naive `mtime` cannot be compared with (the comparison raises).
   */
  datatype TimeLimit = Naive(time: int) | Zoned

  function TimeBound(t: TimeArg): Option<TimeLimit> {
    if t.At? then Some(Naive(t.time)) else if t.AtZoned? then Some(Zoned) else None
  }

  /** The filters of one `find_files` call; every bound is optional and inclusive. */
  datatype Criteria = Criteria(
    pattern: string, minSize: Option<int>, maxSize: Option<int>, after: Option<TimeLimit>, before: Option<TimeLimit>)

  predicate SizeWithin(size: int, c: Criteria) {
    && (c.minSize.None? || c.minSize.value <= size)
    && (c.maxSize.None? || size <= c.maxSize.value)
  }

  predicate AfterWithin(mtime: int, c: Criteria) {
    c.after.None? || (c.after.value.Naive? && c.after.value.time <= mtime)
  }

  predicate BeforeWithin(mtime: int, c: Criteria) {
    c.before.None? || (c.before.value.Naive? && mtime <= c.before.value.time)
  }

  predicate WithinBounds(size: int, mtime: int, c: Criteria) {
    SizeWithin(size, c) && AfterWithin(mtime, c) && BeforeWithin(mtime, c)
  }

  /**
   * The file at `p` reaches a comparison with an aware bound: it passes the
   * name and size filters and, when `before` is the aware one, the naive
   * `after` bound too.
   */
  predicate Raises(fs: FileSystem, c: Criteria, p: Path) {
    && FnMatch(c.pattern, Basename(p))
    && IsFile(fs, p)
    && SizeWithin(fs[p].size, c)
    && (c.after == Some(Zoned) || (AfterWithin(fs[p].mtime, c) && c.before == Some(Zoned)))
  }

  /** A visited path `find_files` reports. */
  predicate Accepts(fs: FileSystem, c: Criteria, p: Path) {
    && FnMatch(c.pattern, Basename(p))
    && IsFile(fs, p)
    && WithinBounds(fs[p].size, fs[p].mtime, c)
  }

  /**
   * The reference for the `find_files` loop: from visited path `i` on, with
   * room for `budget` more results. A name that matches but whose entry is
   * not a file makes `os.path.getsize` fail; a file that reaches an aware
   * bound makes the comparison fail.
   */
  function FindFrom(fs: FileSystem, cands: seq<Path>, c: Criteria, i: nat, budget: nat): Result<seq<FileItem>, FindError>
    requires i <= |cands|
    decreases |cands| - i
  {
    if i == |cands| || budget == 0 then Success([])
    else
      var p := cands[i];
      if !FnMatch(c.pattern, Basename(p)) then FindFrom(fs, cands, c, i + 1, budget)
      else if !IsFile(fs, p) then Failure(FsFailure(NotFound(p)))
      else if Raises(fs, c, p) then Failure(IncomparableTimes)
      else if !WithinBounds(fs[p].size, fs[p].mtime, c) then FindFrom(fs, cands, c, i + 1, budget)
      else
        match FindFrom(fs, cands, c, i + 1, budget - 1)
        case Failure(e) => Failure(e)
        case Success(l) => Success([ItemFor(fs, p)] + l)
  }

  /** Every result meets all the criteria and describes its file. */
  predicate AllAccepted(fs: FileSystem, c: Criteria, found: seq<FileItem>) {
    forall k :: 0 <= k < |found| ==> Accepts(fs, c, found[k].path) && found[k] == ItemFor(fs, found[k].path)
  }

  /** At most `budget` results, each one accepted by the criteria. */
  lemma {:induction false} FindFromSound(fs: FileSystem, cands: seq<Path>, c: Criteria, i: nat, budget: nat)
    requires i <= |cands|
    ensures FindFrom(fs, cands, c, i, budget).Success? ==> |FindFrom(fs, cands, c, i, budget).value| <= budget
    ensures FindFrom(fs, cands, c, i, budget).Success? ==> AllAccepted(fs, c, FindFrom(fs, cands, c, i, budget).value)
    decreases |cands| - i
  {
    if i < |cands| && budget > 0 {
      var p := cands[i];
      FindFromSound(fs, cands, c, i + 1, budget);
      FindFromSound(fs, cands, c, i + 1, budget - 1);
      if Accepts(fs, c, p) {
        var rest := FindFrom(fs, cands, c, i + 1, budget - 1);
        if rest.Success? {
          var r := [ItemFor(fs, p)] + rest.value;
          forall k | 0 <= k < |r|
            ensures Accepts(fs, c, r[k].path) && r[k] == ItemFor(fs, r[k].path)
          {
            if k > 0 {
              assert r[k] == rest.value[k - 1];
            }
          }
        }
      }
    }
  }

  /** When the cap was not reached, every accepted path from `i` on is reported. */
  lemma {:induction false} FindFromComplete(fs: FileSystem, cands: seq<Path>, c: Criteria, i: nat, budget: nat, j: nat)
    requires i <= j < |cands| && Accepts(fs, c, cands[j])
    requires FindFrom(fs, cands, c, i, budget).Success?
    requires |FindFrom(fs, cands, c, i, budget).value| < budget
    ensures ItemFor(fs, cands[j]) in FindFrom(fs, cands, c, i, budget).value
    decreases |cands| - i
  {
    var p := cands[i];
    if !Accepts(fs, c, p) {
      assert j != i;
      FindFromComplete(fs, cands, c, i + 1, budget, j);
    } else {
      var rest := FindFrom(fs, cands, c, i + 1, budget - 1);
      if j != i {
        FindFromComplete(fs, cands, c, i + 1, budget - 1, j);
        assert ItemFor(fs, cands[j]) in [ItemFor(fs, p)] + rest.value;
      }
    }
  }

  lemma AppendFound(done: seq<FileItem>, x: FileItem, rest: Result<seq<FileItem>, FindError>)
    ensures Prepend(done, Prepend([x], rest)) == Prepend(done + [x], rest)
  {
    if rest.Success? {
      assert done + ([x] + rest.value) == done + [x] + rest.value;
    }
  }

  function Prepend(done: seq<FileItem>, rest: Result<seq<FileItem>, FindError>): Result<seq<FileItem>, FindError> {
    match rest
    case Failure(e) => Failure(e)
    case Success(l) => Success(done + l)
  }

  /** A visited path the filters pass over leaves the rest of the search as it was. */
  lemma FindStepSkip(fs: FileSystem, cands: seq<Path>, c: Criteria, i: nat, budget: nat, done: seq<FileItem>)
    requires i < |cands| && budget > 0
    requires !FnMatch(c.pattern, Basename(cands[i])) || (IsFile(fs, cands[i]) && !Raises(fs, c, cands[i]) && !WithinBounds(fs[cands[i]].size, fs[cands[i]].mtime, c))
    ensures Prepend(done, FindFrom(fs, cands, c, i, budget)) == Prepend(done, FindFrom(fs, cands, c, i + 1, budget))
  {
  }

  /** An accepted path joins the results found so far. */
  lemma FindStepTake(fs: FileSystem, cands: seq<Path>, c: Criteria, i: nat, budget: nat, done: seq<FileItem>)
    requires i < |cands| && budget > 0 && Accepts(fs, c, cands[i])
    ensures Prepend(done, FindFrom(fs, cands, c, i, budget))
         == Prepend(done + [ItemFor(fs, cands[i])], FindFrom(fs, cands, c, i + 1, budget - 1))
  {
    AppendFound(done, ItemFor(fs, cands[i]), FindFrom(fs, cands, c, i + 1, budget - 1));
  }

  /** A matching name whose entry is not a file ends the search with an error. */
  lemma FindStepFail(fs: FileSystem, cands: seq<Path>, c: Criteria, i: nat, budget: nat, done: seq<FileItem>)
    requires i < |cands| && budget > 0 && FnMatch(c.pattern, Basename(cands[i])) && !IsFile(fs, cands[i])
    ensures Prepend(done, FindFrom(fs, cands, c, i, budget)) == Failure(FsFailure(NotFound(cands[i])))
  {
  }

  /** A file that reaches an aware bound ends the search with the comparison error. */
  lemma FindStepRaise(fs: FileSystem, cands: seq<Path>, c: Criteria, i: nat, budget: nat, done: seq<FileItem>)
    requires i < |cands| && budget > 0 && Raises(fs, c, cands[i])
    ensures Prepend(done, FindFrom(fs, cands, c, i, budget)) == Failure(IncomparableTimes)
  {
  }

  /** With no candidates or no room left, the results found so far are the answer. */
  lemma FindStop(fs: FileSystem, cands: seq<Path>, c: Criteria, i: nat, budget: nat, done: seq<FileItem>)
    requires i <= |cands| && (i == |cands| || budget == 0)
    ensures Prepend(done, FindFrom(fs, cands, c, i, budget)) == Success(done)
  {
    assert done + [] == done;
  }

  /** The loop state of `find_files`: what is found so far, followed by what the rest yields, is the whole answer. */
  predicate FindSoFar(fs: FileSystem, cands: seq<Path>, c: Criteria, cap: nat, i: nat, found: seq<FileItem>) {
    i <= |cands| && |found| <= cap
    && FindFrom(fs, cands, c, 0, cap) == Prepend(found, FindFrom(fs, cands, c, i, cap - |found|))
  }

  lemma FindSoFarStart(fs: FileSystem, cands: seq<Path>, c: Criteria, cap: nat)
    ensures FindSoFar(fs, cands, c, cap, 0, [])
  {
    var whole := FindFrom(fs, cands, c, 0, cap);
    var none: seq<FileItem> := [];
    assert cap - |none| == cap;
    if whole.Success? {
      assert [] + whole.value == whole.value;
    }
  }

  lemma FindSoFarSkip(fs: FileSystem, cands: seq<Path>, c: Criteria, cap: nat, i: nat, found: seq<FileItem>)
    requires FindSoFar(fs, cands, c, cap, i, found) && i < |cands| && |found| < cap
    requires !FnMatch(c.pattern, Basename(cands[i])) || (IsFile(fs, cands[i]) && !Raises(fs, c, cands[i]) && !WithinBounds(fs[cands[i]].size, fs[cands[i]].mtime, c))
    ensures FindSoFar(fs, cands, c, cap, i + 1, found)
  {
    FindStepSkip(fs, cands, c, i, cap - |found|, found);
  }

  lemma FindSoFarTake(fs: FileSystem, cands: seq<Path>, c: Criteria, cap: nat, i: nat, found: seq<FileItem>)
    requires FindSoFar(fs, cands, c, cap, i, found) && i < |cands| && |found| < cap && Accepts(fs, c, cands[i])
    ensures FindSoFar(fs, cands, c, cap, i + 1, found + [ItemFor(fs, cands[i])])
  {
    var next := found + [ItemFor(fs, cands[i])];
    assert cap - |next| == cap - |found| - 1;
    FindStepTake(fs, cands, c, i, cap - |found|, found);
  }

  lemma FindSoFarFail(fs: FileSystem, cands: seq<Path>, c: Criteria, cap: nat, i: nat, found: seq<FileItem>)
    requires FindSoFar(fs, cands, c, cap, i, found) && i < |cands| && |found| < cap
    requires FnMatch(c.pattern, Basename(cands[i])) && !IsFile(fs, cands[i])
    ensures FindFrom(fs, cands, c, 0, cap) == Failure(FsFailure(NotFound(cands[i])))
  {
    FindStepFail(fs, cands, c, i, cap - |found|, found);
  }

  lemma FindSoFarRaise(fs: FileSystem, cands: seq<Path>, c: Criteria, cap: nat, i: nat, found: seq<FileItem>)
    requires FindSoFar(fs, cands, c, cap, i, found) && i < |cands| && |found| < cap && Raises(fs, c, cands[i])
    ensures FindFrom(fs, cands, c, 0, cap) == Failure(IncomparableTimes)
  {
    FindStepRaise(fs, cands, c, i, cap - |found|, found);
  }

  lemma FindSoFarStop(fs: FileSystem, cands: seq<Path>, c: Criteria, cap: nat, i: nat, found: seq<FileItem>)
    requires FindSoFar(fs, cands, c, cap, i, found) && (i == |cands| || |found| >= cap)
    ensures FindFrom(fs, cands, c, 0, cap) == Success(found)
  {
    FindStop(fs, cands, c, i, cap - |found|, found);
  }

  /** The `find_files` loop over the visited paths, stopping once `cap` results are collected. */
  method CollectFound(fs: FileSystem, cands: seq<Path>, c: Criteria, cap: nat)
    returns (r: Result<seq<FileItem>, FindError>)
    ensures r == FindFrom(fs, cands, c, 0, cap)
  {
    var found: seq<FileItem> := [];
    var i := 0;
    FindSoFarStart(fs, cands, c, cap);
    while i < |cands|
      invariant 0 <= i <= |cands|
      invariant |found| <= cap
      invariant FindSoFar(fs, cands, c, cap, i, found)
    {
      if |found| >= cap {
        break;
      }
      var p := cands[i];
      if FnMatch(c.pattern, Basename(p)) {
        if !IsFile(fs, p) {
          FindSoFarFail(fs, cands, c, cap, i, found);
          return Failure(FsFailure(NotFound(p)));
        }
        if Raises(fs, c, p) {
          FindSoFarRaise(fs, cands, c, cap, i, found);
          return Failure(IncomparableTimes);
        }
        if WithinBounds(fs[p].size, fs[p].mtime, c) {
          FindSoFarTake(fs, cands, c, cap, i, found);
          found := found + [ItemFor(fs, p)];
        } else {
          FindSoFarSkip(fs, cands, c, cap, i, found);
        }
      } else {
        FindSoFarSkip(fs, cands, c, cap, i, found);
      }
      i := i + 1;
    }
    FindSoFarStop(fs, cands, c, cap, i, found);
    return Success(found);
  }

  datatype FindError = FsFailure(error: FsError) | BadModifiedAfter | BadModifiedBefore | IncomparableTimes

  datatype FindReport = FindReport(
    directory: Path, extension: string, totalMatches: nat, maxResults: int, files: seq<FileItem>)

  /** The criteria `find_files` derives from its arguments. */
  function SearchCriteria(namePattern: string, extension: string, minSize: Option<int>, maxSize: Option<int>,
                          after: TimeArg, before: TimeArg): Criteria
  {
    Criteria(BuildPattern(namePattern, NormalizeExtension(extension)), minSize, maxSize, TimeBound(after), TimeBound(before))
  }

  /**
   * `find_files`: checks the directory, then the two time arguments, then
   * collects up to `max_results` visited files that pass every filter.
   * `walk` is what `os.walk(directory)` yields.
   */
  method FindFiles(fs: FileSystem, directory: Path, walk: seq<WalkStep>, namePattern: string, extension: string,
                   minSize: Option<int>, maxSize: Option<int>, after: TimeArg, before: TimeArg,
                   recursive: bool, maxResults: int)
    returns (r: Result<FindReport, FindError>)
    ensures directory !in fs ==> r == Failure(FsFailure(NotFound(directory)))
    ensures IsFile(fs, directory) ==> r == Failure(FsFailure(NotADirectory(directory)))
    ensures IsDir(fs, directory) && after.Malformed? ==> r == Failure(BadModifiedAfter)
    ensures IsDir(fs, directory) && !after.Malformed? && before.Malformed? ==> r == Failure(BadModifiedBefore)
    ensures r.Success? ==> IsDir(fs, directory) && !after.Malformed? && !before.Malformed?
    ensures r.Success? ==> r.value.extension == NormalizeExtension(extension)
    ensures r.Success? ==> r.value.totalMatches == |r.value.files| <= Cap(maxResults)
    ensures r.Success? ==> AllAccepted(fs, SearchCriteria(namePattern, extension, minSize, maxSize, after, before), r.value.files)
    ensures r.Success? && |r.value.files| < Cap(maxResults) ==>
              forall p :: p in Visited(walk, directory, recursive)
                          && Accepts(fs, SearchCriteria(namePattern, extension, minSize, maxSize, after, before), p)
                          ==> ItemFor(fs, p) in r.value.files
    ensures r.Success? ==> forall k :: 0 <= k < |r.value.files| ==> r.value.files[k].path in Visited(walk, directory, recursive)
    ensures r.Success? && !recursive ==>
              forall k :: 0 <= k < |r.value.files| ==> r.value.files[k].path != [] && Parent(r.value.files[k].path) == directory
    ensures r.Success? ==>
              var scan := FindFrom(fs, Visited(walk, directory, recursive),
                                   SearchCriteria(namePattern, extension, minSize, maxSize, after, before), 0, Cap(maxResults));
              scan.Success? && r.value.files == scan.value
    ensures r.Success? ==> exists idx :: PicksFrom(fs, Visited(walk, directory, recursive), 0, idx, r.value.files)
    ensures r.Failure? && r.error.FsFailure? && IsDir(fs, directory) ==>
              exists p :: p in Visited(walk, directory, recursive) && r.error == FsFailure(NotFound(p)) && !IsFile(fs, p)
    ensures r == Failure(IncomparableTimes) ==>
              && (after.AtZoned? || before.AtZoned?)
              && exists p :: p in Visited(walk, directory, recursive)
                             && Raises(fs, SearchCriteria(namePattern, extension, minSize, maxSize, after, before), p)
    ensures r.Success? && (after.AtZoned? || before.AtZoned?) && Cap(maxResults) > 0 ==>
              && r.value.files == []
              && forall p :: p in Visited(walk, directory, recursive)
                             ==> !Raises(fs, SearchCriteria(namePattern, extension, minSize, maxSize, after, before), p)
  {
    if directory !in fs {
      return Failure(FsFailure(NotFound(directory)));
    }
    if !IsDir(fs, directory) {
      return Failure(FsFailure(NotADirectory(directory)));
    }
    if after.Malformed? {
      return Failure(BadModifiedAfter);
    }
    if before.Malformed? {
      return Failure(BadModifiedBefore);
    }
    var c := SearchCriteria(namePattern, extension, minSize, maxSize, after, before);
    var cands := Visited(walk, directory, recursive);
    var found := CollectFound(fs, cands, c, Cap(maxResults));
    FindFromSummary(fs, cands, c, Cap(maxResults));
    FindFromInOrder(fs, cands, c, 0, Cap(maxResults));
    if found.Failure? {
      return Failure(found.error);
    }
    if (after.AtZoned? || before.AtZoned?) && Cap(maxResults) > 0 {
      ZonedScan(fs, cands, c, Cap(maxResults));
    }
    if !recursive {
      forall k | 0 <= k < |found.value|
        ensures found.value[k].path != [] && Parent(found.value[k].path) == directory
      {
        VisitedInTop(walk, directory, found.value[k].path);
      }
    }
    return Success(FindReport(directory, NormalizeExtension(extension), |found.value|, maxResults, found.value));
  }

  /**
   * `found` lists the items of candidates at increasing positions from `i`
   * on: in the order visited, each position at most once.
   */
  predicate PicksFrom(fs: FileSystem, cands: seq<Path>, i: nat, idx: seq<nat>, found: seq<FileItem>) {
    && |idx| == |found|
    && (forall k :: 0 <= k < |idx| ==> i <= idx[k] < |cands| && IsFile(fs, cands[idx[k]]) && found[k] == ItemFor(fs, cands[idx[k]]))
    && (forall k, l :: 0 <= k < l < |idx| ==> idx[k] < idx[l])
  }

  lemma PicksCons(fs: FileSystem, cands: seq<Path>, i: nat, idx: seq<nat>, found: seq<FileItem>)
    requires i < |cands| && IsFile(fs, cands[i]) && PicksFrom(fs, cands, i + 1, idx, found)
    ensures PicksFrom(fs, cands, i, [i] + idx, [ItemFor(fs, cands[i])] + found)
  {
  }

  lemma PicksWiden(fs: FileSystem, cands: seq<Path>, i: nat, idx: seq<nat>, found: seq<FileItem>)
    requires PicksFrom(fs, cands, i + 1, idx, found)
    ensures PicksFrom(fs, cands, i, idx, found)
  {
  }

  /** The scan reports candidates in the order visited, each at most once. */
  lemma {:induction false} FindFromInOrder(fs: FileSystem, cands: seq<Path>, c: Criteria, i: nat, budget: nat)
    requires i <= |cands|
    ensures FindFrom(fs, cands, c, i, budget).Success? ==>
              exists idx :: PicksFrom(fs, cands, i, idx, FindFrom(fs, cands, c, i, budget).value)
    decreases |cands| - i
  {
    var r := FindFrom(fs, cands, c, i, budget);
    if r.Success? {
      if i == |cands| || budget == 0 {
        assert PicksFrom(fs, cands, i, [], r.value);
      } else {
        var p := cands[i];
        if Accepts(fs, c, p) && !Raises(fs, c, p) {
          var rest := FindFrom(fs, cands, c, i + 1, budget - 1);
          FindFromInOrder(fs, cands, c, i + 1, budget - 1);
          var idx :| PicksFrom(fs, cands, i + 1, idx, rest.value);
          PicksCons(fs, cands, i, idx, rest.value);
        } else {
          FindFromInOrder(fs, cands, c, i + 1, budget);
          var idx :| PicksFrom(fs, cands, i + 1, idx, r.value);
          PicksWiden(fs, cands, i, idx, r.value);
        }
      }
    }
  }

  /**
   * With an aware bound nothing is ever reported, since no file compares
   * with it: a scan that succeeds with room left met no file that reaches
   * the bound.
   */
  lemma {:induction false} ZonedFindsNothing(fs: FileSystem, cands: seq<Path>, c: Criteria, i: nat, budget: nat)
    requires i <= |cands| && budget > 0
    requires c.after == Some(Zoned) || c.before == Some(Zoned)
    ensures FindFrom(fs, cands, c, i, budget).Success? ==>
              FindFrom(fs, cands, c, i, budget).value == []
              && forall j :: i <= j < |cands| ==> !Raises(fs, c, cands[j])
    decreases |cands| - i
  {
    if i < |cands| {
      ZonedFindsNothing(fs, cands, c, i + 1, budget);
    }
  }

  /** ZonedFindsNothing over the whole scan, stated for the visited paths themselves. */
  lemma ZonedScan(fs: FileSystem, cands: seq<Path>, c: Criteria, cap: nat)
    requires cap > 0 && (c.after == Some(Zoned) || c.before == Some(Zoned))
    ensures FindFrom(fs, cands, c, 0, cap).Success? ==>
              FindFrom(fs, cands, c, 0, cap).value == [] && forall p :: p in cands ==> !Raises(fs, c, p)
  {
    ZonedFindsNothing(fs, cands, c, 0, cap);
    if FindFrom(fs, cands, c, 0, cap).Success? {
      forall p | p in cands
        ensures !Raises(fs, c, p)
      {
        var j :| 0 <= j < |cands| && cands[j] == p;
      }
    }
  }

  /** Every item found is one of the candidates. */
  lemma {:induction false} FindFromIn(fs: FileSystem, cands: seq<Path>, c: Criteria, i: nat, budget: nat)
    requires i <= |cands|
    ensures FindFrom(fs, cands, c, i, budget).Success? ==>
              forall k :: 0 <= k < |FindFrom(fs, cands, c, i, budget).value| ==> FindFrom(fs, cands, c, i, budget).value[k].path in cands
    decreases |cands| - i
  {
    if i < |cands| && budget > 0 {
      var p := cands[i];
      FindFromIn(fs, cands, c, i + 1, budget);
      FindFromIn(fs, cands, c, i + 1, budget - 1);
      var rest := FindFrom(fs, cands, c, i + 1, budget - 1);
      if Accepts(fs, c, p) && rest.Success? {
        var r := [ItemFor(fs, p)] + rest.value;
        forall k | 0 <= k < |r|
          ensures r[k].path in cands
        {
          if k > 0 {
            assert r[k] == rest.value[k - 1];
          }
        }
      }
    }
  }

  /** What the search from the first visited path gives: sound, complete below the cap, and failing only on a non-file. */
  lemma FindFromSummary(fs: FileSystem, cands: seq<Path>, c: Criteria, cap: nat)
    ensures FindFrom(fs, cands, c, 0, cap).Success? ==>
              |FindFrom(fs, cands, c, 0, cap).value| <= cap && AllAccepted(fs, c, FindFrom(fs, cands, c, 0, cap).value)
    ensures FindFrom(fs, cands, c, 0, cap).Success? ==>
              forall k :: 0 <= k < |FindFrom(fs, cands, c, 0, cap).value| ==> FindFrom(fs, cands, c, 0, cap).value[k].path in cands
    ensures FindFrom(fs, cands, c, 0, cap).Success? && |FindFrom(fs, cands, c, 0, cap).value| < cap ==>
              forall p :: p in cands && Accepts(fs, c, p) ==> ItemFor(fs, p) in FindFrom(fs, cands, c, 0, cap).value
    ensures FindFrom(fs, cands, c, 0, cap).Failure? ==>
              || (exists p :: p in cands && FindFrom(fs, cands, c, 0, cap).error == FsFailure(NotFound(p)) && !IsFile(fs, p))
              || (FindFrom(fs, cands, c, 0, cap).error == IncomparableTimes && exists p :: p in cands && Raises(fs, c, p))
  {
    var r := FindFrom(fs, cands, c, 0, cap);
    FindFromSound(fs, cands, c, 0, cap);
    FindFromIn(fs, cands, c, 0, cap);
    if r.Failure? {
      FindFromFails(fs, cands, c, 0, cap);
      var j :| 0 <= j < |cands| && ((r.error == FsFailure(NotFound(cands[j])) && !IsFile(fs, cands[j]))
                                    || (r.error == IncomparableTimes && Raises(fs, c, cands[j])));
      assert cands[j] in cands;
    } else if |r.value| < cap {
      forall p | p in cands && Accepts(fs, c, p)
        ensures ItemFor(fs, p) in r.value
      {
        var j :| 0 <= j < |cands| && cands[j] == p;
        FindFromComplete(fs, cands, c, 0, cap, j);
      }
    }
  }

  /** The loop fails only on a visited path that is not a regular file, or on a file that reaches an aware bound. */
  lemma {:induction false} FindFromFails(fs: FileSystem, cands: seq<Path>, c: Criteria, i: nat, budget: nat)
    requires i <= |cands|
    ensures FindFrom(fs, cands, c, i, budget).Failure? ==>
              exists j :: i <= j < |cands| &&
                ((FindFrom(fs, cands, c, i, budget).error == FsFailure(NotFound(cands[j])) && !IsFile(fs, cands[j]))
                 || (FindFrom(fs, cands, c, i, budget).error == IncomparableTimes && Raises(fs, c, cands[j])))
    decreases |cands| - i
  {
    if i < |cands| && budget > 0 {
      FindFromFails(fs, cands, c, i + 1, budget);
      FindFromFails(fs, cands, c, i + 1, budget - 1);
    }
  }
}

=== FILE: fileops.dfy ===
/**
 * The file handlers of archive/file_operation_server.py as transitions of the
 * abstract file system: each returns the file system afterwards together with
 * the reply (a payload or an error).
 */
module FileOps {
  import opened Wrappers
  import opened FileSystem
  import Text
  import Lines

  /** The state after a handler ran, and what it replied. */
  datatype Outcome<T> = Outcome(fs: FileSystem, reply: Result<T, FsError>)

  datatype Listing = Listing(path: Path, directories: set<string>, files: set<string>)
  datatype FileText = FileText(path: Path, size: nat, content: string)
  datatype Transfer = Transfer(source: Path, destination: Path)

  /** `read_file` refuses files above this many bytes. */
  const MaxReadSize: nat := 1_000_000

  /** A file as `open(path, 'w', encoding='utf-8').write(content)` leaves it at time `now`. */
  function NewFile(content: string, now: int): Entry {
    File(content, Text.Utf8Length(content), now, true)
  }

  /** Names of the entries directly inside `p` that are (or are not) directories. */
  function ChildNames(fs: FileSystem, p: Path, dirs: bool): (names: set<string>)
    ensures forall n :: n in names <==> p + [n] in fs && fs[p + [n]].Dir? == dirs
  {
    var names := set q | q in fs && |q| == |p| + 1 && q[..|p|] == p && fs[q].Dir? == dirs :: q[|p|];
    assert forall n :: p + [n] in fs && fs[p + [n]].Dir? == dirs ==> n in names by {
      forall n | p + [n] in fs && fs[p + [n]].Dir? == dirs
        ensures n in names
      {
        var q := p + [n];
        assert q[..|p|] == p && q[|p|] == n;
      }
    }
    assert forall n :: n in names ==> p + [n] in fs && fs[p + [n]].Dir? == dirs by {
      forall n | n in names
        ensures p + [n] in fs && fs[p + [n]].Dir? == dirs
      {
        var q :| q in fs && |q| == |p| + 1 && q[..|p|] == p && fs[q].Dir? == dirs && q[|p|] == n;
        assert q == p + [n];
      }
    }
    names
  }

  /** `list_directory`: the names inside a directory, split into directories and the rest. */
  function ListDirectory(fs: FileSystem, p: Path): (r: Result<Listing, FsError>)
    ensures p !in fs ==> r == Failure(NotFound(p))
    ensures IsFile(fs, p) ==> r == Failure(NotADirectory(p))
    ensures r.Success? <==> IsDir(fs, p)
    ensures r.Success? ==> r.value.path == p
    ensures r.Success? ==> forall n :: n in r.value.directories <==> IsDir(fs, p + [n])
    ensures r.Success? ==> forall n :: n in r.value.files <==> IsFile(fs, p + [n])
    ensures r.Success? ==> r.value.directories !! r.value.files
  {
    if p !in fs then Failure(NotFound(p))
    else if !fs[p].Dir? then Failure(NotADirectory(p))
    else Success(Listing(p, ChildNames(fs, p, true), ChildNames(fs, p, false)))
  }

  /**
   * The size limit as the error message states it, in whole megabytes:
   * `MAX_FILE_SIZE // 1024 // 1024`.
   */
  function SizeLimitMegabytesAsWritten(): nat {
    MaxReadSize / 1024 / 1024
  }

  /** The message computes a limit of 0 MB although files up to 1,000,000 bytes are read. */
  lemma SizeLimitMessageSaysZero()
    ensures SizeLimitMegabytesAsWritten() == 0 && MaxReadSize > 0
  {
  }

  /** The limit the message should state: the fewest whole megabytes that cover it. */
  function SizeLimitMegabytes(): (mb: nat)
    ensures mb * 1_000_000 >= MaxReadSize
    ensures mb == 0 || (mb - 1) * 1_000_000 < MaxReadSize
  {
    (MaxReadSize + 999_999) / 1_000_000
  }

  /**
   * `read_file`: a regular file of at most `MaxReadSize` bytes that decodes as
   * UTF-8, read in text mode (universal newlines).
   */
  function ReadFile(fs: FileSystem, p: Path): (r: Result<FileText, FsError>)
    ensures p !in fs ==> r == Failure(NotFound(p))
    ensures IsDir(fs, p) ==> r == Failure(NotAFile(p))
    ensures IsFile(fs, p) && fs[p].size > MaxReadSize ==> r == Failure(FileTooLarge(fs[p].size, SizeLimitMegabytes()))
    ensures IsFile(fs, p) && fs[p].size <= MaxReadSize && !fs[p].decodable ==> r == Failure(NotUtf8(p))
    ensures r.Success? <==> IsFile(fs, p) && fs[p].size <= MaxReadSize && fs[p].decodable
    ensures r.Success? ==> r.value.path == p && r.value.size == fs[p].size
    ensures r.Success? ==> r.value.content == Lines.Translate(fs[p].content) && '\r' !in r.value.content
  {
    if p !in fs then Failure(NotFound(p))
    else if !fs[p].File? then Failure(NotAFile(p))
    else if fs[p].size > MaxReadSize then Failure(FileTooLarge(fs[p].size, SizeLimitMegabytes()))
    else if !fs[p].decodable then Failure(NotUtf8(p))
    else Success(FileText(p, fs[p].size, Lines.Translate(fs[p].content)))
  }

  /**
   * `write_file`: refuses a directory, and an existing path unless `overwrite`;
   * otherwise creates the missing parent directories and writes `content`.
   */
  function WriteFile(fs: FileSystem, p: Path, content: string, overwrite: bool, now: int): (o: Outcome<Path>)
    ensures o.reply.Failure? ==> o.fs == fs
    ensures IsDir(fs, p) || p == [] ==> o.reply == Failure(IsADirectory(p))
    ensures p != [] && IsFile(fs, p) && !overwrite ==> o.reply == Failure(AlreadyExists(p))
    ensures o.reply.Success? ==> o.reply.value == p && p in o.fs && o.fs[p] == NewFile(content, now)
    ensures o.reply.Success? ==> forall q :: q in fs && q != p ==> q in o.fs && o.fs[q] == fs[q]
    ensures o.reply.Success? ==> forall q :: q in o.fs && q !in fs && q != p ==> IsPrefix(q, p) && o.fs[q].Dir?
    ensures o.reply.Success? && WellFormed(fs) ==> WellFormed(o.fs)
  {
    if IsDir(fs, p) || p == [] then Outcome(fs, Failure(IsADirectory(p)))
    else if p in fs && !overwrite then Outcome(fs, Failure(AlreadyExists(p)))
    else
      match MakeDirs(fs, Parent(p), true)
      case Failure(e) => Outcome(fs, Failure(e))
      case Success(fs1) =>
        PutAfterMakeDirs(fs, fs1, p, NewFile(content, now));
        Outcome(fs1[p := NewFile(content, now)], Success(p))
  }

  /** With its parent directory in place, a write changes the target path and nothing else. */
  lemma WriteFileOnlyTarget(fs: FileSystem, p: Path, content: string, overwrite: bool, now: int)
    requires p != [] && IsDir(fs, Parent(p)) && !IsDir(fs, p) && (p !in fs || overwrite)
    ensures WriteFile(fs, p, content, overwrite, now) == Outcome(fs[p := NewFile(content, now)], Success(p))
  {
    MakeDirsExisting(fs, Parent(p));
  }

  /**
   * In a well-formed tree a write succeeds exactly when the path is not a
   * directory, is absent or may be overwritten, and no regular file sits on the
   * way to it.
   */
  lemma WriteFileSucceedsIff(fs: FileSystem, p: Path, content: string, overwrite: bool, now: int)
    requires WellFormed(fs) && p != []
    ensures WriteFile(fs, p, content, overwrite, now).reply.Success?
        <==> !IsDir(fs, p) && (p !in fs || overwrite)
             && !exists i :: 0 <= i <= |Parent(p)| && IsFile(fs, Parent(p)[..i])
  {
    MakeDirsFailsIffFileOnPath(fs, Parent(p));
  }

  /** What `write_file` stores, `read_file` gives back (in text mode) with its UTF-8 size. */
  lemma WriteThenRead(fs: FileSystem, p: Path, content: string, overwrite: bool, now: int)
    requires WriteFile(fs, p, content, overwrite, now).reply.Success?
    requires Text.Utf8Length(content) <= MaxReadSize
    ensures ReadFile(WriteFile(fs, p, content, overwrite, now).fs, p)
         == Success(FileText(p, Text.Utf8Length(content), Lines.Translate(content)))
    ensures '\r' !in content ==> ReadFile(WriteFile(fs, p, content, overwrite, now).fs, p).value.content == content
  {
    if '\r' !in content {
      Lines.TranslateNoCarriageReturn(content);
    }
  }

  /** Where a copy or move lands: inside `dst` under the source's name when `dst` is a directory. */
  function Destination(fs: FileSystem, src: Path, dst: Path): (t: Path)
    ensures IsDir(fs, dst) ==> t == dst + [Basename(src)] && Parent(t) == dst
    ensures !IsDir(fs, dst) ==> t == dst
  {
    if IsDir(fs, dst) then dst + [Basename(src)] else dst
  }

  /**
   * `after` is `before` with the entry of `src` copied to `w`: the source
   * stays, every other entry is kept, and nothing is added but directories on
   * the way to `w`.
   */
  predicate CopiedTo(before: FileSystem, after: FileSystem, src: Path, w: Path)
    requires src in before
  {
    && w != src && w in after && after[w] == before[src]
    && src in after && after[src] == before[src]
    && (forall q :: q in before && q != w ==> q in after && after[q] == before[q])
    && (forall q :: q in after && q !in before && q != w ==> IsPrefix(q, w) && after[q].Dir?)
  }

  /**
   * `copy_file`: copies a regular file with its metadata (`shutil.copy2`) to
   * `Destination(fs, src, dst)`, creating missing parent directories. When
   * that target is itself an existing directory (possible only with
   * `overwrite`), `copy2` writes inside it under the source's name.
   */
  function CopyFile(fs: FileSystem, src: Path, dst: Path, overwrite: bool): (o: Outcome<Transfer>)
    ensures src !in fs ==> o == Outcome(fs, Failure(NotFound(src)))
    ensures IsDir(fs, src) ==> o == Outcome(fs, Failure(NotAFile(src)))
    ensures IsFile(fs, src) && Destination(fs, src, dst) in fs && !overwrite
            ==> o == Outcome(fs, Failure(AlreadyExists(Destination(fs, src, dst))))
    ensures o.reply.Success? ==> IsFile(fs, src) && o.reply.value == Transfer(src, Destination(fs, src, dst))
    ensures o.reply.Success? ==> CopiedTo(fs, o.fs, src, Destination(fs, src, Destination(fs, src, dst)))
    ensures WellFormed(fs) && o.reply.Failure? ==> o.fs == fs
    ensures WellFormed(fs) ==> WellFormed(o.fs)
  {
    if src !in fs then Outcome(fs, Failure(NotFound(src)))
    else if !fs[src].File? then Outcome(fs, Failure(NotAFile(src)))
    else
      var target := Destination(fs, src, dst);
      if target in fs && !overwrite then Outcome(fs, Failure(AlreadyExists(target)))
      else if target == [] then Outcome(fs, Failure(IsADirectory(target)))
      else
        match MakeDirs(fs, Parent(target), true)
        case Failure(e) => Outcome(fs, Failure(e))
        case Success(fs1) =>
          assert target in fs1 <==> target in fs;
          assert IsDir(fs1, target) <==> IsDir(fs, target);
          var written := Destination(fs1, src, target);
          if written == src then
            CopyFailsHarmlessly(fs, fs1, target, src);
            Outcome(fs1, Failure(SameFile(src)))
          else if IsDir(fs1, written) then
            CopyFailsHarmlessly(fs, fs1, target, written);
            Outcome(fs1, Failure(IsADirectory(written)))
          else
            CopyLands(fs, fs1, src, target);
            Outcome(fs1[written := fs1[src]], Success(Transfer(src, target)))
  }

  /**
   * The copy can only fail after `makedirs` when the path it writes is an
   * existing entry; then the parent of the target already existed and
   * `makedirs` created nothing.
   */
  lemma CopyFailsHarmlessly(fs: FileSystem, fs1: FileSystem, target: Path, written: Path)
    requires target != [] && MakeDirs(fs, Parent(target), true) == Success(fs1)
    requires written in fs1 && (written == target || (IsDir(fs1, target) && written == target + [Basename(written)]))
    ensures WellFormed(fs) ==> fs1 == fs
  {
    if WellFormed(fs) {
      assert target in fs1;
      assert target in fs by {
        assert !IsPrefix(target, Parent(target));
      }
      AncestorsAreDirs(fs, target, Parent(target));
      MakeDirsExisting(fs, Parent(target));
    }
  }

  /**
   * `copy2` writing the source's entry at the path it lands on, once `makedirs`
   * has put the target's parent in place: only that path changes, and a
   * well-formed tree stays well formed.
   */
  lemma CopyLands(fs: FileSystem, fs1: FileSystem, src: Path, target: Path)
    requires IsFile(fs, src) && target != [] && MakeDirs(fs, Parent(target), true) == Success(fs1)
    requires Destination(fs1, src, target) != src && !IsDir(fs1, Destination(fs1, src, target))
    requires IsDir(fs1, target) <==> IsDir(fs, target)
    ensures Destination(fs1, src, target) == Destination(fs, src, target)
    ensures fs1[Destination(fs1, src, target) := fs1[src]]
         == fs1[Destination(fs, src, target) := fs[src]]
    ensures CopiedTo(fs, fs1[Destination(fs, src, target) := fs[src]], src, Destination(fs, src, target))
    ensures WellFormed(fs) ==> WellFormed(fs1[Destination(fs, src, target) := fs[src]])
  {
    var written := Destination(fs1, src, target);
    forall q | q in fs1 && q !in fs
      ensures IsPrefix(q, written)
    {
      PrefixThroughParent(q, target);
      if written != target {
        PrefixThroughParent(q, written);
      }
    }
    if WellFormed(fs) {
      assert written != [] && IsDir(fs1, Parent(written));
      PutKeepsWellFormed(fs1, written, fs[src]);
    }
  }

  /** After a successful copy of a file to a fresh path, both paths hold the same entry. */
  lemma CopyPreservesContent(fs: FileSystem, src: Path, dst: Path, overwrite: bool)
    requires !IsDir(fs, dst)
    requires CopyFile(fs, src, dst, overwrite).reply.Success?
    ensures CopyFile(fs, src, dst, overwrite).fs[dst] == CopyFile(fs, src, dst, overwrite).fs[src] == fs[src]
  {
  }

  /** `shutil.move` onto a path that does not exist (or is the source itself). */
  function ShutilMove(fs: FileSystem, src: Path, target: Path): (r: Result<FileSystem, FsError>)
    ensures src !in fs ==> r == Failure(NotFound(src))
    ensures r.Failure? ==> src !in fs || (src != target && fs[src].Dir? && IsPrefix(src, target))
  {
    if src !in fs then Failure(NotFound(src))
    else if src == target then Success(fs)
    else if fs[src].Dir? && IsPrefix(src, target) then Failure(MoveIntoItself(src, target))
    else Success(Rename(fs, src, target))
  }

  /** The tail of `move_file`: create the parent of the target, then `shutil.move`. */
  function FinishMove(fs: FileSystem, src: Path, target: Path): Outcome<Transfer> {
    if target == [] then Outcome(fs, Failure(IsADirectory(target)))
    else
      match MakeDirs(fs, Parent(target), true)
      case Failure(e) => Outcome(fs, Failure(e))
      case Success(fs1) =>
        match ShutilMove(fs1, src, target)
        case Failure(e) => Outcome(fs1, Failure(e))
        case Success(fs2) => Outcome(fs2, Success(Transfer(src, target)))
  }

  /**
   * `move_file` as written: with `overwrite` an existing file at the target is
   * removed before anything else is checked, so when the target is the source
   * itself the source is deleted and the move then fails.
   */
  function MoveFileAsWritten(fs: FileSystem, src: Path, dst: Path, overwrite: bool): (o: Outcome<Transfer>)
    ensures src !in fs ==> o == Outcome(fs, Failure(NotFound(src)))
    ensures src in fs && Destination(fs, src, dst) in fs && !overwrite
            ==> o == Outcome(fs, Failure(AlreadyExists(Destination(fs, src, dst))))
  {
    if src !in fs then Outcome(fs, Failure(NotFound(src)))
    else
      var target := Destination(fs, src, dst);
      if target in fs && !overwrite then Outcome(fs, Failure(AlreadyExists(target)))
      else if target in fs && fs[target].Dir? then Outcome(fs, Failure(DirectoryTargetUnsupported(target)))
      else FinishMove(fs - {target}, src, target)
  }

  /** Moving a file onto its own path with `overwrite` deletes it and reports an error. */
  lemma MoveOntoItselfLosesFile(fs: FileSystem, src: Path)
    requires WellFormed(fs) && IsFile(fs, src)
    ensures Destination(fs, src, src) == src
    ensures MoveFileAsWritten(fs, src, src, true).reply == Failure(NotFound(src))
    ensures src !in MoveFileAsWritten(fs, src, src, true).fs
  {
    var fs1 := fs - {src};
    assert src != [];
    assert IsDir(fs1, Parent(src));
    MakeDirsExisting(fs1, Parent(src));
  }

  /** A concrete instance: the tree `{/ , /a}` loses `/a`. */
  lemma MoveOntoItselfExample()
    ensures var fs := map[[] := Dir, ["a"] := File("x", 1, 0, true)];
            && MoveFileAsWritten(fs, ["a"], ["a"], true).reply.Failure?
            && ["a"] !in MoveFileAsWritten(fs, ["a"], ["a"], true).fs
  {
    var fs := map[[] := Dir, ["a"] := File("x", 1, 0, true)];
    assert WellFormed(fs) by {
      forall p | p in fs && p != []
        ensures IsDir(fs, Parent(p))
      {
        assert p == ["a"];
      }
    }
    MoveOntoItselfLosesFile(fs, ["a"]);
  }

  /**
   * `move_file` with every refusal decided before anything is removed: a move
   * onto the source itself changes nothing, and a directory is never moved
   * into its own subtree.
   */
  function MoveFile(fs: FileSystem, src: Path, dst: Path, overwrite: bool): (o: Outcome<Transfer>)
    ensures src !in fs ==> o == Outcome(fs, Failure(NotFound(src)))
    ensures src in fs && Destination(fs, src, dst) in fs && !overwrite
            ==> o == Outcome(fs, Failure(AlreadyExists(Destination(fs, src, dst))))
    ensures src in fs && IsDir(fs, Destination(fs, src, dst)) && overwrite
            ==> o == Outcome(fs, Failure(DirectoryTargetUnsupported(Destination(fs, src, dst))))
    ensures o.reply.Success? ==> src in fs && o.reply.value == Transfer(src, Destination(fs, src, dst))
    ensures o.reply.Success? && Destination(fs, src, dst) == src ==> o.fs == fs
    ensures WellFormed(fs) && o.reply.Failure? ==> o.fs == fs
  {
    if src !in fs then Outcome(fs, Failure(NotFound(src)))
    else
      var target := Destination(fs, src, dst);
      if target in fs && !overwrite then Outcome(fs, Failure(AlreadyExists(target)))
      else if target in fs && fs[target].Dir? then Outcome(fs, Failure(DirectoryTargetUnsupported(target)))
      else if target == src then Outcome(fs, Success(Transfer(src, target)))
      else if fs[src].Dir? && IsPrefix(src, target) then Outcome(fs, Failure(MoveIntoItself(src, target)))
      else
        FinishMoveFailureKeeps(fs, src, target);
        FinishMove(fs - {target}, src, target)
  }

  /** On a well-formed tree, a move that gets past the checks and then fails leaves the tree as it was. */
  lemma FinishMoveFailureKeeps(fs: FileSystem, src: Path, target: Path)
    requires src in fs && target != src && (target in fs ==> fs[target].File?)
    requires !(fs[src].Dir? && IsPrefix(src, target))
    ensures WellFormed(fs) && FinishMove(fs - {target}, src, target).reply.Failure?
            ==> FinishMove(fs - {target}, src, target).fs == fs
  {
  }

  /** The same file moved onto itself: the corrected handler keeps it. */
  lemma MoveOntoItselfKeepsFile(fs: FileSystem, src: Path)
    requires IsFile(fs, src)
    ensures MoveFile(fs, src, src, true) == Outcome(fs, Success(Transfer(src, src)))
  {
  }

  /**
   * The facts about the state `shutil.move` starts from in the corrected
   * handler: the target is free, its parent is a directory, the source is
   * still there and the target lies outside the moved subtree.
   */
  lemma MoveStage(fs: FileSystem, src: Path, target: Path, fs1: FileSystem)
    requires WellFormed(fs) && src in fs && target != src && target != []
    requires target !in fs || IsFile(fs, target)
    requires !(fs[src].Dir? && IsPrefix(src, target))
    requires MakeDirs(fs - {target}, Parent(target), true) == Success(fs1)
    ensures WellFormed(fs1) && src in fs1 && fs1[src] == fs[src] && src != []
    ensures target !in fs1 && IsDir(fs1, Parent(target)) && !IsPrefix(src, target)
    ensures forall x :: x in fs1 ==> !IsPrefix(target, x)
    ensures forall q :: q in fs1 && q !in fs ==> IsPrefix(q, Parent(target))
    ensures forall q :: q in fs && q != target ==> q in fs1 && fs1[q] == fs[q]
  {
    var fs0 := fs - {target};
    if target in fs {
      RemoveFileWellFormed(fs, target);
    } else {
      assert fs0 == fs;
    }
    assert src != [] by {
      assert IsPrefix([], target);
    }
    assert !IsPrefix(target, Parent(target));
    forall x | x in fs0
      ensures !IsPrefix(target, x)
    {
      if target in fs {
        if IsPrefix(target, x) {
          FileHasNoDescendants(fs, target, x);
        }
      } else {
        NothingBelowAbsent(fs, target);
      }
    }
    if IsPrefix(src, target) {
      assert IsFile(fs, src);
      PrefixThroughParentOrSelf(src, target);
      AncestorsAreDirs(fs1, Parent(target), src);
    }
  }

  /** A prefix of `p` other than `p` itself is a prefix of its parent. */
  lemma PrefixThroughParentOrSelf(a: Path, p: Path)
    requires p != [] && IsPrefix(a, p) && a != p
    ensures IsPrefix(a, Parent(p))
  {
  }

  /**
   * A successful move keeps the tree well formed, leaves the source path
   * empty, carries every entry of the moved subtree to the corresponding
   * place under the target, and leaves every other entry alone.
   */
  lemma MoveFileMoves(fs: FileSystem, src: Path, dst: Path, overwrite: bool)
    requires WellFormed(fs)
    requires MoveFile(fs, src, dst, overwrite).reply.Success?
    requires Destination(fs, src, dst) != src
    ensures WellFormed(MoveFile(fs, src, dst, overwrite).fs)
    ensures src !in MoveFile(fs, src, dst, overwrite).fs
    ensures Destination(fs, src, dst) in MoveFile(fs, src, dst, overwrite).fs
            && MoveFile(fs, src, dst, overwrite).fs[Destination(fs, src, dst)] == fs[src]
    ensures forall q :: q in fs && IsPrefix(src, q) ==>
              Shift(q, src, Destination(fs, src, dst)) in MoveFile(fs, src, dst, overwrite).fs
              && MoveFile(fs, src, dst, overwrite).fs[Shift(q, src, Destination(fs, src, dst))] == fs[q]
    ensures forall q :: q in fs && !IsPrefix(src, q) && q != Destination(fs, src, dst) ==>
              q in MoveFile(fs, src, dst, overwrite).fs && MoveFile(fs, src, dst, overwrite).fs[q] == fs[q]
  {
    var target := Destination(fs, src, dst);
    var fs1 := MoveFileIsRename(fs, src, dst, overwrite);
    MoveStage(fs, src, target, fs1);
    RenameEffect(fs, fs1, src, target);
  }

  /** A successful move to another place is `makedirs` of the target's parent followed by a rename. */
  lemma MoveFileIsRename(fs: FileSystem, src: Path, dst: Path, overwrite: bool) returns (fs1: FileSystem)
    requires WellFormed(fs)
    requires MoveFile(fs, src, dst, overwrite).reply.Success?
    requires Destination(fs, src, dst) != src
    ensures src in fs && Destination(fs, src, dst) != []
    ensures Destination(fs, src, dst) !in fs || IsFile(fs, Destination(fs, src, dst))
    ensures !(fs[src].Dir? && IsPrefix(src, Destination(fs, src, dst)))
    ensures MakeDirs(fs - {Destination(fs, src, dst)}, Parent(Destination(fs, src, dst)), true) == Success(fs1)
    ensures MoveFile(fs, src, dst, overwrite).fs == Rename(fs1, src, Destination(fs, src, dst))
  {
    var target := Destination(fs, src, dst);
    var fs0 := fs - {target};
    assert MoveFile(fs, src, dst, overwrite) == FinishMove(fs0, src, target);
    fs1 := MakeDirs(fs0, Parent(target), true).value;
  }

  /** What a rename from a prepared stage does to the entries of the original tree. */
  lemma RenameEffect(fs: FileSystem, fs1: FileSystem, src: Path, target: Path)
    requires WellFormed(fs) && src in fs && target != src && target != []
    requires WellFormed(fs1) && src in fs1 && fs1[src] == fs[src] && src != []
    requires target !in fs1 && IsDir(fs1, Parent(target)) && !IsPrefix(src, target)
    requires forall x :: x in fs1 ==> !IsPrefix(target, x)
    requires forall q :: q in fs && q != target ==> q in fs1 && fs1[q] == fs[q]
    ensures WellFormed(Rename(fs1, src, target)) && src !in Rename(fs1, src, target)
    ensures target in Rename(fs1, src, target) && Rename(fs1, src, target)[target] == fs[src]
    ensures forall q :: q in fs && IsPrefix(src, q) ==>
              Shift(q, src, target) in Rename(fs1, src, target) && Rename(fs1, src, target)[Shift(q, src, target)] == fs[q]
    ensures forall q :: q in fs && !IsPrefix(src, q) && q != target ==>
              q in Rename(fs1, src, target) && Rename(fs1, src, target)[q] == fs[q]
  {
    var r := Rename(fs1, src, target);
    RenameWellFormed(fs1, src, target);
    RenameVacates(fs1, src, target);
    RenameMoves(fs1, src, target, src);
    assert Shift(src, src, target) == target;
    forall q | q in fs && IsPrefix(src, q)
      ensures Shift(q, src, target) in r && r[Shift(q, src, target)] == fs[q]
    {
      RenameMoves(fs1, src, target, q);
    }
    forall q | q in fs && !IsPrefix(src, q) && q != target
      ensures q in r && r[q] == fs[q]
    {
      RenameKeeps(fs1, src, target, q);
    }
  }

  /**
   * Apart from a move onto the source itself or of a directory into its own
   * subtree, the corrected handler behaves exactly as the one written.
   */
  lemma MoveFileAgreesElsewhere(fs: FileSystem, src: Path, dst: Path, overwrite: bool)
    requires src in fs ==> Destination(fs, src, dst) != src
    requires src in fs ==> !(fs[src].Dir? && IsPrefix(src, Destination(fs, src, dst)))
    ensures MoveFileAsWritten(fs, src, dst, overwrite) == MoveFile(fs, src, dst, overwrite)
  {
  }

  /** `delete_file`: removes a regular file; anything else is refused. */
  function DeleteFile(fs: FileSystem, p: Path): (o: Outcome<Path>)
    ensures p !in fs ==> o.reply == Failure(NotFound(p))
    ensures IsDir(fs, p) ==> o.reply == Failure(NotAFile(p))
    ensures o.reply.Success? <==> IsFile(fs, p)
    ensures o.reply.Failure? ==> o.fs == fs
    ensures o.reply.Success? ==> p !in o.fs && forall q :: q != p ==> (q in o.fs <==> q in fs)
    ensures o.reply.Success? ==> forall q :: q in o.fs ==> o.fs[q] == fs[q]
  {
    if p !in fs then Outcome(fs, Failure(NotFound(p)))
    else if !fs[p].File? then Outcome(fs, Failure(NotAFile(p)))
    else Outcome(fs - {p}, Success(p))
  }

  /** Deleting a file keeps the tree well formed. */
  lemma DeleteFileWellFormed(fs: FileSystem, p: Path)
    requires WellFormed(fs)
    ensures WellFormed(DeleteFile(fs, p).fs)
  {
    if IsFile(fs, p) {
      RemoveFileWellFormed(fs, p);
    }
  }

  /** Writing a fresh file next to existing ones and deleting it again restores the tree. */
  lemma WriteThenDelete(fs: FileSystem, p: Path, content: string, overwrite: bool, now: int)
    requires p != [] && p !in fs && IsDir(fs, Parent(p))
    ensures DeleteFile(WriteFile(fs, p, content, overwrite, now).fs, p) == Outcome(fs, Success(p))
  {
    WriteFileOnlyTarget(fs, p, content, overwrite, now);
    assert fs[p := NewFile(content, now)] - {p} == fs;
  }

  /** A second delete of the same path reports that it is gone. */
  lemma DeleteTwice(fs: FileSystem, p: Path)
    requires DeleteFile(fs, p).reply.Success?
    ensures DeleteFile(DeleteFile(fs, p).fs, p).reply == Failure(NotFound(p))
  {
  }

  /**
   * `create_directory`: a regular file in the way is an error, an existing
   * directory is success without change, otherwise `makedirs` creates it with
   * any missing ancestors.
   */
  function CreateDirectory(fs: FileSystem, p: Path): (o: Outcome<Path>)
    ensures IsFile(fs, p) ==> o == Outcome(fs, Failure(AlreadyExists(p)))
    ensures IsDir(fs, p) ==> o == Outcome(fs, Success(p))
    ensures o.reply.Failure? ==> o.fs == fs
    ensures o.reply.Success? ==> o.reply.value == p && IsDir(o.fs, p)
    ensures o.reply.Success? ==> forall q :: q in fs ==> q in o.fs && o.fs[q] == fs[q]
    ensures o.reply.Success? ==> forall q :: q in o.fs && q !in fs ==> IsPrefix(q, p) && o.fs[q].Dir?
    ensures WellFormed(fs) ==> WellFormed(o.fs)
  {
    if IsFile(fs, p) then Outcome(fs, Failure(AlreadyExists(p)))
    else if IsDir(fs, p) then Outcome(fs, Success(p))
    else
      match MakeDirs(fs, p, true)
      case Failure(e) => Outcome(fs, Failure(e))
      case Success(fs1) => Outcome(fs1, Success(p))
  }

  /** Creating a directory twice is the same as creating it once. */
  lemma CreateDirectoryIdempotent(fs: FileSystem, p: Path)
    ensures var o := CreateDirectory(fs, p);
            o.reply.Success? ==> CreateDirectory(o.fs, p) == o
  {
  }

  /** In a well-formed tree creation fails exactly when a regular file lies on the path. */
  lemma CreateDirectoryFailsIff(fs: FileSystem, p: Path)
    requires WellFormed(fs)
    ensures CreateDirectory(fs, p).reply.Failure? <==> exists i :: 0 <= i <= |p| && IsFile(fs, p[..i])
  {
    MakeDirsFailsIffFileOnPath(fs, p);
    assert p[..|p|] == p;
  }

  /** `os.listdir(p)` is not empty. */
  predicate HasChildren(fs: FileSystem, p: Path) {
    exists q :: q in fs && |q| == |p| + 1 && q[..|p|] == p
  }

  /**
   * `delete_directory`: removes an empty directory, or with `recursive` the
   * whole subtree (`shutil.rmtree`). `rmtree` on the root removes everything
   * below it and then fails on the root itself.
   */
  function DeleteDirectory(fs: FileSystem, p: Path, recursive: bool): (o: Outcome<Path>)
    ensures p !in fs ==> o == Outcome(fs, Failure(NotFound(p)))
    ensures IsFile(fs, p) ==> o == Outcome(fs, Failure(NotADirectory(p)))
    ensures IsDir(fs, p) && HasChildren(fs, p) && !recursive ==> o == Outcome(fs, Failure(DirectoryNotEmpty(p)))
    ensures o.reply.Success? <==> p != [] && IsDir(fs, p) && (recursive || !HasChildren(fs, p))
    ensures o.reply.Failure? && p != [] ==> o.fs == fs
    ensures o.reply.Success? ==> o.reply.value == p
    ensures WellFormed(fs) && o.reply.Success? ==> forall q :: q in o.fs <==> q in fs && !IsPrefix(p, q)
    ensures forall q :: q in o.fs ==> q in fs && o.fs[q] == fs[q]
  {
    if p !in fs then Outcome(fs, Failure(NotFound(p)))
    else if !fs[p].Dir? then Outcome(fs, Failure(NotADirectory(p)))
    else if HasChildren(fs, p) && !recursive then Outcome(fs, Failure(DirectoryNotEmpty(p)))
    else if p == [] then
      if recursive then Outcome(RemoveSubtree(fs, [])[[] := Dir], Failure(RootNotRemovable))
      else Outcome(fs, Failure(RootNotRemovable))
    else if recursive then Outcome(RemoveSubtree(fs, p), Success(p))
    else
      assert forall q :: WellFormed(fs) && q in fs && IsPrefix(p, q) ==> q == p by {
        forall q | WellFormed(fs) && q in fs && IsPrefix(p, q)
          ensures q == p
        {
          if q != p {
            NonEmptyBelow(fs, p, q);
          }
        }
      }
      Outcome(fs - {p}, Success(p))
  }

  /** In a well-formed tree, an entry strictly below `p` means `p` has a direct child. */
  lemma NonEmptyBelow(fs: FileSystem, p: Path, q: Path)
    requires q in fs && IsPrefix(p, q) && q != p
    ensures WellFormed(fs) ==> HasChildren(fs, p)
  {
    if WellFormed(fs) {
      var c := q[..|p| + 1];
      if c != q {
        AncestorsAreDirs(fs, q, c);
      }
      assert c[..|p|] == p;
    }
  }

  /** Deleting a directory keeps the tree well formed. */
  lemma DeleteDirectoryWellFormed(fs: FileSystem, p: Path, recursive: bool)
    requires WellFormed(fs)
    ensures WellFormed(DeleteDirectory(fs, p, recursive).fs)
  {
    var o := DeleteDirectory(fs, p, recursive);
    if o.reply.Success? {
      RemoveSubtreeWellFormed(fs, p);
      assert o.fs == RemoveSubtree(fs, p);
    }
  }

  /** A directory created inside an existing one is removed again by a plain delete. */
  lemma CreateThenDeleteDirectory(fs: FileSystem, p: Path)
    requires p != [] && p !in fs && IsDir(fs, Parent(p))
    requires forall q :: q in fs ==> !IsPrefix(p, q)
    ensures DeleteDirectory(CreateDirectory(fs, p).fs, p, false) == Outcome(fs, Success(p))
  {
    MakeDirsUnderDir(fs, p, true);
    var fs1 := fs[p := Dir];
    assert !HasChildren(fs1, p) by {
      if HasChildren(fs1, p) {
        var q :| q in fs1 && |q| == |p| + 1 && q[..|p|] == p;
        assert IsPrefix(p, q);
      }
    }
    assert fs1 - {p} == fs;
  }
}

=== FILE: filesystem.dfy ===
/**
 * The abstract file system the file handlers act on. A path is the sequence
 * of its components after `os.path.abspath`; the root is the empty path. A
 * regular file carries its text, its byte size, its modification time and
 * whether it decodes as UTF-8.
 */
module FileSystem {
  import opened Wrappers

  type Path = seq<string>

  datatype Entry =
    | File(content: string, size: nat, mtime: int, decodable: bool)
    | Dir

  type FileSystem = map<Path, Entry>

  /** The errors the handlers turn into an "error" reply. */
  datatype FsError =
    | NotFound(path: Path)
    | NotAFile(path: Path)
    | NotADirectory(path: Path)
    | IsADirectory(path: Path)
    | AlreadyExists(path: Path)
    | FileTooLarge(size: nat, limitMegabytes: nat)
    | NotUtf8(path: Path)
    | DirectoryNotEmpty(path: Path)
    | DirectoryTargetUnsupported(path: Path)
    | MoveIntoItself(source: Path, target: Path)
    | SameFile(path: Path)
    | RootNotRemovable

  /** `a` is `b` or one of its ancestors. */
  predicate IsPrefix(a: Path, b: Path) {
    |a| <= |b| && b[..|a|] == a
  }

  function Parent(p: Path): Path
    requires p != []
  {
    p[..|p| - 1]
  }

  /** `os.path.basename`; the root has the empty name. */
  function Basename(p: Path): string {
    if p == [] then "" else p[|p| - 1]
  }

  predicate IsFile(fs: FileSystem, p: Path) {
    p in fs && fs[p].File?
  }

  predicate IsDir(fs: FileSystem, p: Path) {
    p in fs && fs[p].Dir?
  }

  /** The tree shape every real file system has: the root is a directory and so is every parent. */
  predicate WellFormed(fs: FileSystem) {
    && IsDir(fs, [])
    && forall p :: p in fs && p != [] ==> IsDir(fs, Parent(p))
  }

  /** In a well-formed tree every ancestor of an entry is a directory. */
  lemma {:induction false} AncestorsAreDirs(fs: FileSystem, p: Path, q: Path)
    requires WellFormed(fs)
    requires p in fs
    requires IsPrefix(q, p) && q != p
    ensures IsDir(fs, q)
    decreases |p|
  {
    if Parent(p) == q {
    } else {
      assert IsPrefix(q, Parent(p));
      AncestorsAreDirs(fs, Parent(p), q);
    }
  }

  /** A file has nothing below it in a well-formed tree. */
  lemma FileHasNoDescendants(fs: FileSystem, p: Path, q: Path)
    requires WellFormed(fs)
    requires IsFile(fs, p)
    requires q in fs && IsPrefix(p, q)
    ensures q == p
  {
    if q != p {
      AncestorsAreDirs(fs, q, p);
    }
  }

  /**
   * `os.makedirs(d, exist_ok)`: create `d` and every missing ancestor. It fails
   * when `d` exists and is not an acceptable directory, or when the nearest
   * existing ancestor is not a directory.
   */
  function MakeDirs(fs: FileSystem, d: Path, existOk: bool): (r: Result<FileSystem, FsError>)
    ensures r.Success? ==> IsDir(r.value, d)
    ensures r.Success? ==> forall p :: p in fs ==> p in r.value && r.value[p] == fs[p]
    ensures r.Success? ==> forall p :: p in r.value && p !in fs ==> IsPrefix(p, d) && r.value[p].Dir?
    ensures r.Success? && WellFormed(fs) ==> WellFormed(r.value)
    ensures d in fs ==> r == (if existOk && fs[d].Dir? then Success(fs) else Failure(AlreadyExists(d)))
    decreases |d|
  {
    if d in fs then
      (if existOk && fs[d].Dir? then Success(fs) else Failure(AlreadyExists(d)))
    else if d == [] then
      Failure(NotFound(d))
    else
      var head := Parent(d);
      var base :- if head in fs then Success(fs) else MakeDirs(fs, head, true);
      if IsDir(base, head) then
        var r := base[d := Dir];
        AddDirStep(fs, base, d);
        Success(r)
      else
        Failure(NotADirectory(head))
  }

  /** Creating a directory whose parent is already a directory touches nothing else. */
  lemma MakeDirsUnderDir(fs: FileSystem, d: Path, existOk: bool)
    requires d != [] && d !in fs && IsDir(fs, Parent(d))
    ensures MakeDirs(fs, d, existOk) == Success(fs[d := Dir])
  {
  }

  /** In a well-formed tree, `makedirs` of an existing directory with `exist_ok` changes nothing. */
  lemma MakeDirsExisting(fs: FileSystem, d: Path)
    requires IsDir(fs, d)
    ensures MakeDirs(fs, d, true) == Success(fs)
  {
  }

  /**
   * In a well-formed tree `makedirs(d, exist_ok=True)` fails exactly when `d`
   * or one of its ancestors is a regular file.
   */
  lemma {:induction false} MakeDirsFailsIffFileOnPath(fs: FileSystem, d: Path)
    requires WellFormed(fs)
    ensures MakeDirs(fs, d, true).Failure? <==> exists i :: 0 <= i <= |d| && IsFile(fs, d[..i])
    decreases |d|
  {
    if d in fs {
      FailsIffPresent(fs, d);
    } else if Parent(d) in fs {
      FailsIffParentPresent(fs, d);
    } else {
      var head := Parent(d);
      MakeDirsFailsIffFileOnPath(fs, head);
      FailsIffParentMissing(fs, d);
    }
  }

  lemma FailsIffPresent(fs: FileSystem, d: Path)
    requires WellFormed(fs) && d in fs
    ensures MakeDirs(fs, d, true).Failure? <==> exists i :: 0 <= i <= |d| && IsFile(fs, d[..i])
  {
    assert d[..|d|] == d;
    if i :| 0 <= i <= |d| && IsFile(fs, d[..i]) {
      FileHasNoDescendants(fs, d[..i], d);
    }
  }

  lemma FailsIffParentPresent(fs: FileSystem, d: Path)
    requires WellFormed(fs) && d !in fs && Parent(d) in fs
    ensures MakeDirs(fs, d, true).Failure? <==> exists i :: 0 <= i <= |d| && IsFile(fs, d[..i])
  {
    var head := Parent(d);
    assert d != [];
    assert d[..|d| - 1] == head;
    assert d[..|d|] == d;
    if i :| 0 <= i <= |d| && IsFile(fs, d[..i]) {
      if i < |d| {
        assert IsPrefix(d[..i], head);
        FileHasNoDescendants(fs, d[..i], head);
      }
    }
  }

  lemma FailsIffParentMissing(fs: FileSystem, d: Path)
    requires WellFormed(fs) && d !in fs && Parent(d) !in fs
    requires MakeDirs(fs, Parent(d), true).Failure? <==> exists i :: 0 <= i <= |Parent(d)| && IsFile(fs, Parent(d)[..i])
    ensures MakeDirs(fs, d, true).Failure? <==> exists i :: 0 <= i <= |d| && IsFile(fs, d[..i])
  {
    var head := Parent(d);
    assert d != [];
    assert d[..|d|] == d;
    if i :| 0 <= i <= |head| && IsFile(fs, head[..i]) {
      assert head[..i] == d[..i];
    }
    if i :| 0 <= i <= |d| && IsFile(fs, d[..i]) {
      if i < |d| {
        assert head[..i] == d[..i];
      }
    }
  }

  /** The last step of `makedirs`: adding `d` below a directory that is now in place. */
  lemma AddDirStep(fs: FileSystem, base: FileSystem, d: Path)
    requires d != [] && d !in fs && IsDir(base, Parent(d))
    requires forall p :: p in fs ==> p in base && base[p] == fs[p]
    requires forall p :: p in base && p !in fs ==> IsPrefix(p, Parent(d)) && base[p].Dir?
    requires WellFormed(fs) ==> WellFormed(base)
    ensures forall p :: p in base[d := Dir] && p !in fs ==> IsPrefix(p, d) && base[d := Dir][p].Dir?
    ensures WellFormed(fs) ==> WellFormed(base[d := Dir])
  {
    var head := Parent(d);
    var r := base[d := Dir];
    forall p | p in r && p !in fs
      ensures IsPrefix(p, d)
    {
      if p != d {
        assert IsPrefix(p, head);
        assert head == d[..|d| - 1];
      }
    }
    if WellFormed(fs) {
      PutKeepsWellFormed(base, d, Dir);
    }
  }

  /** Storing an entry at a path whose parent is a directory, and which is not itself one, keeps a tree well formed. */
  lemma PutKeepsWellFormed(fs: FileSystem, p: Path, e: Entry)
    requires WellFormed(fs) && p != [] && IsDir(fs, Parent(p)) && !IsDir(fs, p)
    ensures WellFormed(fs[p := e])
  {
    var r := fs[p := e];
    forall q | q in r && q != []
      ensures IsDir(r, Parent(q))
    {
      if q != p {
        assert IsDir(fs, Parent(q));
        assert Parent(q) != p;
      }
    }
  }

  /**
   * Storing an entry at `p` once `makedirs` has put its parent in place:
   * besides `p`, the only new entries are the directories leading to it, and a
   * well-formed tree stays well formed.
   */
  lemma PutAfterMakeDirs(fs: FileSystem, fs1: FileSystem, p: Path, e: Entry)
    requires p != [] && IsDir(fs1, Parent(p)) && !IsDir(fs1, p)
    requires forall q :: q in fs ==> q in fs1 && fs1[q] == fs[q]
    requires forall q :: q in fs1 && q !in fs ==> IsPrefix(q, Parent(p)) && fs1[q].Dir?
    requires WellFormed(fs) ==> WellFormed(fs1)
    ensures forall q :: q in fs && q != p ==> q in fs1[p := e] && fs1[p := e][q] == fs[q]
    ensures forall q :: q in fs1[p := e] && q !in fs && q != p ==> IsPrefix(q, p) && fs1[p := e][q].Dir?
    ensures WellFormed(fs) ==> WellFormed(fs1[p := e])
  {
    var r := fs1[p := e];
    forall q | q in r && q !in fs && q != p
      ensures IsPrefix(q, p)
    {
      PrefixThroughParent(q, p);
    }
    if WellFormed(fs) {
      PutKeepsWellFormed(fs1, p, e);
    }
  }

  /** The tree with `root` and all its descendants removed. */
  function RemoveSubtree(fs: FileSystem, root: Path): (r: FileSystem)
    ensures forall p :: p in r <==> p in fs && !IsPrefix(root, p)
    ensures forall p :: p in r ==> r[p] == fs[p]
  {
    map p | p in fs && !IsPrefix(root, p) :: fs[p]
  }

  /** Removing a subtree other than the root keeps the tree well formed. */
  lemma RemoveSubtreeWellFormed(fs: FileSystem, root: Path)
    requires WellFormed(fs) && root != []
    ensures WellFormed(RemoveSubtree(fs, root))
  {
    var r := RemoveSubtree(fs, root);
    forall p | p in r && p != []
      ensures IsDir(r, Parent(p))
    {
      PrefixThroughParent(root, p);
    }
  }

  /** The path `q` would have after its ancestor `src` is renamed to `dst`. */
  function Shift(q: Path, src: Path, dst: Path): (r: Path)
    requires IsPrefix(src, q)
    ensures IsPrefix(dst, r) && |r| == |dst| + |q| - |src|
    ensures src + r[|dst|..] == q
  {
    var r := dst + q[|src|..];
    assert r[|dst|..] == q[|src|..];
    r
  }

  /** Where the entries at or below `src` land when `src` is renamed to `dst`. */
  function MovedPaths(fs: FileSystem, src: Path, dst: Path): set<Path> {
    set q | q in fs && IsPrefix(src, q) :: Shift(q, src, dst)
  }

  /** `os.rename(src, dst)`: the subtree at `src` now sits at `dst`, everything else stays. */
  function Rename(fs: FileSystem, src: Path, dst: Path): FileSystem
  {
    RemoveSubtree(fs, src) + map p | p in MovedPaths(fs, src, dst) :: fs[src + p[|dst|..]]
  }

  /** The renamed tree holds at `dst + s` what the old one held at `src + s`. */
  lemma RenameMoves(fs: FileSystem, src: Path, dst: Path, q: Path)
    requires q in fs && IsPrefix(src, q)
    ensures Shift(q, src, dst) in Rename(fs, src, dst)
    ensures Rename(fs, src, dst)[Shift(q, src, dst)] == fs[q]
  {
  }

  /** A regular file is alone in its subtree: removing the subtree removes just the file, and it alone moves. */
  lemma FileSubtree(fs: FileSystem, src: Path, dst: Path)
    requires WellFormed(fs) && IsFile(fs, src)
    ensures RemoveSubtree(fs, src) == fs - {src}
    ensures MovedPaths(fs, src, dst) == {dst}
  {
    forall q | q in fs && IsPrefix(src, q)
      ensures q == src
    {
      FileHasNoDescendants(fs, src, q);
    }
    assert Shift(src, src, dst) == dst;
    assert RemoveSubtree(fs, src).Keys == (fs - {src}).Keys;
  }

  /** Renaming a regular file to a fresh path: the file moves, nothing else changes. */
  lemma RenameFile(fs: FileSystem, src: Path, dst: Path)
    requires WellFormed(fs) && IsFile(fs, src) && dst !in fs
    ensures Rename(fs, src, dst) == (fs - {src})[dst := fs[src]]
  {
    FileSubtree(fs, src, dst);
    assert src + dst[|dst|..] == src;
    var moved := map p | p in {dst} :: fs[src + p[|dst|..]];
    assert moved == map[dst := fs[src]];
  }

  /** Entries outside both the moved subtree and its new place keep their content. */
  lemma RenameKeeps(fs: FileSystem, src: Path, dst: Path, q: Path)
    requires q in fs && !IsPrefix(src, q) && !IsPrefix(dst, q)
    ensures q in Rename(fs, src, dst) && Rename(fs, src, dst)[q] == fs[q]
  {
    assert q !in MovedPaths(fs, src, dst);
  }

  /** When nothing occupies the new place, the old path is gone afterwards. */
  lemma RenameVacates(fs: FileSystem, src: Path, dst: Path)
    requires src in fs
    requires forall x :: x in fs ==> !IsPrefix(dst, x)
    ensures src !in Rename(fs, src, dst)
  {
    assert !IsPrefix(dst, src);
  }

  /** Removing a regular file keeps the tree well formed. */
  lemma RemoveFileWellFormed(fs: FileSystem, p: Path)
    requires WellFormed(fs) && IsFile(fs, p)
    ensures WellFormed(fs - {p})
  {
    forall q | q in fs - {p} && q != []
      ensures IsDir(fs - {p}, Parent(q))
    {
      assert IsDir(fs, Parent(q));
    }
  }

  /** An ancestor of a parent is an ancestor of the child. */
  lemma PrefixThroughParent(a: Path, p: Path)
    requires p != []
    ensures IsPrefix(a, Parent(p)) ==> IsPrefix(a, p)
  {
  }

  /** Nothing of a well-formed tree lies at or below a path that is absent from it. */
  lemma NothingBelowAbsent(fs: FileSystem, d: Path)
    requires WellFormed(fs) && d !in fs
    ensures forall p :: p in fs ==> !IsPrefix(d, p)
  {
    forall p | p in fs
      ensures !IsPrefix(d, p)
    {
      if IsPrefix(d, p) && p != d {
        AncestorsAreDirs(fs, p, d);
      }
    }
  }

  /** An entry of the renamed tree at or below `dst` came from the same place below `src`. */
  lemma RenamedFrom(fs: FileSystem, src: Path, dst: Path, p: Path)
    requires forall x :: x in fs ==> !IsPrefix(dst, x)
    requires p in Rename(fs, src, dst) && IsPrefix(dst, p)
    ensures src + p[|dst|..] in fs && IsPrefix(src, src + p[|dst|..])
    ensures Rename(fs, src, dst)[p] == fs[src + p[|dst|..]]
  {
    assert p !in RemoveSubtree(fs, src);
    var q :| q in fs && IsPrefix(src, q) && Shift(q, src, dst) == p;
    assert src + p[|dst|..] == q;
  }

  /** The parent of a moved entry is a directory of the renamed tree. */
  lemma RenamedParentIsDir(fs: FileSystem, src: Path, dst: Path, p: Path)
    requires WellFormed(fs)
    requires src in fs && src != [] && dst !in fs && dst != []
    requires IsDir(fs, Parent(dst)) && !IsPrefix(src, dst)
    requires forall x :: x in fs ==> !IsPrefix(dst, x)
    requires p in Rename(fs, src, dst) && IsPrefix(dst, p)
    ensures IsDir(Rename(fs, src, dst), Parent(p))
  {
    if p == dst {
      TargetParentIsDir(fs, src, dst);
    } else {
      RenamedFrom(fs, src, dst, p);
      MovedParentIsDir(fs, src, dst, src + p[|dst|..]);
      assert Shift(src + p[|dst|..], src, dst) == p;
    }
  }

  /** The target's parent is outside the moved subtree, so it stays a directory. */
  lemma TargetParentIsDir(fs: FileSystem, src: Path, dst: Path)
    requires dst != [] && IsDir(fs, Parent(dst)) && !IsPrefix(src, dst)
    ensures IsDir(Rename(fs, src, dst), Parent(dst))
  {
    PrefixThroughParent(src, dst);
    RenameKeeps(fs, src, dst, Parent(dst));
  }

  /** A moved entry strictly below `src` lands below a moved directory. */
  lemma MovedParentIsDir(fs: FileSystem, src: Path, dst: Path, q: Path)
    requires WellFormed(fs)
    requires q in fs && IsPrefix(src, q) && q != src
    ensures Shift(q, src, dst) != [] && Parent(Shift(q, src, dst)) == Shift(Parent(q), src, dst)
    ensures IsDir(Rename(fs, src, dst), Parent(Shift(q, src, dst)))
  {
    assert IsPrefix(src, Parent(q));
    assert Shift(Parent(q), src, dst) == Parent(Shift(q, src, dst));
    RenameMoves(fs, src, dst, Parent(q));
  }

  /** The parent of an entry the rename left in place is still a directory. */
  lemma KeptParentIsDir(fs: FileSystem, src: Path, dst: Path, p: Path)
    requires WellFormed(fs)
    requires forall x :: x in fs ==> !IsPrefix(dst, x)
    requires p in Rename(fs, src, dst) && p != [] && !IsPrefix(dst, p)
    ensures IsDir(Rename(fs, src, dst), Parent(p))
  {
    assert p in RemoveSubtree(fs, src);
    PrefixThroughParent(src, p);
    PrefixThroughParent(dst, p);
    assert Parent(p) in RemoveSubtree(fs, src);
  }

  /**
   * Renaming an entry (with its subtree) to a fresh path whose parent is a
   * directory and which does not lie inside the moved subtree keeps the tree
   * well formed.
   */
  lemma RenameWellFormed(fs: FileSystem, src: Path, dst: Path)
    requires WellFormed(fs)
    requires src in fs && src != [] && dst !in fs && dst != []
    requires IsDir(fs, Parent(dst)) && !IsPrefix(src, dst)
    ensures WellFormed(Rename(fs, src, dst))
  {
    var r := Rename(fs, src, dst);
    NothingBelowAbsent(fs, dst);
    assert [] in RemoveSubtree(fs, src);
    forall p | p in r && p != []
      ensures IsDir(r, Parent(p))
    {
      if IsPrefix(dst, p) {
        RenamedParentIsDir(fs, src, dst, p);
      } else {
        KeptParentIsDir(fs, src, dst, p);
      }
    }
  }
}

=== FILE: insights.dfy ===
/**
 * `save_insight_result` and `list_insight_results` of
 * src/unified-mcp-server.py. The `insights_results` directory is a
 * sequence of stored files in the order `glob` yields them; JSON
 * serialisation is not part of this model, a stored file holds either the
 * fields the listing reads or nothing readable.
 */
module Insights {
  import opened Wrappers
  import opened Limits
  import Text

  /** One insight; only its `priority` is read. */
  datatype Insight = Insight(priority: Option<string>)

  /** The saved record, without `metadata` and the insights' other fields. */
  datatype Record = Record(analysisName: string, timestamp: string, totalInsights: nat, highPriorityCount: nat)

  predicate IsHigh(i: Insight) {
    i.priority.Some? && i.priority.value == "high"
  }

  /** `len([i for i in insights if i.get('priority') == 'high'])`. */
  function HighCount(insights: seq<Insight>): nat
    decreases |insights|
  {
    if insights == [] then 0
    else HighCount(insights[..|insights| - 1]) + (if IsHigh(insights[|insights| - 1]) then 1 else 0)
  }

  /** The count is the number of high-priority positions. */
  lemma {:induction false} HighCountCounts(insights: seq<Insight>)
    ensures HighCount(insights) == |set k | 0 <= k < |insights| && IsHigh(insights[k])|
    decreases |insights|
  {
    if insights != [] {
      var n := |insights| - 1;
      var init := insights[..n];
      HighCountCounts(init);
      var before := set k | 0 <= k < n && IsHigh(init[k]);
      var all := set k | 0 <= k < |insights| && IsHigh(insights[k]);
      if IsHigh(insights[n]) {
        assert all == before + {n};
      } else {
        assert all == before;
      }
    }
  }

  /** Never more high-priority insights than insights, and as many only when all are high. */
  lemma {:induction false} HighCountBound(insights: seq<Insight>)
    ensures HighCount(insights) <= |insights|
    ensures HighCount(insights) == |insights| <==> forall k :: 0 <= k < |insights| ==> IsHigh(insights[k])
    decreases |insights|
  {
    if insights != [] {
      var n := |insights| - 1;
      HighCountBound(insights[..n]);
      assert forall k :: 0 <= k < n ==> insights[..n][k] == insights[k];
    }
  }

  /** `save_insight_result`'s record for `insights`, written at `timestamp`. */
  function MakeRecord(analysisName: string, timestamp: string, insights: seq<Insight>): (r: Record)
    ensures r.totalInsights == |insights|
    ensures r.highPriorityCount <= r.totalInsights
  {
    HighCountBound(insights);
    Record(analysisName, timestamp, |insights|, HighCount(insights))
  }

  /** A stored file: its path, modification time and, when it parses, the record fields it holds. */
  datatype StoredFile = StoredFile(path: string, mtime: int, content: Option<Stored>)

  /** The fields `list_insight_results` reads; each may be missing from the file. */
  datatype Stored = Stored(analysisName: Option<string>, timestamp: Option<string>,
                           totalInsights: Option<int>, highPriorityCount: Option<int>)

  function Store(r: Record): Stored {
    Stored(Some(r.analysisName), Some(r.timestamp), Some(r.totalInsights), Some(r.highPriorityCount))
  }

  const Directory := "insights_results"

  /** `<name>_<stamp>.json`; the stamp's formatting is not part of this model. */
  function EntryName(analysisName: string, stamp: string): string {
    analysisName + "_" + stamp + ".json"
  }

  /** `os.path.join("insights_results", <name>_<stamp>.json)`. */
  function FileName(analysisName: string, stamp: string): string {
    Directory + "/" + EntryName(analysisName, stamp)
  }

  datatype SaveReply = SaveReply(path: string, analysisName: string, insightsCount: nat)

  /** `open(file_path, 'w')` failed: the path runs through a directory that does not exist. */
  datatype SaveError = CannotOpen(path: string)

  /** The directory after saving, and the reply. */
  datatype Saved = Saved(dir: seq<StoredFile>, reply: Result<SaveReply, SaveError>)

  /** The directory with `f` written: an existing file of the same path is replaced in place. */
  function Put(dir: seq<StoredFile>, f: StoredFile): (r: seq<StoredFile>)
    ensures f in r
    ensures forall g :: g in r ==> g == f || g in dir
    ensures forall g :: g in dir && g.path != f.path ==> g in r
  {
    if dir == [] then [f]
    else if dir[0].path == f.path then [f] + dir[1..]
    else [dir[0]] + Put(dir[1..], f)
  }

  /** `os.path.join(Directory, entry)`: an absolute entry discards the directory. */
  function JoinedPath(entry: string): string {
    if entry != [] && entry[0] == '/' then entry else Directory + "/" + entry
  }

  /**
   * A directory met while the path is resolved, as far as this model knows
   * the file system: the working directory, the store inside it (which
   * holds files only), a directory somewhere else, or none at all.
   */
  datatype Place = AtWorkDir | InStore | Elsewhere | NoSuchDir

  /** The directory reached from `p` through the path component `c`. */
  function Enter(p: Place, c: string): Place {
    match p
    case NoSuchDir => NoSuchDir
    case Elsewhere => Elsewhere
    case InStore => if c == "" || c == "." then InStore else if c == ".." then AtWorkDir else NoSuchDir
    case AtWorkDir => if c == "" || c == "." then AtWorkDir else if c == Directory then InStore else Elsewhere
  }

  function Reach(p: Place, dirs: seq<string>): Place
    decreases |dirs|
  {
    if dirs == [] then p else Reach(Enter(p, dirs[0]), dirs[1..])
  }

  /** Once the path leaves what the model knows, it stays there. */
  lemma {:induction false} ReachStays(p: Place, dirs: seq<string>)
    requires p == NoSuchDir || p == Elsewhere
    ensures Reach(p, dirs) == p
    decreases |dirs|
  {
    if dirs != [] {
      ReachStays(Enter(p, dirs[0]), dirs[1..]);
    }
  }

  /** The directory that receives the file `os.path.join(Directory, entry)`. */
  function Landing(entry: string): Place {
    var parts := Text.Split(entry, '/');
    var start := if entry != [] && entry[0] == '/' then Elsewhere else InStore;
    Reach(start, parts[..|parts| - 1])
  }

  /** The path `glob` reports for a file written into the store: the store and the last component. */
  function StoredPath(entry: string): string {
    var parts := Text.Split(entry, '/');
    Directory + "/" + parts[|parts| - 1]
  }

  /** The record `save_insight_result` writes. */
  function SavedFile(analysisName: string, insights: seq<Insight>, stamp: string, timestamp: string, now: int): StoredFile {
    StoredFile(StoredPath(EntryName(analysisName, stamp)), now, Some(Store(MakeRecord(analysisName, timestamp, insights))))
  }

  /**
   * `save_insight_result`: creates the directory when it is missing and
   * writes the record at time `now` to `os.path.join` of the directory and
   * `<name>_<stamp>.json`. Whether a directory outside the working directory
   * and the store takes the write is the parameter `elsewhere`.
   */
  function SaveInsight(dir: Option<seq<StoredFile>>, analysisName: string, insights: seq<Insight>,
                       stamp: string, timestamp: string, now: int, elsewhere: bool): (o: Saved)
    ensures o.reply.Success? <==>
              Landing(EntryName(analysisName, stamp)) != NoSuchDir
              && (Landing(EntryName(analysisName, stamp)) == Elsewhere ==> elsewhere)
    ensures o.reply.Failure? ==>
              o.reply.error == CannotOpen(JoinedPath(EntryName(analysisName, stamp))) && o.dir == dir.GetOr([])
    ensures o.reply.Success? ==>
              o.reply.value == SaveReply(JoinedPath(EntryName(analysisName, stamp)), analysisName, |insights|)
    ensures o.reply.Success? && Landing(EntryName(analysisName, stamp)) == InStore ==>
              SavedFile(analysisName, insights, stamp, timestamp, now) in o.dir
    ensures Landing(EntryName(analysisName, stamp)) != InStore ==> o.dir == dir.GetOr([])
    ensures forall g :: g in o.dir ==> g in dir.GetOr([]) || g == SavedFile(analysisName, insights, stamp, timestamp, now)
    ensures forall g :: g in dir.GetOr([]) && g.path != StoredPath(EntryName(analysisName, stamp)) ==> g in o.dir
  {
    var entry := EntryName(analysisName, stamp);
    var path := JoinedPath(entry);
    var place := Landing(entry);
    if place == NoSuchDir || (place == Elsewhere && !elsewhere) then Saved(dir.GetOr([]), Failure(CannotOpen(path)))
    else if place == InStore then
      Saved(Put(dir.GetOr([]), SavedFile(analysisName, insights, stamp, timestamp, now)),
            Success(SaveReply(path, analysisName, |insights|)))
    else Saved(dir.GetOr([]), Success(SaveReply(path, analysisName, |insights|)))
  }

  /** A file name without '/' lands in the store under that name. */
  lemma PlainLanding(entry: string)
    requires '/' !in entry
    ensures Landing(entry) == InStore && StoredPath(entry) == Directory + "/" + entry
  {
    Text.SplitNoSep(entry, '/');
  }

  /** A name whose file name has no '/' is saved as `insights_results/<name>_<stamp>.json`. */
  lemma SavePlainName(dir: Option<seq<StoredFile>>, analysisName: string, insights: seq<Insight>,
                      stamp: string, timestamp: string, now: int, elsewhere: bool)
    requires '/' !in EntryName(analysisName, stamp)
    ensures var o := SaveInsight(dir, analysisName, insights, stamp, timestamp, now, elsewhere);
            && o.reply == Success(SaveReply(FileName(analysisName, stamp), analysisName, |insights|))
            && StoredFile(FileName(analysisName, stamp), now, Some(Store(MakeRecord(analysisName, timestamp, insights)))) in o.dir
            && forall g :: g in dir.GetOr([]) && g.path != FileName(analysisName, stamp) ==> g in o.dir
  {
    PlainLanding(EntryName(analysisName, stamp));
  }

  /** `./<name>` saves the same file into the store as `<name>`; only the reply's path keeps the `./`. */
  lemma SaveThroughDot(dir: Option<seq<StoredFile>>, analysisName: string, insights: seq<Insight>,
                       stamp: string, timestamp: string, now: int, elsewhere: bool)
    requires '/' !in EntryName(analysisName, stamp)
    ensures var o := SaveInsight(dir, "./" + analysisName, insights, stamp, timestamp, now, elsewhere);
            && o.reply == Success(SaveReply(Directory + "/./" + EntryName(analysisName, stamp), "./" + analysisName, |insights|))
            && StoredFile(FileName(analysisName, stamp), now, Some(Store(MakeRecord("./" + analysisName, timestamp, insights)))) in o.dir
            && forall g :: g in dir.GetOr([]) && g.path != FileName(analysisName, stamp) ==> g in o.dir
  {
    var e := EntryName(analysisName, stamp);
    var entry := EntryName("./" + analysisName, stamp);
    assert entry == "." + "/" + e;
    Text.SplitAtSep(".", e, '/');
    Text.SplitNoSep(e, '/');
    var parts := Text.Split(entry, '/');
    assert parts == [".", e];
    assert Reach(InStore, parts[..1]) == Reach(Enter(InStore, "."), []);
    assert Landing(entry) == InStore;
    assert JoinedPath(entry) == Directory + "/./" + e;
  }

  /** `../<name>` writes beside the store, in the working directory: the save succeeds and the store is unchanged. */
  lemma SaveAboveStore(dir: Option<seq<StoredFile>>, analysisName: string, insights: seq<Insight>,
                       stamp: string, timestamp: string, now: int, elsewhere: bool)
    requires '/' !in EntryName(analysisName, stamp)
    ensures var o := SaveInsight(dir, "../" + analysisName, insights, stamp, timestamp, now, elsewhere);
            && o.reply == Success(SaveReply(Directory + "/../" + EntryName(analysisName, stamp), "../" + analysisName, |insights|))
            && o.dir == dir.GetOr([])
  {
    var e := EntryName(analysisName, stamp);
    var entry := EntryName("../" + analysisName, stamp);
    assert entry == ".." + "/" + e;
    Text.SplitAtSep("..", e, '/');
    Text.SplitNoSep(e, '/');
    var parts := Text.Split(entry, '/');
    assert parts == ["..", e];
    assert Reach(InStore, parts[..1]) == Reach(Enter(InStore, ".."), []);
    assert Landing(entry) == AtWorkDir;
    assert JoinedPath(entry) == Directory + "/../" + e;
  }

  /**
   * An absolute name replaces the directory in the reply's path and writes
   * outside the store: the store is unchanged, and the save succeeds as the
   * outside file system allows.
   */
  lemma SaveAbsolute(dir: Option<seq<StoredFile>>, analysisName: string, insights: seq<Insight>,
                     stamp: string, timestamp: string, now: int, elsewhere: bool)
    requires analysisName != [] && analysisName[0] == '/'
    ensures var o := SaveInsight(dir, analysisName, insights, stamp, timestamp, now, elsewhere);
            && (o.reply.Success? <==> elsewhere)
            && (o.reply.Success? ==> o.reply.value.path == EntryName(analysisName, stamp))
            && (o.reply.Failure? ==> o.reply.error == CannotOpen(EntryName(analysisName, stamp)))
            && o.dir == dir.GetOr([])
  {
    var parts := Text.Split(EntryName(analysisName, stamp), '/');
    ReachStays(Elsewhere, parts[..|parts| - 1]);
  }

  /**
   * A name that goes down into a subdirectory of the store fails: the store
   * holds files only, so `open` finds no such directory.
   */
  lemma SaveIntoSubdirectoryFails(dir: Option<seq<StoredFile>>, sub: string, rest: string, insights: seq<Insight>,
                                  stamp: string, timestamp: string, now: int, elsewhere: bool)
    requires '/' !in sub && sub != "" && sub != "." && sub != ".."
    ensures var o := SaveInsight(dir, sub + "/" + rest, insights, stamp, timestamp, now, elsewhere);
            && o.reply == Failure(CannotOpen(Directory + "/" + EntryName(sub + "/" + rest, stamp)))
            && o.dir == dir.GetOr([])
  {
    var e := EntryName(rest, stamp);
    assert EntryName(sub + "/" + rest, stamp) == sub + "/" + e;
    Text.SplitAtSep(sub, e, '/');
    var parts := Text.Split(EntryName(sub + "/" + rest, stamp), '/');
    assert parts[..|parts| - 1] == [sub] + parts[1..|parts| - 1];
    ReachStays(NoSuchDir, parts[1..|parts| - 1]);
  }

  // ---------------------------------------------------------------------------
  // Listing
  // ---------------------------------------------------------------------------

  /**
   * What the glob pattern `*.json` inside `insights_results` selects: a name
   * directly inside the directory that ends in ".json" and is not hidden.
   */
  predicate IsJsonName(path: string) {
    var prefix := Directory + "/";
    && Text.StartsWith(path, prefix)
    && '/' !in path[|prefix|..]
    && Text.EndsWith(path[|prefix|..], ".json")
    && path[|prefix|] != '.'
  }

  function JsonFiles(dir: seq<StoredFile>): (r: seq<StoredFile>)
    ensures forall f :: f in r <==> f in dir && IsJsonName(f.path)
    ensures multiset(r) <= multiset(dir)
  {
    if dir == [] then []
    else
      var rest := JsonFiles(dir[1..]);
      assert dir == [dir[0]] + dir[1..];
      if IsJsonName(dir[0].path) then [dir[0]] + rest else rest
  }

  /** Newest first: modification times never increase along `s`. */
  predicate NewestFirst(s: seq<StoredFile>) {
    forall i, j :: 0 <= i < j < |s| ==> s[i].mtime >= s[j].mtime
  }

  /** Places `f` after every file at least as new: a stable descending insertion. */
  function Insert(sorted: seq<StoredFile>, f: StoredFile): seq<StoredFile>
    decreases |sorted|
  {
    if sorted == [] then [f]
    else if sorted[0].mtime < f.mtime then [f] + sorted
    else [sorted[0]] + Insert(sorted[1..], f)
  }

  lemma {:induction false} InsertPermutes(sorted: seq<StoredFile>, f: StoredFile)
    ensures multiset(Insert(sorted, f)) == multiset(sorted) + multiset{f}
    decreases |sorted|
  {
    if sorted != [] && sorted[0].mtime >= f.mtime {
      InsertPermutes(sorted[1..], f);
      assert sorted == [sorted[0]] + sorted[1..];
    }
  }

  /** Whatever the insertion yields was already there or is the inserted file. */
  lemma {:induction false} InsertFrom(sorted: seq<StoredFile>, f: StoredFile, g: StoredFile)
    requires g in Insert(sorted, f)
    ensures g in sorted || g == f
    decreases |sorted|
  {
    if sorted != [] && sorted[0].mtime >= f.mtime && g != sorted[0] {
      InsertFrom(sorted[1..], f, g);
    }
  }

  lemma {:induction false} InsertKeepsOrder(sorted: seq<StoredFile>, f: StoredFile)
    requires NewestFirst(sorted)
    ensures NewestFirst(Insert(sorted, f))
    decreases |sorted|
  {
    if sorted != [] && sorted[0].mtime >= f.mtime {
      var rest := sorted[1..];
      InsertKeepsOrder(rest, f);
      var tail := Insert(rest, f);
      var r := Insert(sorted, f);
      assert r == [sorted[0]] + tail;
      forall j | 1 <= j < |r|
        ensures r[0].mtime >= r[j].mtime
      {
        assert r[j] == tail[j - 1];
        InsertFrom(rest, f, r[j]);
        if r[j] != f {
          var m :| 0 <= m < |rest| && rest[m] == r[j];
          assert sorted[m + 1] == r[j];
        }
      }
    }
  }

  /** `files.sort(key=os.path.getmtime, reverse=True)`. */
  function SortNewestFirst(s: seq<StoredFile>): seq<StoredFile>
    decreases |s|
  {
    if s == [] then [] else Insert(SortNewestFirst(s[..|s| - 1]), s[|s| - 1])
  }

  /** The sort orders newest first and keeps every file. */
  lemma {:induction false} SortNewestFirstCorrect(s: seq<StoredFile>)
    ensures NewestFirst(SortNewestFirst(s))
    ensures multiset(SortNewestFirst(s)) == multiset(s)
    decreases |s|
  {
    if s != [] {
      var init := s[..|s| - 1];
      SortNewestFirstCorrect(init);
      InsertKeepsOrder(SortNewestFirst(init), s[|s| - 1]);
      InsertPermutes(SortNewestFirst(init), s[|s| - 1]);
      assert s == init + [s[|s| - 1]];
    }
  }

  /** Where Python's `s[:limit]` stops: a negative limit counts from the end. */
  function SliceStop(n: nat, limit: int): (k: nat)
    ensures k <= n
    ensures limit >= 0 ==> k == Min(n, limit)
    ensures limit < 0 ==> k == (if n + limit < 0 then 0 else n + limit)
  {
    if limit >= 0 then Min(n, limit)
    else if n + limit < 0 then 0 else n + limit
  }

  /** The files `list_insight_results` opens, newest first. */
  function Selected(dir: seq<StoredFile>, limit: int): seq<StoredFile> {
    var sorted := SortNewestFirst(JsonFiles(dir));
    sorted[..SliceStop(|sorted|, limit)]
  }

  datatype Summary = Summary(path: string, analysisName: string, timestamp: Option<string>,
                             insightsCount: int, highPriorityCount: int)

  /** The listing entry of a readable file, with the listing's defaults for missing fields. */
  function Summarize(path: string, c: Stored): Summary {
    Summary(path, c.analysisName.GetOr("Unknown"), c.timestamp, c.totalInsights.GetOr(0), c.highPriorityCount.GetOr(0))
  }

  /** The positions of the readable files from `i` on, in increasing order. */
  function Readable(files: seq<StoredFile>, i: nat): (idx: seq<nat>)
    requires i <= |files|
    ensures |idx| <= |files| - i
    ensures forall k :: 0 <= k < |idx| ==> i <= idx[k] < |files| && files[idx[k]].content.Some?
    decreases |files| - i
  {
    if i == |files| then []
    else (if files[i].content.Some? then [i] else []) + Readable(files, i + 1)
  }

  /** The readable positions are increasing and miss no readable file. */
  lemma {:induction false} ReadableExact(files: seq<StoredFile>, i: nat)
    requires i <= |files|
    ensures forall j, k :: 0 <= j < k < |Readable(files, i)| ==> Readable(files, i)[j] < Readable(files, i)[k]
    ensures forall m :: i <= m < |files| && files[m].content.Some? ==> m in Readable(files, i)
    decreases |files| - i
  {
    if i < |files| {
      ReadableExact(files, i + 1);
    }
  }

  /** The entries of the readable files from `i` on, in order; an unreadable file is skipped. */
  function SummariesFrom(files: seq<StoredFile>, i: nat): (r: seq<Summary>)
    requires i <= |files|
    ensures |r| == |Readable(files, i)|
    decreases |files| - i
  {
    if i == |files| then []
    else
      var rest := SummariesFrom(files, i + 1);
      match files[i].content
      case None => rest
      case Some(c) => [Summarize(files[i].path, c)] + rest
  }

  /** One file further: a readable file adds its position and its entry in front, another adds nothing. */
  lemma SummariesStep(files: seq<StoredFile>, i: nat)
    requires i < |files|
    ensures files[i].content.Some? ==>
              && Readable(files, i) == [i] + Readable(files, i + 1)
              && SummariesFrom(files, i) == [Summarize(files[i].path, files[i].content.value)] + SummariesFrom(files, i + 1)
    ensures files[i].content.None? ==>
              Readable(files, i) == Readable(files, i + 1) && SummariesFrom(files, i) == SummariesFrom(files, i + 1)
  {
  }

  /** The `k`-th entry summarises the `k`-th readable file. */
  lemma {:induction false} SummariesFromReadable(files: seq<StoredFile>, i: nat, k: nat)
    requires i <= |files| && k < |Readable(files, i)|
    ensures SummariesFrom(files, i)[k]
         == Summarize(files[Readable(files, i)[k]].path, files[Readable(files, i)[k]].content.value)
    decreases |files| - i
  {
    SummariesStep(files, i);
    if files[i].content.None? {
      SummariesFromReadable(files, i + 1, k);
    } else if k > 0 {
      SummariesFromReadable(files, i + 1, k - 1);
    }
  }

  /** The listing entries of `files`. */
  function Summaries(files: seq<StoredFile>): (r: seq<Summary>)
    ensures |r| <= |files|
    ensures |r| == |Readable(files, 0)|
  {
    SummariesFrom(files, 0)
  }

  datatype ListReply = NothingSaved | Found(results: seq<Summary>, totalFound: nat)

  /** `list_insight_results`. */
  function ListInsights(dir: Option<seq<StoredFile>>, limit: int): (r: ListReply)
    ensures dir.None? <==> r.NothingSaved?
    ensures r.Found? ==> r.totalFound == |r.results|
    ensures r.Found? && limit >= 0 ==> |r.results| <= limit
    ensures r.Found? ==> r.results == Summaries(Selected(dir.value, limit))
  {
    if dir.None? then NothingSaved
    else
      var sel := Selected(dir.value, limit);
      var results := Summaries(sel);
      Found(results, |results|)
  }

  /** The sorted JSON files the slice leaves out. */
  function Remaining(dir: seq<StoredFile>, limit: int): seq<StoredFile> {
    var sorted := SortNewestFirst(JsonFiles(dir));
    sorted[SliceStop(|sorted|, limit)..]
  }

  /** Cutting a newest-first sequence leaves a newest-first head, no older than anything in the tail. */
  lemma CutNewestFirst(s: seq<StoredFile>, k: nat)
    requires k <= |s| && NewestFirst(s)
    ensures NewestFirst(s[..k])
    ensures forall i, j :: 0 <= i < k && 0 <= j < |s| - k ==> s[..k][i].mtime >= s[k..][j].mtime
  {
    forall i, j | 0 <= i < k && 0 <= j < |s| - k
      ensures s[..k][i].mtime >= s[k..][j].mtime
    {
      assert s[..k][i] == s[i] && s[k..][j] == s[k + j];
    }
  }

  /**
   * The selection is the newest `limit` JSON files: it is ordered newest
   * first, every JSON file left out is no newer than any selected one, and
   * together they are exactly the JSON files of the directory.
   */
  lemma SelectedAreNewest(dir: seq<StoredFile>, limit: int)
    ensures NewestFirst(Selected(dir, limit))
    ensures limit >= 0 ==> |Selected(dir, limit)| <= limit
    ensures multiset(Selected(dir, limit) + Remaining(dir, limit)) == multiset(JsonFiles(dir))
    ensures forall i, j :: 0 <= i < |Selected(dir, limit)| && 0 <= j < |Remaining(dir, limit)| ==>
              Selected(dir, limit)[i].mtime >= Remaining(dir, limit)[j].mtime
  {
    var sorted := SortNewestFirst(JsonFiles(dir));
    var k := SliceStop(|sorted|, limit);
    assert Selected(dir, limit) == sorted[..k];
    assert Remaining(dir, limit) == sorted[k..];
    CutSorted(JsonFiles(dir), k);
  }

  /** Cutting the sorted files anywhere: a newest-first head, no older than the tail, and nothing lost. */
  lemma CutSorted(files: seq<StoredFile>, k: nat)
    requires k <= |SortNewestFirst(files)|
    ensures NewestFirst(SortNewestFirst(files)[..k])
    ensures multiset(SortNewestFirst(files)[..k] + SortNewestFirst(files)[k..]) == multiset(files)
    ensures forall i, j :: 0 <= i < k && 0 <= j < |SortNewestFirst(files)| - k ==>
              SortNewestFirst(files)[..k][i].mtime >= SortNewestFirst(files)[k..][j].mtime
  {
    var sorted := SortNewestFirst(files);
    SortNewestFirstCorrect(files);
    CutNewestFirst(sorted, k);
    assert sorted[..k] + sorted[k..] == sorted;
  }

  /**
   * The listing reports the readable files among the newest `limit`, each
   * summarised from its own file, newest first.
   */
  lemma ListedNewestFirst(dir: seq<StoredFile>, limit: int, j: nat, k: nat)
    requires j <= k < |ListInsights(Some(dir), limit).results|
    ensures ListInsights(Some(dir), limit).results[k]
         == Summarize(Selected(dir, limit)[Readable(Selected(dir, limit), 0)[k]].path,
                      Selected(dir, limit)[Readable(Selected(dir, limit), 0)[k]].content.value)
    ensures Selected(dir, limit)[Readable(Selected(dir, limit), 0)[j]].mtime
         >= Selected(dir, limit)[Readable(Selected(dir, limit), 0)[k]].mtime
  {
    var sel := Selected(dir, limit);
    SelectedAreNewest(dir, limit);
    ReadableExact(sel, 0);
    SummariesFromReadable(sel, 0, k);
  }

  /** A negative `limit` drops that many of the oldest files, as Python slicing does. */
  lemma NegativeLimitDropsOldest(dir: seq<StoredFile>, limit: int)
    requires limit < 0 && |JsonFiles(dir)| + limit >= 0
    ensures |Selected(dir, limit)| == |JsonFiles(dir)| + limit
  {
    SortNewestFirstCorrect(JsonFiles(dir));
    assert |multiset(SortNewestFirst(JsonFiles(dir)))| == |multiset(JsonFiles(dir))|;
  }

  /**
   * A record saved later than every file already there heads the next
   * listing, with the counts it was saved with.
   */
  lemma SaveThenList(dir: Option<seq<StoredFile>>, analysisName: string, insights: seq<Insight>,
                     stamp: string, timestamp: string, now: int, elsewhere: bool, limit: int)
    requires limit > 0
    requires forall f :: f in dir.GetOr([]) ==> f.mtime < now
    requires IsJsonName(FileName(analysisName, stamp))
    ensures SaveInsight(dir, analysisName, insights, stamp, timestamp, now, elsewhere).reply.Success?
    ensures ListInsights(Some(SaveInsight(dir, analysisName, insights, stamp, timestamp, now, elsewhere).dir), limit).Found?
    ensures |ListInsights(Some(SaveInsight(dir, analysisName, insights, stamp, timestamp, now, elsewhere).dir), limit).results| >= 1
    ensures ListInsights(Some(SaveInsight(dir, analysisName, insights, stamp, timestamp, now, elsewhere).dir), limit).results[0]
            == Summary(FileName(analysisName, stamp), analysisName, Some(timestamp), |insights|, HighCount(insights))
  {
    var saved := SaveInsight(dir, analysisName, insights, stamp, timestamp, now, elsewhere).dir;
    var f := StoredFile(FileName(analysisName, stamp), now, Some(Store(MakeRecord(analysisName, timestamp, insights))));
    SavedIsNewest(dir, analysisName, insights, stamp, timestamp, now, elsewhere);
    NewestHeadsSort(JsonFiles(saved), f);
    var sel := Selected(saved, limit);
    assert |sel| >= 1 && sel[0] == f;
    assert Summaries(sel) == [Summarize(f.path, Store(MakeRecord(analysisName, timestamp, insights)))] + SummariesFrom(sel, 1);
  }

  /** The record just saved is a JSON file of the directory, newer than every other one. */
  lemma SavedIsNewest(dir: Option<seq<StoredFile>>, analysisName: string, insights: seq<Insight>,
                      stamp: string, timestamp: string, now: int, elsewhere: bool)
    requires forall f :: f in dir.GetOr([]) ==> f.mtime < now
    requires IsJsonName(FileName(analysisName, stamp))
    ensures StoredFile(FileName(analysisName, stamp), now, Some(Store(MakeRecord(analysisName, timestamp, insights))))
            in JsonFiles(SaveInsight(dir, analysisName, insights, stamp, timestamp, now, elsewhere).dir)
    ensures forall g :: g in JsonFiles(SaveInsight(dir, analysisName, insights, stamp, timestamp, now, elsewhere).dir) ==>
              g == StoredFile(FileName(analysisName, stamp), now, Some(Store(MakeRecord(analysisName, timestamp, insights))))
              || g.mtime < now
  {
    assert FileName(analysisName, stamp)[|Directory + "/"|..] == EntryName(analysisName, stamp);
    PlainLanding(EntryName(analysisName, stamp));
  }

  /** A file strictly newer than all the others comes first after sorting. */
  lemma NewestHeadsSort(files: seq<StoredFile>, f: StoredFile)
    requires f in files
    requires forall g :: g in files ==> g == f || g.mtime < f.mtime
    ensures |SortNewestFirst(files)| >= 1 && SortNewestFirst(files)[0] == f
  {
    var sorted := SortNewestFirst(files);
    SortNewestFirstCorrect(files);
    assert f in multiset(sorted);
    var m :| 0 <= m < |sorted| && sorted[m] == f;
    assert sorted[0] in multiset(files);
    assert sorted[0].mtime >= f.mtime;
  }
}

=== FILE: limits.dfy ===
/** How the tools cap the length of their replies. */
module Limits {
  function Min(a: int, b: int): int {
    if a <= b then a else b
  }

  /** How many results a `max_results` admits: a negative limit admits none. */
  function Cap(limit: int): nat {
    if limit < 0 then 0 else limit
  }

  /** The first `n` elements, or all of them when there are fewer. */
  function Limited<T>(s: seq<T>, n: nat): seq<T> {
    s[..Min(|s|, n)]
  }
}

=== FILE: lines.dfy ===
/**
 * How Python's text mode sees a file: universal-newline translation on read
 * (`open(path, 'r')`), the lines a `for line in file` loop yields, and the
 * pieces of `str.splitlines()`.
 */
module Lines {

  /** Universal newlines: every "\r\n" and every lone "\r" reads as "\n". */
  function Translate(s: string): (r: string)
    ensures '\r' !in r
    ensures |r| <= |s|
    decreases |s|
  {
    if s == [] then []
    else if s[0] == '\r' then "\n" + Translate(if |s| > 1 && s[1] == '\n' then s[2..] else s[1..])
    else [s[0]] + Translate(s[1..])
  }

  /** Text without carriage returns reads back unchanged. */
  lemma {:induction false} TranslateNoCarriageReturn(s: string)
    requires '\r' !in s
    ensures Translate(s) == s
    decreases |s|
  {
    if s != [] {
      TranslateNoCarriageReturn(s[1..]);
      assert [s[0]] + s[1..] == s;
    }
  }

  /** Translated text is translated again to itself. */
  lemma TranslateIdempotent(s: string)
    ensures Translate(Translate(s)) == Translate(s)
  {
    TranslateNoCarriageReturn(Translate(s));
  }

  function Concat(parts: seq<string>): string
    decreases |parts|
  {
    if parts == [] then "" else parts[0] + Concat(parts[1..])
  }

  lemma ReadLinesUnfold(t: string)
    requires t != []
    ensures ReadLines(t) == [t[..FirstLineLength(t)]] + ReadLines(t[FirstLineLength(t)..])
  {
  }

  lemma SplitAt(t: string, k: nat)
    requires k <= |t|
    ensures t[..k] + t[k..] == t
  {
  }

  lemma ConcatCons(x: string, rest: seq<string>)
    ensures Concat([x] + rest) == x + Concat(rest)
  {
    assert ([x] + rest)[1..] == rest;
  }

  /** Length of the first line of `t`, its "\n" included. */
  function FirstLineLength(t: string): (k: nat)
    requires t != []
    ensures 0 < k <= |t|
    ensures '\n' !in t[..k - 1]
    ensures k < |t| ==> t[k - 1] == '\n'
  {
    if t[0] == '\n' || |t| == 1 then 1
    else
      var k := 1 + FirstLineLength(t[1..]);
      assert t[..k - 1] == [t[0]] + t[1..][..k - 2];
      k
  }

  /** The lines `for line in file` yields: each keeps its "\n", none is empty. */
  function ReadLines(t: string): (ls: seq<string>)
    ensures forall i :: 0 <= i < |ls| ==> ls[i] != [] && '\n' !in ls[i][..|ls[i]| - 1]
    ensures forall i :: 0 <= i < |ls| - 1 ==> ls[i][|ls[i]| - 1] == '\n'
    ensures |ls| <= |t|
    decreases |t|
  {
    if t == [] then []
    else
      var k := FirstLineLength(t);
      [t[..k]] + ReadLines(t[k..])
  }

  /** Gluing the lines back together gives the text that was read. */
  lemma {:induction false} ReadLinesConcat(t: string)
    ensures Concat(ReadLines(t)) == t
    decreases |t|
  {
    if t != [] {
      var k := FirstLineLength(t);
      var rest := ReadLines(t[k..]);
      ReadLinesConcat(t[k..]);
      ReadLinesUnfold(t);
      ConcatCons(t[..k], rest);
      SplitAt(t, k);
    }
  }

  /** The characters `str.splitlines()` breaks at (after translation "\r" no longer occurs). */
  predicate IsLineBoundary(c: char) {
    var n := c as int;
    n == 0x0A || n == 0x0D || n == 0x0B || n == 0x0C || n == 0x1C || n == 0x1D || n == 0x1E
    || n == 0x85 || n == 0x2028 || n == 0x2029
  }

  /** Length of the text before the first line boundary. */
  function BoundaryFreePrefix(t: string): (k: nat)
    ensures k <= |t|
    ensures forall i :: 0 <= i < k ==> !IsLineBoundary(t[i])
    ensures k < |t| ==> IsLineBoundary(t[k])
  {
    if t == [] || IsLineBoundary(t[0]) then 0 else 1 + BoundaryFreePrefix(t[1..])
  }

  /** `t.splitlines()`: the pieces between boundaries, a "\r\n" pair counting as one. */
  function SplitLines(t: string): (r: seq<string>)
    ensures t == [] <==> r == []
    ensures |r| <= |t|
    decreases |t|
  {
    if t == [] then []
    else
      var k := BoundaryFreePrefix(t);
      if k == |t| then [t]
      else
        var skip := if t[k] == '\r' && k + 1 < |t| && t[k + 1] == '\n' then 2 else 1;
        [t[..k]] + SplitLines(t[k + skip..])
  }

  /**
   * When the only boundary in the text is "\n", `splitlines()` yields as many
   * pieces as a line-by-line read of the same text.
   */
  lemma {:induction false} SplitLinesCountsReadLines(t: string)
    requires forall i :: 0 <= i < |t| ==> IsLineBoundary(t[i]) ==> t[i] == '\n'
    ensures |SplitLines(t)| == |ReadLines(t)|
    decreases |t|
  {
    if t != [] {
      var k := BoundaryFreePrefix(t);
      var f := FirstLineLength(t);
      if k == |t| {
        assert '\n' !in t;
        assert f == |t|;
      } else {
        assert t[k] == '\n';
        assert t[..f - 1][..k] == t[..k];
        assert f == k + 1;
        SplitLinesCountsReadLines(t[k + 1..]);
      }
    }
  }
}

=== FILE: project_analyzer.dfy ===
/**
 * `analyze_project_structure` and `create_integration_plan` of
 * project_integration_analyzer.py. The directory walk is the `os.walk`
 * result, as for `find_files`.
 */
module ProjectAnalyzer {
  import opened Wrappers
  import opened FileSystem
  import FileListing
  import Text

  /** `PurePath.suffix`: from the last '.', unless that dot starts or ends the name. */
  function Suffix(name: string): (r: string)
    ensures r != [] ==> r[0] == '.' && |r| >= 2 && Text.EndsWith(name, r) && |r| < |name|
  {
    match FileListing.LastIndexOf(name, '.')
    case None => ""
    case Some(i) => if 0 < i < |name| - 1 then name[i..] else ""
  }

  /** The technologies recognised, each by the suffix '.' + name. */
  const TechNames: seq<string> := ["py", "js", "ts", "java", "cpp", "go"]

  const KeyFileNames: seq<string> := ["readme.md", "package.json", "requirements.txt", "main.py"]

  /** The position in `names` from `i` on whose dotted form is `ext`, if any. */
  function DottedIndex(names: seq<string>, ext: string, i: nat): (r: Option<nat>)
    requires i <= |names|
    ensures r.Some? ==> i <= r.value < |names| && ['.'] + names[r.value] == ext
    ensures r.None? ==> forall m :: i <= m < |names| ==> ['.'] + names[m] != ext
    decreases |names| - i
  {
    if i == |names| then None
    else if ['.'] + names[i] == ext then Some(i)
    else DottedIndex(names, ext, i + 1)
  }

  /** The technology a file shows: its lower-cased suffix without the dot, when that is a known one. */
  function TechOf(p: Path): (t: Option<string>)
    ensures t.Some? ==> t.value in TechNames && ['.'] + t.value == Text.Lower(Suffix(Basename(p)))
    ensures t.None? ==> forall m :: 0 <= m < |TechNames| ==> ['.'] + TechNames[m] != Text.Lower(Suffix(Basename(p)))
  {
    match DottedIndex(TechNames, Text.Lower(Suffix(Basename(p))), 0)
    case None => None
    case Some(m) => Some(TechNames[m])
  }

  /** The values present among `opts`, without duplicates. */
  function Present(opts: seq<Option<string>>): set<string>
    decreases |opts|
  {
    if opts == [] then {}
    else Present(opts[..|opts| - 1]) + (if opts[|opts| - 1].Some? then {opts[|opts| - 1].value} else {})
  }

  lemma {:induction false} PresentIff(opts: seq<Option<string>>, t: string)
    ensures t in Present(opts) <==> exists k :: 0 <= k < |opts| && opts[k] == Some(t)
    decreases |opts|
  {
    if opts != [] {
      var n := |opts| - 1;
      var init := opts[..n];
      PresentIff(init, t);
      if t in Present(init) {
        var k :| 0 <= k < n && init[k] == Some(t);
        assert opts[k] == init[k];
      }
      if k :| 0 <= k < |opts| && opts[k] == Some(t) {
        if k < n {
          assert init[k] == opts[k];
        }
      }
    }
  }

  function TechsOf(files: seq<Path>): (r: seq<Option<string>>)
    ensures |r| == |files|
    ensures forall k :: 0 <= k < |files| ==> r[k] == TechOf(files[k])
  {
    seq(|files|, k requires 0 <= k < |files| => TechOf(files[k]))
  }

  /** The technologies of `files`, without duplicates: the Python `set` turned into a list. */
  function Technologies(files: seq<Path>): set<string> {
    Present(TechsOf(files))
  }

  /** A technology is recorded exactly when some file shows it. */
  lemma TechnologiesIff(files: seq<Path>, t: string)
    ensures t in Technologies(files) <==> exists k :: 0 <= k < |files| && TechOf(files[k]) == Some(t)
  {
    PresentIff(TechsOf(files), t);
  }

  /** Every recorded technology is one of the six, spelled without its dot. */
  lemma TechnologiesAreKnown(files: seq<Path>, t: string)
    requires t in Technologies(files)
    ensures t in TechNames
  {
    TechnologiesIff(files, t);
  }

  predicate IsKeyFile(p: Path) {
    Text.Lower(Basename(p)) in KeyFileNames
  }

  /** The key files among `files`, in walk order. */
  function KeyFiles(files: seq<Path>): (r: seq<Path>)
    ensures forall p :: p in r <==> p in files && IsKeyFile(p)
    ensures |r| <= |files|
    decreases |files|
  {
    if files == [] then []
    else
      assert files == [files[0]] + files[1..];
      (if IsKeyFile(files[0]) then [files[0]] else []) + KeyFiles(files[1..])
  }

  datatype Analysis = Analysis(path: Path, files: seq<Path>, technologies: set<string>, keyFiles: seq<Path>)

  /** `analyze_project_structure`: every walked file, their technologies and the key files among them. */
  function AnalyzeProject(top: Path, walk: seq<FileListing.WalkStep>): (a: Analysis)
    ensures a.path == top
    ensures forall j, n :: 0 <= j < |walk| && 0 <= n < |walk[j].files| ==>
              walk[j].root + [walk[j].files[n]] in a.files
    ensures a.files == FileListing.Visited(walk, top, true)
    ensures a.technologies == Technologies(a.files) && a.keyFiles == KeyFiles(a.files)
  {
    forall j, n | 0 <= j < |walk| && 0 <= n < |walk[j].files|
      ensures walk[j].root + [walk[j].files[n]] in FileListing.Visited(walk, top, true)
    {
      FileListing.VisitedAll(walk, top, j, n);
    }
    var files := FileListing.Visited(walk, top, true);
    Analysis(top, files, Technologies(files), KeyFiles(files))
  }

  /** `analyze_project_structure` lists only walked files. */
  lemma AnalyzedFilesAreWalked(top: Path, walk: seq<FileListing.WalkStep>, k: nat)
    requires k < |AnalyzeProject(top, walk).files|
    ensures exists j, n :: 0 <= j < |walk| && 0 <= n < |walk[j].files|
              && AnalyzeProject(top, walk).files[k] == walk[j].root + [walk[j].files[n]]
  {
    FileListing.VisitedFromWalk(walk, top, true, k);
  }

  /**
   * The analysis's technologies are exactly those some listed file shows, and
   * its key files exactly the listed files with a key name.
   */
  lemma AnalysisIff(top: Path, walk: seq<FileListing.WalkStep>, t: string, p: Path)
    ensures t in AnalyzeProject(top, walk).technologies <==>
            exists m :: 0 <= m < |AnalyzeProject(top, walk).files| && TechOf(AnalyzeProject(top, walk).files[m]) == Some(t)
    ensures p in AnalyzeProject(top, walk).keyFiles <==> p in AnalyzeProject(top, walk).files && IsKeyFile(p)
  {
    TechnologiesIff(AnalyzeProject(top, walk).files, t);
  }

  datatype Plan = Plan(commonTechnologies: set<string>, mergeCandidates: seq<string>,
                       conflicts: seq<string>, recommendations: seq<string>)

  /** `set.intersection(*all_techs)`, which needs at least one set. */
  function Intersection(sets: seq<set<string>>): set<string>
    requires |sets| >= 1
    decreases |sets|
  {
    if |sets| == 1 then sets[0] else sets[0] * Intersection(sets[1..])
  }

  /** A technology is common exactly when every project has it. */
  lemma {:induction false} IntersectionIff(sets: seq<set<string>>, t: string)
    requires |sets| >= 1
    ensures t in Intersection(sets) <==> forall i :: 0 <= i < |sets| ==> t in sets[i]
    decreases |sets|
  {
    if |sets| > 1 {
      IntersectionIff(sets[1..], t);
      if forall i :: 1 <= i < |sets| ==> t in sets[i] {
        assert forall i :: 0 <= i < |sets| - 1 ==> t in sets[1..][i] by {
          forall i | 0 <= i < |sets| - 1 ensures t in sets[1..][i] {
            assert sets[1..][i] == sets[i + 1];
          }
        }
      }
      if forall i :: 0 <= i < |sets| - 1 ==> t in sets[1..][i] {
        forall i | 1 <= i < |sets| ensures t in sets[i] {
          assert sets[i] == sets[1..][i - 1];
        }
      }
    }
  }

  function TechnologySets(projects: seq<Analysis>): (r: seq<set<string>>)
    ensures |r| == |projects|
    ensures forall i :: 0 <= i < |r| ==> r[i] == projects[i].technologies
  {
    seq(|projects|, i requires 0 <= i < |projects| => projects[i].technologies)
  }

  /** `create_integration_plan`: only the common technologies are ever filled in. */
  function IntegrationPlan(projects: seq<Analysis>): (p: Plan)
    ensures p.mergeCandidates == [] && p.conflicts == [] && p.recommendations == []
    ensures projects == [] ==> p.commonTechnologies == {}
  {
    var all := TechnologySets(projects);
    Plan(if all == [] then {} else Intersection(all), [], [], [])
  }

  /** The common technologies are those every analysed project uses, and there are none without projects. */
  lemma CommonTechnologiesIff(projects: seq<Analysis>, t: string)
    ensures t in IntegrationPlan(projects).commonTechnologies <==>
            projects != [] && forall i :: 0 <= i < |projects| ==> t in projects[i].technologies
  {
    if projects != [] {
      IntersectionIff(TechnologySets(projects), t);
    }
  }

  /** The common technologies lie within each project's. */
  lemma CommonWithinEach(projects: seq<Analysis>, i: nat)
    requires i < |projects|
    ensures IntegrationPlan(projects).commonTechnologies <= projects[i].technologies
  {
    forall t | t in IntegrationPlan(projects).commonTechnologies
      ensures t in projects[i].technologies
    {
      CommonTechnologiesIff(projects, t);
    }
  }
}

=== FILE: text.dfy ===
/**
 * String helpers with the meaning the Python standard library gives them:
 * `in` on strings, `str.lower`, `str.strip`, `str.split`, `str.join` and the
 * UTF-8 byte length `len(s.encode('utf-8'))`.
 */
module Text {

  /** Case folding on one character: the ASCII part of `str.lower`. */
  function LowerChar(c: char): char {
    if 'A' <= c <= 'Z' then (c as int + 32) as char else c
  }

  function Lower(s: string): (r: string)
    ensures |r| == |s|
    ensures forall i :: 0 <= i < |s| ==> r[i] == LowerChar(s[i])
  {
    if s == [] then [] else [LowerChar(s[0])] + Lower(s[1..])
  }

  /** Folding twice is folding once. */
  lemma LowerIdempotent(s: string)
    ensures Lower(Lower(s)) == Lower(s)
  {
    assert forall i :: 0 <= i < |s| ==> LowerChar(LowerChar(s[i])) == LowerChar(s[i]);
  }

  lemma {:induction false} LowerAppend(a: string, b: string)
    ensures Lower(a + b) == Lower(a) + Lower(b)
    decreases |a|
  {
    if a == [] {
      assert a + b == b;
    } else {
      assert (a + b)[1..] == a[1..] + b;
      LowerAppend(a[1..], b);
      assert [LowerChar(a[0])] + (Lower(a[1..]) + Lower(b)) == ([LowerChar(a[0])] + Lower(a[1..])) + Lower(b);
    }
  }

  predicate StartsWith(s: string, p: string) {
    |p| <= |s| && s[..|p|] == p
  }

  predicate EndsWith(s: string, p: string) {
    |p| <= |s| && s[|s| - |p|..] == p
  }

  /** Case folding keeps a suffix a suffix. */
  lemma LowerSuffix(s: string, t: string)
    requires EndsWith(s, t)
    ensures EndsWith(Lower(s), Lower(t))
  {
    var k := |s| - |t|;
    forall i | 0 <= i < |t| ensures Lower(s)[k..][i] == Lower(t)[i] {
      assert s[k + i] == t[i];
    }
  }

  /** `k` occurs in `s` starting at index `i`. */
  predicate OccursAt(s: string, k: string, i: int) {
    0 <= i && i + |k| <= |s| && s[i..i + |k|] == k
  }

  /** Python's `k in s` for strings, computed by sliding along `s`. */
  predicate Contains(s: string, k: string)
    decreases |s|
  {
    StartsWith(s, k) || (|s| > 0 && Contains(s[1..], k))
  }

  /** The sliding scan finds `k` exactly when `k` occurs somewhere in `s`. */
  lemma {:induction false} ContainsIffOccurs(s: string, k: string)
    ensures Contains(s, k) <==> exists i :: OccursAt(s, k, i)
    decreases |s|
  {
    if StartsWith(s, k) {
      assert OccursAt(s, k, 0);
    } else if |s| > 0 {
      ContainsIffOccurs(s[1..], k);
      if Contains(s[1..], k) {
        var i :| OccursAt(s[1..], k, i);
        assert s[1..][i..i + |k|] == s[i + 1..i + 1 + |k|];
        assert OccursAt(s, k, i + 1);
      }
      if i :| OccursAt(s, k, i) {
        assert i != 0;
        assert s[1..][i - 1..i - 1 + |k|] == s[i..i + |k|];
        assert OccursAt(s[1..], k, i - 1);
      }
    }
  }

  /** The whitespace characters of Python's `str.isspace`. */
  predicate IsSpace(c: char) {
    var n := c as int;
    || (0x09 <= n <= 0x0D) || (0x1C <= n <= 0x20)
    || n == 0x85 || n == 0xA0 || n == 0x1680
    || (0x2000 <= n <= 0x200A)
    || n == 0x2028 || n == 0x2029 || n == 0x202F || n == 0x205F || n == 0x3000
  }

  /** Python's `s.strip()`: drops whitespace at both ends. */
  function Strip(s: string): (r: string)
    ensures |r| <= |s|
    ensures r != [] ==> !IsSpace(r[0]) && !IsSpace(r[|r| - 1])
    decreases |s|
  {
    if s != [] && IsSpace(s[0]) then Strip(s[1..])
    else if s != [] && IsSpace(s[|s| - 1]) then Strip(s[..|s| - 1])
    else s
  }

  /** `s[a..b]` is `s` with only whitespace around it. */
  predicate TrimmedSlice(s: string, a: int, b: int) {
    && 0 <= a <= b <= |s|
    && (forall i :: 0 <= i < a ==> IsSpace(s[i]))
    && (forall i :: b <= i < |s| ==> IsSpace(s[i]))
  }

  /** A trimmed slice of the tail, behind leading whitespace, is a trimmed slice of the whole. */
  lemma TrimmedAfterSpace(s: string, a: int, b: int)
    requires s != [] && IsSpace(s[0]) && TrimmedSlice(s[1..], a, b)
    ensures TrimmedSlice(s, a + 1, b + 1) && s[1..][a..b] == s[a + 1..b + 1]
  {
    var t := s[1..];
    forall i | 0 <= i < a + 1 ensures IsSpace(s[i]) {
      if i > 0 {
        assert s[i] == t[i - 1];
      }
    }
    forall i | b + 1 <= i < |s| ensures IsSpace(s[i]) {
      assert s[i] == t[i - 1];
    }
  }

  /** A trimmed slice of the front, before trailing whitespace, is a trimmed slice of the whole. */
  lemma TrimmedBeforeSpace(s: string, a: int, b: int)
    requires s != [] && IsSpace(s[|s| - 1]) && TrimmedSlice(s[..|s| - 1], a, b)
    ensures TrimmedSlice(s, a, b) && s[..|s| - 1][a..b] == s[a..b]
  {
    var t := s[..|s| - 1];
    forall i | 0 <= i < a ensures IsSpace(s[i]) {
      assert s[i] == t[i];
    }
    forall i | b <= i < |s| ensures IsSpace(s[i]) {
      if i < |s| - 1 {
        assert s[i] == t[i];
      }
    }
  }

  /** What `strip` leaves is a slice of the input with only whitespace cut off around it. */
  lemma {:induction false} StripIsTrimmedSlice(s: string)
    ensures exists a, b :: TrimmedSlice(s, a, b) && Strip(s) == s[a..b]
    decreases |s|
  {
    if s != [] && IsSpace(s[0]) {
      StripIsTrimmedSlice(s[1..]);
      var a, b :| TrimmedSlice(s[1..], a, b) && Strip(s[1..]) == s[1..][a..b];
      TrimmedAfterSpace(s, a, b);
    } else if s != [] && IsSpace(s[|s| - 1]) {
      StripIsTrimmedSlice(s[..|s| - 1]);
      var a, b :| TrimmedSlice(s[..|s| - 1], a, b) && Strip(s[..|s| - 1]) == s[..|s| - 1][a..b];
      TrimmedBeforeSpace(s, a, b);
    } else {
      assert s[0..|s|] == s;
      assert TrimmedSlice(s, 0, |s|);
    }
  }

  /** Bytes needed to encode one character in UTF-8. */
  function Utf8Width(c: char): nat {
    if c as int < 0x80 then 1
    else if c as int < 0x800 then 2
    else if c as int < 0x1_0000 then 3
    else 4
  }

  /** `len(s.encode('utf-8'))`. */
  function Utf8Length(s: string): (n: nat)
    ensures |s| <= n <= 4 * |s|
  {
    if s == [] then 0 else Utf8Width(s[0]) + Utf8Length(s[1..])
  }

  /** The byte length of a concatenation is the sum of the byte lengths. */
  lemma {:induction false} Utf8LengthAppend(a: string, b: string)
    ensures Utf8Length(a + b) == Utf8Length(a) + Utf8Length(b)
    decreases |a|
  {
    if a != [] {
      assert (a + b)[1..] == a[1..] + b;
      Utf8LengthAppend(a[1..], b);
    } else {
      assert a + b == b;
    }
  }

  /** Plain ASCII text takes one byte per character. */
  lemma {:induction false} Utf8LengthAscii(s: string)
    requires forall i :: 0 <= i < |s| ==> s[i] as int < 0x80
    ensures Utf8Length(s) == |s|
    decreases |s|
  {
    if s != [] {
      Utf8LengthAscii(s[1..]);
    }
  }

  /** `sep.join(parts)`. */
  function Join(parts: seq<string>, sep: string): string
    decreases |parts|
  {
    if |parts| == 0 then ""
    else if |parts| == 1 then parts[0]
    else parts[0] + sep + Join(parts[1..], sep)
  }

  /** `s.split(sep)` for a one-character separator: never empty, no piece holds the separator. */
  function Split(s: string, sep: char): (r: seq<string>)
    ensures |r| >= 1
    ensures forall i :: 0 <= i < |r| ==> sep !in r[i]
  {
    if s == [] then [""]
    else
      var rest := Split(s[1..], sep);
      if s[0] == sep then [""] + rest
      else [[s[0]] + rest[0]] + rest[1..]
  }

  /** Splitting text that contains no separator gives it back whole. */
  lemma {:induction false} SplitNoSep(s: string, sep: char)
    requires sep !in s
    ensures Split(s, sep) == [s]
    decreases |s|
  {
    if s != [] {
      SplitNoSep(s[1..], sep);
      assert [s[0]] + s[1..] == s;
    }
  }

  /** A separator splits off exactly the separator-free text before it. */
  lemma {:induction false} SplitAtSep(a: string, b: string, sep: char)
    requires sep !in a
    ensures Split(a + [sep] + b, sep) == [a] + Split(b, sep)
    decreases |a|
  {
    if a == [] {
      assert a + [sep] + b == [sep] + b;
      assert ([sep] + b)[1..] == b;
    } else {
      assert (a + [sep] + b)[1..] == a[1..] + [sep] + b;
      SplitAtSep(a[1..], b, sep);
      assert [a[0]] + a[1..] == a;
    }
  }

  /** `s.split(sep)` undoes `sep.join(parts)` when no part holds the separator. */
  lemma {:induction false} SplitJoin(parts: seq<string>, sep: char)
    requires |parts| >= 1
    requires forall i :: 0 <= i < |parts| ==> sep !in parts[i]
    ensures Split(Join(parts, [sep]), sep) == parts
    decreases |parts|
  {
    if |parts| == 1 {
      SplitNoSep(parts[0], sep);
    } else {
      SplitJoin(parts[1..], sep);
      SplitAtSep(parts[0], Join(parts[1..], [sep]), sep);
      assert [parts[0]] + parts[1..] == parts;
    }
  }

  predicate IsDigit(c: char) {
    '0' <= c <= '9'
  }

  function DigitChar(d: nat): (c: char)
    requires d < 10
    ensures IsDigit(c)
  {
    ('0' as int + d) as char
  }

  /** `str(n)` for a natural number: its decimal digits, most significant first. */
  function NatText(n: nat): (r: string)
    ensures |r| >= 1
    ensures forall i :: 0 <= i < |r| ==> IsDigit(r[i])
    decreases n
  {
    if n < 10 then [DigitChar(n)] else NatText(n / 10) + [DigitChar(n % 10)]
  }

  /** The number a string of decimal digits denotes: `int(s)`. */
  function DigitsValue(s: string): int
    requires forall i :: 0 <= i < |s| ==> IsDigit(s[i])
  {
    if s == [] then 0 else DigitsValue(s[..|s| - 1]) * 10 + (s[|s| - 1] as int - '0' as int)
  }

  /** `int(str(n)) == n`. */
  lemma {:induction false} NatTextRoundTrip(n: nat)
    ensures DigitsValue(NatText(n)) == n
    decreases n
  {
    if n >= 10 {
      NatTextRoundTrip(n / 10);
      var r := NatText(n);
      assert r[..|r| - 1] == NatText(n / 10);
    }
  }

  /** `str(n)` for any integer. */
  function IntText(n: int): string {
    if n < 0 then "-" + NatText(-n) else NatText(n)
  }
}

=== FILE: unified_files.dfy ===
/**
 * The file tools of src/unified-mcp-server.py: `read_file` with its text /
 * binary distinction and line count, and `write_file`, which checks for an
 * existing path before anything else and creates a missing parent directory.
 */
module UnifiedFiles {
  import opened Wrappers
  import opened FileSystem
  import Text
  import Lines
  import FileOps

  /** `read_file` refuses files above 10 MiB. */
  const MaxReadSize: nat := 10 * 1024 * 1024

  datatype ReadReply =
    | TextFile(path: Path, size: nat, content: string, lineCount: nat)
    | BinaryFile(path: Path, size: nat)

  datatype WriteReply = Written(path: Path, size: nat)

  /** `len(content.splitlines()) if content else 0`. */
  function LineCount(content: string): (n: nat)
    ensures n == 0 <==> content == []
    ensures n <= |content|
  {
    if content == [] then 0 else |Lines.SplitLines(content)|
  }

  /** Text read in universal-newline mode: its line count is the number of lines `for line in file` yields. */
  lemma LineCountOfTranslated(raw: string)
    requires forall i :: 0 <= i < |raw| ==> Lines.IsLineBoundary(raw[i]) ==> raw[i] == '\n' || raw[i] == '\r'
    ensures LineCount(Lines.Translate(raw)) == |Lines.ReadLines(Lines.Translate(raw))|
  {
    var t := Lines.Translate(raw);
    TranslateKeepsBoundaries(raw);
    Lines.SplitLinesCountsReadLines(t);
  }

  /** Universal-newline translation introduces no line boundary other than '\n'. */
  lemma {:induction false} TranslateKeepsBoundaries(raw: string)
    requires forall i :: 0 <= i < |raw| ==> Lines.IsLineBoundary(raw[i]) ==> raw[i] == '\n' || raw[i] == '\r'
    ensures forall i :: 0 <= i < |Lines.Translate(raw)| ==> Lines.IsLineBoundary(Lines.Translate(raw)[i]) ==> Lines.Translate(raw)[i] == '\n'
    decreases |raw|
  {
    if raw != [] {
      if raw[0] == '\r' && |raw| > 1 && raw[1] == '\n' {
        TranslateKeepsBoundaries(raw[2..]);
      } else {
        TranslateKeepsBoundaries(raw[1..]);
      }
    }
  }

  /** `read_file`: text files come back decoded with a line count, undecodable ones as binary. */
  function ReadFile(fs: FileSystem, p: Path): (r: Result<ReadReply, FsError>)
    ensures p !in fs ==> r == Failure(NotFound(p))
    ensures IsDir(fs, p) ==> r == Failure(NotAFile(p))
    ensures IsFile(fs, p) && fs[p].size > MaxReadSize ==> r == Failure(FileTooLarge(fs[p].size, 10))
    ensures r.Success? <==> IsFile(fs, p) && fs[p].size <= MaxReadSize
    ensures r.Success? ==> r.value.path == p && r.value.size == fs[p].size
    ensures r.Success? ==> (r.value.TextFile? <==> fs[p].decodable)
    ensures r.Success? && r.value.TextFile? ==>
              r.value.content == Lines.Translate(fs[p].content)
              && r.value.lineCount == LineCount(r.value.content)
              && (r.value.lineCount == 0 <==> r.value.content == [])
  {
    if p !in fs then Failure(NotFound(p))
    else if !fs[p].File? then Failure(NotAFile(p))
    else if fs[p].size > MaxReadSize then Failure(FileTooLarge(fs[p].size, 10))
    else if !fs[p].decodable then Success(BinaryFile(p, fs[p].size))
    else
      var content := Lines.Translate(fs[p].content);
      Success(TextFile(p, fs[p].size, content, LineCount(content)))
  }

  /** Every file the archive handler reads, this one reads with the same decoded content. */
  lemma ReadAgreesWithArchive(fs: FileSystem, p: Path)
    requires FileOps.ReadFile(fs, p).Success?
    ensures ReadFile(fs, p).Success? && ReadFile(fs, p).value.TextFile?
    ensures ReadFile(fs, p).value.content == FileOps.ReadFile(fs, p).value.content
  {
  }

  /**
   * `write_file`: an existing path without `overwrite` is refused first; a
   * missing parent directory is created with `os.makedirs`; then `open(p, 'w')`
   * fails on a directory or when the parent is not a directory.
   */
  function WriteFile(fs: FileSystem, p: Path, content: string, overwrite: bool, now: int): (o: FileOps.Outcome<WriteReply>)
    ensures p in fs && !overwrite ==> o == FileOps.Outcome(fs, Failure(AlreadyExists(p)))
    ensures o.reply.Failure? ==> o.fs == fs
    ensures o.reply.Success? ==> o.reply.value == Written(p, Text.Utf8Length(content))
    ensures o.reply.Success? ==> p != [] && p in o.fs && o.fs[p] == FileOps.NewFile(content, now)
    ensures o.reply.Success? ==> forall q :: q in fs && q != p ==> q in o.fs && o.fs[q] == fs[q]
    ensures o.reply.Success? ==> forall q :: q in o.fs && q !in fs && q != p ==> IsPrefix(q, p) && o.fs[q].Dir?
    ensures o.reply.Success? && WellFormed(fs) ==> WellFormed(o.fs)
  {
    if p in fs && !overwrite then FileOps.Outcome(fs, Failure(AlreadyExists(p)))
    else if p == [] then FileOps.Outcome(fs, Failure(IsADirectory(p)))
    else
      var parent := Parent(p);
      var made := if parent !in fs then MakeDirs(fs, parent, false) else Success(fs);
      match made
      case Failure(e) => FileOps.Outcome(fs, Failure(e))
      case Success(fs1) =>
        if IsDir(fs1, p) then FileOps.Outcome(fs, Failure(IsADirectory(p)))
        else if !IsDir(fs1, parent) then FileOps.Outcome(fs, Failure(NotADirectory(parent)))
        else
          PutAfterMakeDirs(fs, fs1, p, FileOps.NewFile(content, now));
          FileOps.Outcome(fs1[p := FileOps.NewFile(content, now)], Success(Written(p, Text.Utf8Length(content))))
  }

  /**
   * On a well-formed tree both servers' `write_file` leave the same file
   * system and agree on success; they differ only in which error a refused
   * write reports.
   */
  lemma WriteAgreesWithArchive(fs: FileSystem, p: Path, content: string, overwrite: bool, now: int)
    requires WellFormed(fs)
    ensures WriteFile(fs, p, content, overwrite, now).fs == FileOps.WriteFile(fs, p, content, overwrite, now).fs
    ensures WriteFile(fs, p, content, overwrite, now).reply.Success?
        <==> FileOps.WriteFile(fs, p, content, overwrite, now).reply.Success?
  {
    if p != [] && !(p in fs && !overwrite) && !IsDir(fs, p) {
      var parent := Parent(p);
      if parent in fs {
        if IsDir(fs, parent) {
          FileOps.WriteFileOnlyTarget(fs, p, content, overwrite, now);
        } else {
          assert MakeDirs(fs, parent, true) == Failure(AlreadyExists(parent));
        }
      } else {
        MakeDirsFailsIffFileOnPath(fs, parent);
        assert MakeDirs(fs, parent, false) == MakeDirs(fs, parent, true) by {
          MakeDirsIgnoresExistOk(fs, parent);
        }
      }
    }
  }

  /** For a missing directory `exist_ok` makes no difference to `os.makedirs`. */
  lemma MakeDirsIgnoresExistOk(fs: FileSystem, d: Path)
    requires d !in fs
    ensures MakeDirs(fs, d, false) == MakeDirs(fs, d, true)
  {
  }

  /** What `write_file` stores, `read_file` returns as text with its line count. */
  lemma WriteThenRead(fs: FileSystem, p: Path, content: string, overwrite: bool, now: int)
    requires WriteFile(fs, p, content, overwrite, now).reply.Success?
    requires Text.Utf8Length(content) <= MaxReadSize
    ensures var r := ReadFile(WriteFile(fs, p, content, overwrite, now).fs, p);
            && r.Success? && r.value.TextFile?
            && r.value.size == Text.Utf8Length(content)
            && r.value.content == Lines.Translate(content)
            && ('\r' !in content ==> r.value.content == content)
            && (r.value.lineCount == 0 <==> content == [])
  {
    ReadNewFile(WriteFile(fs, p, content, overwrite, now).fs, p, content, now);
  }

  /** A freshly written file reads back as its translated text. */
  lemma ReadNewFile(fs: FileSystem, p: Path, content: string, now: int)
    requires p in fs && fs[p] == FileOps.NewFile(content, now)
    requires Text.Utf8Length(content) <= MaxReadSize
    ensures ReadFile(fs, p).Success? && ReadFile(fs, p).value.TextFile?
    ensures ReadFile(fs, p).value.size == Text.Utf8Length(content)
    ensures ReadFile(fs, p).value.content == Lines.Translate(content)
    ensures '\r' !in content ==> ReadFile(fs, p).value.content == content
    ensures ReadFile(fs, p).value.lineCount == 0 <==> content == []
  {
    if '\r' !in content {
      Lines.TranslateNoCarriageReturn(content);
    }
    TranslateEmpty(content);
  }

  /** Translation leaves text empty exactly when it was empty. */
  lemma TranslateEmpty(s: string)
    ensures Lines.Translate(s) == [] <==> s == []
  {
  }
}

=== FILE: wrappers.dfy ===
/** Failure-compatible Option and Result types shared by every module of the model. */
module Wrappers {

  datatype Option<+T> = None | Some(value: T) {
    function GetOr(default: T): T {
      match this
      case Some(v) => v
      case None => default
    }
  }

  /** The outcome of a tool handler: a payload, or an error that becomes the reply's "error" text. */
  datatype Result<+R, +E> = Success(value: R) | Failure(error: E) {
    predicate IsFailure() {
      Failure?
    }

    function PropagateFailure<U>(): Result<U, E>
      requires Failure?
    {
      Failure(error)
    }

    function Extract(): R
      requires Success?
    {
      value
    }
  }
}
